=== FILE: README.md ===
# FinderEnhance core, modelled in Dafny

FinderEnhance is a macOS menu-bar helper written for Electron. While Finder is
in front, it takes over a few global hotkeys:

- **Space** on a selected folder or archive opens its own preview window, which
  lists the folder's or archive's contents.
- **Cmd+X / Cmd+V** cut and move files through Finder scripts.
- **Cmd+Shift+P** forces a preview.

This project is a functional model of the core of that program, with proofs
about it. Each piece of state is an immutable record, and every callback (a probe
reply, a key press, a DOM-ready event, a timer, a health-check tick, quit) is one
pure transition on it.

| file | module | models |
|---|---|---|
| `common.dfy` | `Common` | `Option`, and the outcome of one `exec` call (`ExecReply`) |
| `js_text.dfy` | `JsText` | the JavaScript and Node string built-ins the core relies on: `trim`, `split`/`join`, `startsWith`/`endsWith`, `toLowerCase`, `parseInt`, `String(n)`, `path.basename`, `path.extname` |
| `probe.dfy` | `Probe` | the 150 ms Finder probe, its two-token status and selection reply, the three hotkey predicates, and the parsers of the quick-path and selected-paths replies |
| `hotkeys.dfy` | `Hotkeys` | the `globalShortcut` registry, as a set of combos; the three registration flags; `register*`/`unregister*`, `manage*` and the health check |
| `clipboard.dfy` | `Clipboard` | the cut list of `clipboardService.js`, and how each operation reads its script's reply |
| `lifecycle.dfy` | `Lifecycle` | the single-flight preview lifecycle: the `isPreviewCreating` guard, the run-once DOM-ready handler with its 3 s forced timeout, the reset paths, and the open/close animation ends |
| `finder_app.dfy` | `FinderApp` | the main-process application: probe callbacks, the space-key handler and its 50 ms debounce, the cut/paste handlers, the health tick, start-up and quit |
| `preview_service.dfy` | `PreviewService` | `isArchive`; `getPreview` dispatch; directory truncation and sorting; archive dispatch; zip/tar caps and `totalItems` |
| `preview_view.dfy` | `PreviewWindow` | the preview renderer: panels, display logic, the item icon, the size text edge cases, the closing keys and `loadPreview` |
| `preferences.dfy` | `Preferences` | the preferences window's settings object: defaults, load/save/import merges, update, reset, copy, validation |

Modelling choices:

- **The OS registry.** Whether the OS grants a hotkey is not under the
  program's control. It is the parameter `accepts`: the set of combos the OS
  would grant at that moment. A combo the registry already holds is refused.
- **Scripts.** Script replies are inputs (`ExecReply`), and timestamps are
  parameters.
- **The selection.** The cached selection keeps all three JavaScript values it
  can take: `null`, `undefined` (a reply without a bar character) and a string.
- **Truthiness.** The hotkey predicates use JavaScript truthiness, so an empty
  string is falsy.

Where the program's documented intent and its code differ, the code is
modelled. In each case below, the model proves what the code does:

- **Stale probe replies.** A probe reply is never discarded as stale. Each
  successful reply overwrites the snapshot and `lastStateUpdate`, whatever
  order the replies arrive in (`FinderApp.OnProbe`).
- **Flags and registry can diverge.** An `unregister*` call whose combo has
  vanished from the registry leaves its flag set. The health check repairs the
  cut and paste flags, never the Space flag
  (`Hotkeys.StaleFlagSurvivesUnregister`, `Hotkeys.HealthCheckRepairs`).
  Turning the cut shortcut off in the preferences releases Cmd+X and Cmd+V but
  leaves both flags set. The next health tick, which does not read the
  setting, claims Cmd+X again (`FinderApp.DisabledCutComesBack`).
- **Start-up clears flags without releasing.** `registerOptimizedShortcuts`
  clears the cut/paste flags without unregistering anything
  (`Hotkeys.ResetShortcuts`).
- **Two windows from the guard.** `showPreview`'s pre-cleanup clears
  `isPreviewCreating`, so two calls in a row both go on to build a window
  (`Lifecycle.BackToBackAfterPreCleanup`). The first call then waits 50 ms
  more than the second, so the builds can happen in either order. The window
  built last becomes `previewWindow` and the other one is left open but
  unreferenced, which can leave the first call's path on screen
  (`Lifecycle.BackToBackBuildOrders`).
- **A stale timeout drives the new window.** A window's 3 s timeout outlives the
  window. If it fires after the window hung and a new one was built, it sends
  the old path to the new window (`Lifecycle.StaleTimeoutDrivesNewWindow`).
- **Quit keeps the flags.** Quit releases every shortcut but leaves the three
  flags set (`FinderApp.QuitReleasesEverything`).
- **A plain file shows the empty panel.** The renderer shows the empty panel
  for a plain file. The service's "unsupported" message is never displayed
  (`PreviewWindow.DisplayOfServiceResult`).
- **`.tgz` gets the document icon.** A `.tgz` file is opened as an archive but
  listed with the document icon (`PreviewWindow.TgzShownAsDocument`).
- **Dead list entries.** The entries `.tar.gz` and `.tar.bz2` of
  `supportedArchives` can never match an extension
  (`PreviewService.CompoundEntriesNeverMatch`).
- **Selected names are trimmed and split.** Each reported path is trimmed, so
  a file whose name ends in a blank is reported without it, and a name that
  contains `|||` is split in two (`Probe.ReadPathsOfPieces`,
  `Probe.PaddedNameTrimmed`). The exact round trip
  (`Probe.SelectedPathsOfRender`) holds only for paths without a bar or
  trailing whitespace.
- **`totalItems` differs by reader.** A zip's `totalItems` counts only the
  items kept, while a tar's counts every entry
  (`PreviewService.ZipAndTarTotals`).

## Model

| member | source | states |
|---|---|---|
| `JsText.Trim` | src/main.js:347 | the result has no leading or trailing whitespace and is the input with whitespace frames removed |
| `JsText.TrimIdempotent` | src/main.js:794 | trimming twice is trimming once |
| `JsText.Split` | src/main.js:348 | `split` always yields at least one piece and no piece contains the separator |
| `JsText.SplitOfJoin` | src/main.js:802 | splitting a join of separator-free pieces gives the pieces back |
| `JsText.ParseInt` | src/windows/preferences.js:238 | `parseInt`: leading whitespace, an optional sign, then the longest run of digits (hexadecimal after `0x`); `None` is NaN. `ParseIntOfDecimal` and `ParseIntOfNonNumeric` state its properties |
| `JsText.ToLower` | src/services/previewService.js:175-177 | `toLowerCase` on ASCII letters; the length is kept |
| `JsText.ParseIntOfDecimal` | src/windows/preferences.js:238 | `parseInt(String(n))` is `n` for every integer |
| `JsText.ParseIntOfNonNumeric` | src/windows/preferences.js:238-239 | a text starting with a non-digit, non-sign, non-space character parses to NaN |
| `JsText.Extname` | src/services/previewService.js:84 | the extension is empty or a '.' followed by characters without '.' or '/' |
| `JsText.ExtnameOfName` | src/services/previewService.js:175 | the extension of `dir/stem.ext` is `.ext` |
| `JsText.Basename` | src/services/previewService.js:45 | the base name contains no '/' |
| `Probe.ParseProbe` | src/main.js:347-359 | `finderActive` holds iff the first token is exactly `finder_active`; the selection is `undefined` iff there is one token, `null` iff the second token is a no-selection token, and otherwise the second token verbatim |
| `Probe.ParseProbeOfTokens` | src/main.js:347-359 | a status token and a second token, joined by a bar and ended by a newline, read back as those two tokens |
| `Probe.ParseProbeOfRender` | src/main.js:290-359 | for every answer of the probe script whose item name has no bar character and no trailing whitespace, the parsed snapshot is the one the answer means |
| `Probe.PickTextMeaning` | src/main.js:316-331 | only the no-selection and selection-error answers print a token that clears the selection |
| `Probe.ParseProbeOfThreeTokens` | src/main.js:348 | the destructuring keeps the first two of three tokens |
| `Probe.BarTruncatesName` | src/main.js:318-348 | a folder name containing a bar character is cached cut at its first bar |
| `Probe.OneTokenIsUndefined` | src/main.js:348-358 | a reply without a bar character caches `undefined`, not `null`, and `finderActive` iff the reply is `finder_active` |
| `Probe.ShouldInterceptSpace` | src/main.js:544-555 | Finder in front with a truthy selection starting `folder:` or `archive:`; `DecisionsOfAnswer` states what that means for each probe answer |
| `Probe.ShouldCut` | src/main.js:467 | Finder in front with a truthy selection; `DecisionsOfAnswer` and `InterceptImpliesCut` state its properties |
| `Probe.ShouldPaste` | src/main.js:478 | Finder in front with files cut; `DecisionsOfAnswer` states it per answer |
| `Probe.DecisionsOfAnswer` | src/main.js:546-555 | on a correctly read answer, Space is wanted exactly for folders and archives, Cmd+X for any selected item, Cmd+V exactly when Finder is in front with files cut |
| `Probe.DecisionsOfMeaning` | src/main.js:465-555 | the same three decisions on the meaning of an answer |
| `Probe.InterceptImpliesCut` | src/main.js:467-555 | whenever Space is intercepted, Cmd+X is wanted too |
| `Probe.QuickPath` | src/main.js:672-678 | `null` exactly on an exec error or blank output; otherwise the trimmed, non-empty output |
| `Probe.CurrentFolder` | src/main.js:739-760 | `null` exactly on an exec error or blank output; otherwise the trimmed output, which is a non-empty path |
| `Probe.QuickPathIsCurrentFolder` | src/main.js:673 | the quick path's extra empty-output test changes nothing: both readers agree on every reply |
| `Probe.QuickPathOfPrinted` | src/main.js:661-677 | a trimmed non-empty path printed with a newline is read back exactly |
| `Probe.TrimEach` | src/main.js:802 | each piece is trimmed, in place |
| `Probe.NonEmpty` | src/main.js:802 | only non-empty pieces are kept, drawn from the input; a list of non-empty pieces is kept whole |
| `Probe.NonEmptyKeepsPieces` | src/main.js:802 | every non-empty piece is kept exactly as often as it occurs in the input |
| `Probe.NonEmptyOfConcat` | src/main.js:802 | the filter works piece by piece: filtering a concatenation concatenates the filtered parts, so the kept pieces stay in order |
| `Probe.SelectedPaths` | src/main.js:788-806 | `[]` on an exec error, an `ERROR:` reply or blank output; otherwise the reading of the trimmed reply; every path returned is non-empty and trimmed |
| `Probe.ReadPaths` | src/main.js:794-805 | nothing for `ERROR:` or empty text; otherwise the pieces between triple bars, each trimmed, with the empty ones dropped |
| `Probe.ReadPathsOfPieces` | src/main.js:802 | for any pieces without a bar, reading their triple-bar join gives the pieces trimmed, minus the blank ones |
| `Probe.PaddedNameTrimmed` | src/main.js:802 | for any two paths `p` and `q` that start with `/`, have no bar and do not end in whitespace, `p`, a blank, three bars and `q` read as `p` and `q`: the blank ending the first name is lost |
| `Probe.DoubleSeparatorDropped` | src/main.js:802 | for the same `p` and `q`, `p`, six bars and `q` read as `p` and `q`: the empty piece between the two separators is dropped |
| `Probe.SelectedPathsOfRender` | src/main.js:765-806 | for every non-empty selection of paths that start with `/`, contain no bar and do not end in whitespace, parsing the script's output gives exactly those paths in order |
| `Probe.ReadPathsOfJoin` | src/main.js:802 | split, trim and filter invert the triple-bar join of paths that start with `/`, contain no bar and do not end in whitespace |
| `Hotkeys.Shortcuts.WithFlag` | src/main.js:32-38 | only the named flag changes; the registry is untouched |
| `Hotkeys.Register` | src/main.js:430-439 | granted iff the combo is not yet registered and the OS accepts; only that combo can be added |
| `Hotkeys.Unregister` | src/main.js:426-428 | removes exactly the combo |
| `Hotkeys.RegisterSpaceKey` | src/main.js:423-440 | a no-op when the flag is set; otherwise the flag ends equal to the OS granting Space and agrees with the registry; other flags and combos untouched |
| `Hotkeys.RegisterShortcut` | src/main.js:490-504 | a no-op when the flag is set; otherwise the flag is set iff the combo was free and accepted; nothing else changes |
| `Hotkeys.UnregisterShortcut` | src/main.js:507-515 | a no-op when the flag is clear; releases and clears only when the registry still holds the combo; a vanished combo leaves the flag set |
| `Hotkeys.ManageSpace` | src/main.js:454-462 | only Space is touched, and nothing happens when the flag already equals the predicate |
| `Hotkeys.ManageOne` | src/main.js:467-475 | only the one combo is touched, and nothing happens when the flag already equals the predicate |
| `Hotkeys.ManageCutPaste` | src/main.js:465-487 | leaves the Space flag and the Space and Cmd+Shift+P registrations as they were |
| `Hotkeys.HealthCheck` | src/main.js:1485-1508 | never changes the Space flag |
| `Hotkeys.ResetShortcuts` | src/main.js:380-409 | both cut/paste flags are cleared while their registrations stay; Cmd+Shift+P is registered when the OS accepts it |
| `Hotkeys.RefusedLeavesFlagClear` | src/main.js:430-439 | a refused registration leaves its flag clear |
| `Hotkeys.ManageOneTracks` | src/main.js:465-487 | with a consistent registry and an OS that grants the combo, one decision makes the flag equal to the predicate and keeps every flag consistent |
| `Hotkeys.ManageSpaceTracks` | src/main.js:454-462 | the same for the Space decision |
| `Hotkeys.ManageCutPasteTracks` | src/main.js:465-487 | the same for both cut/paste decisions |
| `Hotkeys.StaleFlagSurvivesUnregister` | src/main.js:507-515 | when Cmd+X vanished from the registry, unregistering keeps the flag set and it disagrees with the registry |
| `Hotkeys.StaleFlagBlocksRegister` | src/main.js:490-491 | a stale Cmd+X flag also blocks re-registration |
| `Hotkeys.HealthCheckRepairs` | src/main.js:1485-1504 | from any flag values, with an OS granting both combos, the cut/paste flags afterwards equal their predicates and agree with the registry; the Space flag and registration are unchanged |
| `Hotkeys.SpaceIrrelevantToCutPaste` | src/main.js:465-487 | the cut/paste decision does not read the Space flag |
| `Clipboard.ScriptOutcome` | src/services/clipboardService.js:121-137 | resolves iff the script ran and its trimmed reply does not start with `error:`; an exec error rejects with its message |
| `Clipboard.ValidationOutcome` | src/services/clipboardService.js:39-63 | resolves iff the trimmed reply is `valid:` followed by a positive `parseInt`, and then with the cut paths |
| `Clipboard.CutFiles` | src/services/clipboardService.js:17 | the cut list becomes the given paths whatever the validation reply says; the outcome is that reply's reading |
| `Clipboard.BeginPaste` | src/services/clipboardService.js:92-94 | throws iff the cut list is empty |
| `Clipboard.CompletePaste` | src/services/clipboardService.js:121-138 | success empties the list and reports its files and count; failure keeps the list |
| `Clipboard.PasteFiles` | src/services/clipboardService.js:91-143 | an empty list rejects with nothing changed; with files cut, it succeeds exactly when the move script answered without an exec error or an `error:` reply; success reports the previous list and empties it; failure keeps the list |
| `Clipboard.CopyFiles` | src/services/clipboardService.js:145-187 | never modifies the cut list; success reports the copied paths |
| `Clipboard.DeleteFiles` | src/services/clipboardService.js:189-230 | never modifies the cut list; success reports the trashed paths |
| `Clipboard.HasCutFiles` | src/services/clipboardService.js:240-242 | the list is non-empty; `HasCutFilesAfterCut` states its value after a cut |
| `Clipboard.GetCutFiles` | src/services/clipboardService.js:232-234 | an element-wise equal copy |
| `Clipboard.ClearCutFiles` | src/services/clipboardService.js:236-238 | the list is empty afterwards |
| `Clipboard.HasCutFilesAfterCut` | src/services/clipboardService.js:17 | after a cut there is something to paste iff the cut paths were non-empty, even when validation rejected |
| `Clipboard.PasteAfterClear` | src/services/clipboardService.js:236-242 | after clearing, nothing is cut and a paste rejects without changes |
| `Clipboard.ValidReply` | src/services/clipboardService.js:47-58 | `valid:N` resolves with the paths when N > 0 and rejects when N <= 0 |
| `Clipboard.ValidationOfCount` | src/services/clipboardService.js:32-58 | the script's `valid:` + count reply resolves with exactly that count when positive, and rejects for zero |
| `Clipboard.ErrorReply` | src/services/clipboardService.js:44-46 | an `error:` reply rejects with the text after its 7th character, for cut and paste alike |
| `Clipboard.TrimOfErrorReply` | src/services/clipboardService.js:34-44 | what trimming makes of the script's `error: ` + message reply |
| `Clipboard.ScriptErrorText` | src/services/clipboardService.js:34-46 | a script failure with a trimmed message rejects with exactly that message |
| `Clipboard.CutThenPaste` | src/services/clipboardService.js:129-135 | cutting non-empty paths then pasting successfully moves exactly those paths and leaves nothing cut |
| `Lifecycle.CenterOffset` | src/main.js:858-859 | `Math.round` of half the difference: twice the offset is the difference or one more |
| `Lifecycle.FinalFrame` | src/main.js:856-859 | an 800x600 frame centred in the work area, to within rounding |
| `Lifecycle.DestroyCurrent` | src/main.js:825-831 | no live window afterwards; only the current window is marked destroyed |
| `Lifecycle.ShowPreview` | src/main.js:811-846 | a no-op while creating; otherwise the call is queued, no window is live, and the guard is set iff there was no live window to clean up |
| `Lifecycle.Build` | src/main.js:849-1031 | any waiting call can build next and leaves the queue; success makes a fresh window current, replacing the field's window, with its DOM-ready closure, an armed timeout and the centred frame of the work area read at that moment; a constructor error clears the guard and leaves no live window; without that call nothing changes |
| `Lifecycle.RunReady` | src/main.js:941-992 | runs once per window: disarms the timeout; with a live current window, sends the call's path, shows it, starts the open animation to the call's end frame and clears the guard |
| `Lifecycle.DomReady` | src/main.js:995-996 | a destroyed window's events change nothing |
| `Lifecycle.ReadyTimeout` | src/main.js:999-1007 | a disarmed timeout does nothing |
| `Lifecycle.Unresponsive` | src/main.js:915-922 | destroys and clears the current window and clears the guard |
| `Lifecycle.LoadFailed` | src/main.js:1019-1031 | clears the guard and leaves no live window |
| `Lifecycle.OpenAnimationDone` | src/main.js:1223-1230 | the live window ends exactly on the animation's end frame with opacity 1 |
| `Lifecycle.CloseWindow` | src/main.js:1294-1297 | without a live window nothing happens; otherwise a close animation starts |
| `Lifecycle.CloseAnimationDone` | src/main.js:1369-1380 | destroys the live window and clears the guard; an animation whose window vanished changes nothing else |
| `Lifecycle.QuitWindow` | src/main.js:1526-1529 | no live window remains |
| `Lifecycle.DestroyCurrentKeepsInv` | src/main.js:825-831 | the clean-up keeps the window table well formed |
| `Lifecycle.RunReadyKeepsInv` | src/main.js:941-992 | the DOM-ready handler keeps the window table well formed |
| `Lifecycle.BuildKeepsInv` | src/main.js:849-1011 | building keeps the window table well formed |
| `Lifecycle.ReadyTimeoutKeepsInv` | src/main.js:999-1007 | the timeout keeps the window table well formed |
| `Lifecycle.Step` | src/main.js:811-1380 | dispatches each lifecycle callback to its transition; `StepKeepsInv` states the invariant every step keeps |
| `Lifecycle.StepKeepsInv` | src/main.js:811-1380 | every lifecycle event keeps the current window live and recorded, and an armed timeout implies its handler has not run |
| `Lifecycle.RunKeepsInv` | src/main.js:811-1380 | every event sequence keeps the window table well formed |
| `Lifecycle.Reachable` | src/main.js:811-1380 | every reachable lifecycle state is well formed |
| `Lifecycle.TimeoutElseBranchDead` | src/main.js:999-1007 | in a reachable state the timeout's else branch never runs: an armed timeout always finds the handler not yet run |
| `Lifecycle.ReadyRunsOnce` | src/main.js:941-943 | once the handler ran, neither a second ready event nor the timeout changes anything |
| `Lifecycle.ShowWhileCreating` | src/main.js:815-818 | `showPreview` does nothing while a creation is under way |
| `Lifecycle.BackToBackAfterPreCleanup` | src/main.js:825-831 | after a call that cleaned up a live window, a second call is not refused and both queue a build |
| `Lifecycle.BackToBackBuildOrders` | src/main.js:825-866 | after two back-to-back calls that passed the guard, building them in either order leaves the window built last current, carrying the other path when the second call built first, and the earlier window not destroyed |
| `Lifecycle.TwoBuilds` | src/main.js:866 | two waiting calls built one after the other: the last one built is current and both windows carry their own paths |
| `Lifecycle.BackToBackWithoutWindow` | src/main.js:815-821 | without a live window, the second of two calls is refused |
| `Lifecycle.ResetPaths` | src/main.js:915-1380 | unresponsiveness, a load error, a constructor error, the end of the close animation and the DOM-ready handler each clear the guard |
| `Lifecycle.OpenScenario` | src/main.js:811-1230 | show, build, ready, open: the window has the path, is shown as the 800x600 frame centred in the work area with opacity 1, the guard is clear, and the timeout is spent |
| `Lifecycle.StaleTimeoutDrivesNewWindow` | src/main.js:999-1007 | a hung window's timeout, firing after a second window was built, sends the first path to the second window |
| `FinderApp.Manage` | src/main.js:368-371 | only the hotkey state changes, and nothing changes when every flag already equals its predicate |
| `FinderApp.OnProbe` | src/main.js:341-372 | a failed probe changes nothing; a successful one stores the parsed snapshot and the request time, and re-runs the decisions only when the snapshot changed |
| `FinderApp.SpaceKey` | src/main.js:558-588 | debounced iff blocked or within 50 ms; otherwise blocks and records the time, skips while creating, closes a live window, or asks for the path |
| `FinderApp.SpaceUnblock` | src/main.js:609-614 | clears only the block |
| `FinderApp.PathResolved` | src/main.js:599-605 | a path opens the preview; `null` does nothing |
| `FinderApp.PreviewShortcutQueries` | src/main.js:634-650 | asks for a path exactly when Finder is in front with a truthy cached selection, so at least whenever Space would be intercepted |
| `FinderApp.HandleCut` | src/main.js:683-698 | no selected paths do nothing; otherwise the cut list becomes the paths and the validation reply decides the outcome |
| `FinderApp.HandlePaste` | src/main.js:700-715 | no front folder does nothing; with one, `pasteFiles` always runs: an empty list gives the nothing-to-paste rejection, and otherwise it succeeds exactly when the move script did; success empties the list and reports its files; a failure changes nothing |
| `FinderApp.HealthTick` | src/main.js:1471-1482 | only hotkeys change, never the Space flag, and only while the timer runs |
| `FinderApp.InitialSpaceCheck` | src/main.js:274-277 | only the Space decision runs |
| `FinderApp.UpdateSettings` | src/main.js:1432-1450 | with the cut shortcut enabled, the cut/paste flags are cleared and nothing is released; disabled, Cmd+X and Cmd+V leave the registry while both flags keep their values; Space and the rest are untouched |
| `FinderApp.DisabledCutComesBack` | src/main.js:1446-1448 | disabling the cut shortcut releases Cmd+X but leaves its flag set, and the next health tick claims Cmd+X again while Finder has a selection |
| `FinderApp.Initialize` | src/main.js:52-86 | without the accessibility permission nothing changes; with it, both timers run, the cut/paste flags are clear, Cmd+Shift+P is registered when the OS grants it, and nothing else changes |
| `FinderApp.StartupSynced` | src/main.js:52-86 | start-up from the boot state keeps the flags synchronised, and the probe timer runs exactly when permission was granted |
| `FinderApp.Quit` | src/main.js:1520-1556 | quitting, both timers stopped, nothing registered, no live window, the cut list kept |
| `FinderApp.BootSynced` | src/main.js:9-50 | the constructor's state has every flag equal to its predicate and to the registry |
| `FinderApp.ManageSyncs` | src/main.js:368-371 | from consistent flags, with an OS granting the combos, one decision round makes every flag equal to its predicate |
| `FinderApp.OnProbeKeepsSynced` | src/main.js:341-372 | every probe reply keeps the flags equal to the predicates of the latest snapshot |
| `FinderApp.ProbesKeepSynced` | src/main.js:341-372 | the same for every sequence of probe replies |
| `FinderApp.FailedProbesChangeNothing` | src/main.js:342-345 | failed probes leave the whole state as it was |
| `FinderApp.FolderThenFile` | src/main.js:546-555 | selecting a folder claims Space and Cmd+X; then selecting a file releases Space and keeps Cmd+X |
| `FinderApp.CutThenHealthTick` | src/main.js:1485-1504 | right after a cut the paste flag is still clear; the next health tick claims Cmd+V |
| `FinderApp.PasteThenHealthTick` | src/main.js:1485-1504 | a successful paste empties the list; the next health tick releases Cmd+V |
| `FinderApp.SecondPressDebounced` | src/main.js:562-568 | a second press before the unblock timer is debounced, at any time |
| `FinderApp.PressWithOpenWindowCloses` | src/main.js:580-587 | with a live window, an accepted press starts closing it and queues no build |
| `FinderApp.QuitReleasesEverything` | src/main.js:1520-1538 | after quit nothing is registered and no window is live, while the flags keep their values |
| `PreviewService.IsArchive` | src/services/previewService.js:174-179 | the lower-cased extension is listed, or the lower-cased path ends with `.tar.gz` or `.tar.bz2`; `GzArchiveOnlyAsTarGz`, `ArchiveBySuffixOnly` and `ArchivesHaveReaders` state its properties |
| `PreviewService.ArchiveReader` | src/services/previewService.js:84-93 | zip iff the lower-cased extension is `.zip`; tar iff it is `.tar`, `.gz`, `.tgz` or `.bz2`; no reader otherwise |
| `PreviewService.CompoundEntriesNeverMatch` | src/services/previewService.js:8 | no lower-cased extension equals `.tar.gz` or `.tar.bz2` |
| `PreviewService.ArchivesHaveReaders` | src/services/previewService.js:174-179 | every path `isArchive` accepts gets a reader |
| `PreviewService.TgzIsArchive` | src/services/previewService.js:174-179 | any name ending in `.tgz` is an archive |
| `PreviewService.TarGzIsArchive` | src/services/previewService.js:177 | any name ending in `.tar.gz` is an archive |
| `PreviewService.ArchiveByExtension` | src/services/previewService.js:175-176 | a listed extension makes a path an archive |
| `PreviewService.ArchiveBySuffixOnly` | src/services/previewService.js:174-179 | off the list, only the two suffix tests make a name an archive |
| `PreviewService.GzArchiveOnlyAsTarGz` | src/services/previewService.js:174-179 | a `.gz` name is an archive iff it ends with `.tar.gz` |
| `PreviewService.Bz2ArchiveOnlyAsTarBz2` | src/services/previewService.js:174-179 | a `.bz2` name is an archive iff it ends with `.tar.bz2` |
| `PreviewService.NameLeTotal` | src/services/previewService.js:74 | the name order is total |
| `PreviewService.NameLeTrans` | src/services/previewService.js:74 | the name order is transitive |
| `PreviewService.OrderedTotal` | src/services/previewService.js:70-75 | the comparator's order is total |
| `PreviewService.OrderedTrans` | src/services/previewService.js:70-75 | the comparator's order is transitive |
| `PreviewService.Insert` | src/services/previewService.js:70-75 | inserting into a sorted list keeps it sorted and adds exactly that item |
| `PreviewService.SortItems` | src/services/previewService.js:70-75 | the sorted items are a sorted permutation of the input |
| `PreviewService.SortKeepsMembers` | src/services/previewService.js:70-75 | sorting neither adds nor drops an item |
| `PreviewService.DirectoriesFirst` | src/services/previewService.js:71-73 | in a sorted listing every directory precedes every file |
| `PreviewService.EntryItem` | src/services/previewService.js:56-62 | same name; a directory iff the entry is one; no size iff a directory; hidden iff the name starts with '.' |
| `PreviewService.CollectItems` | src/services/previewService.js:51-67 | each item occurs exactly as often as there are entries whose stat succeeded and that give that item |
| `PreviewService.CollectMembers` | src/services/previewService.js:51-67 | an item is collected exactly when some entry whose stat succeeded gives it |
| `PreviewService.DirectoryPreviewOf` | src/services/previewService.js:40-77 | `totalItems` is the full entry count; at most 50 items, sorted, with each item occurring exactly as often as the entries among the first 50 whose stat succeeded and that give it |
| `PreviewService.ZipItem` | src/services/previewService.js:119-125 | a zip entry is a directory iff its name ends with '/' |
| `PreviewService.TarItem` | src/services/previewService.js:156-161 | a tar entry is a directory iff its header says so |
| `PreviewService.Capped` | src/services/previewService.js:118 | the first 100 entries, in order |
| `PreviewService.ZipPreviewOf` | src/services/previewService.js:99-138 | at most 100 items, the first entries in order, and `totalItems` equals the items kept |
| `PreviewService.TarPreviewOf` | src/services/previewService.js:140-172 | at most 100 items, the first entries in order, and `totalItems` counts every entry |
| `PreviewService.ZipAndTarTotals` | src/services/previewService.js:131-167 | the totals agree up to 100 entries; beyond that the zip total is smaller |
| `PreviewService.ArchivePreviewOf` | src/services/previewService.js:83-97 | no reader rejects with the unsupported-format message; a read failure is wrapped; a successful read always gives the reader's preview of exactly its entries (the zip preview for a zip reader, the tar preview otherwise), named after the path, with the first 100 entries and `totalItems` being the items kept for zip and every entry for tar |
| `PreviewService.GetPreview` | src/services/previewService.js:15-38 | a failed stat and a failed listing become error records with the wrapped message; a listed directory gives exactly its directory preview; a non-archive file gives the file record; an unreadable archive gives the error record with both prefixes and the reader's message; a readable one gives exactly the archive reader's preview |
| `PreviewService.ArchiveFilePreview` | src/services/previewService.js:31-36 | a thrown archive error becomes the error record with the file prefix; a readable archive gives the reader's preview |
| `PreviewService.ReadableArchivePreviews` | src/services/previewService.js:21-22 | a readable archive always gets an archive preview |
| `PreviewService.DirectoryBeforeArchive` | src/services/previewService.js:19-22 | a directory is previewed as a directory even when its name looks like an archive |
| `PreviewWindow.NewView` | src/windows/preview.js:5-12 | empty path, no data, no items, window open |
| `PreviewWindow.HideAllStates` | src/windows/preview.js:114-118 | all three panels hidden, nothing else changed |
| `PreviewWindow.ErrorText` | src/windows/preview.js:100 | never empty; the message when non-empty, the default text otherwise |
| `PreviewWindow.ShowError` | src/windows/preview.js:95-102 | exactly the error panel visible, with the error text |
| `PreviewWindow.ShowEmptyState` | src/windows/preview.js:104-107 | exactly the empty panel visible |
| `PreviewWindow.ShowFileList` | src/windows/preview.js:109-112 | exactly the list panel visible |
| `PreviewWindow.DisplayPreview` | src/windows/preview.js:55-69 | exactly one panel; error iff an error record; empty iff items are missing or empty; a list records its items |
| `PreviewWindow.DisplayOfServiceResult` | src/windows/preview.js:55-69 | a failed stat shows the service's error text; a plain file and an empty folder show the empty panel |
| `PreviewWindow.ItemIcon` | src/windows/preview.js:120-170 | the folder icon for a directory; for a file, the table's icon for its lower-cased extension, or the document icon; `FolderIconIffDirectory` and `IconIgnoresCase` state its properties |
| `PreviewWindow.FolderIconUnmapped` | src/windows/preview.js:126-167 | no extension maps to the folder icon |
| `PreviewWindow.FolderIconIffDirectory` | src/windows/preview.js:120-170 | the folder icon marks exactly the directories |
| `PreviewWindow.IconIgnoresCase` | src/windows/preview.js:125 | the icon depends on the extension only up to case |
| `PreviewWindow.IconKeysAreExtensions` | src/windows/preview.js:126-167 | every table key is a '.' and at least one more character |
| `PreviewWindow.NoExtensionIsDocument` | src/windows/preview.js:169 | a file without an extension gets the document icon |
| `PreviewWindow.TgzShownAsDocument` | src/windows/preview.js:125-169 | a `.tgz` file gets the document icon |
| `PreviewWindow.FormatFileSize` | src/windows/preview.js:172-181 | empty text for null or undefined; `0 B` for zero; a `B` text below 1024 |
| `PreviewWindow.SmallSizeReadsBack` | src/windows/preview.js:176-180 | below 1024 the text is the count followed by ` B`, and the count reads back |
| `PreviewWindow.HandleKeyDown` | src/windows/preview.js:209-220 | the default is prevented iff Space or Escape, which close the window; other keys change nothing |
| `PreviewWindow.CloseWithAnimation` | src/windows/preview.js:222-227 | content hidden and window closed, nothing else changed |
| `PreviewWindow.ShowContent` | src/windows/preview.js:230-236 | content visible, nothing else changed |
| `PreviewWindow.BeginLoad` | src/windows/preview.js:41-44 | the path is recorded and all panels hidden before fetching |
| `PreviewWindow.FinishLoad` | src/windows/preview.js:46-52 | exactly one panel; a failed fetch shows the error and keeps the data; a fetched result is recorded and displayed |
| `PreviewWindow.LoadPreview` | src/windows/preview.js:41-53 | exactly one panel, the path recorded, the error panel on a failed fetch |
| `PreviewWindow.LoadForgetsPanels` | src/windows/preview.js:41-53 | the panels after a load do not depend on what was shown before |
| `PreviewWindow.FailedReloadKeepsData` | src/windows/preview.js:46-52 | a failed reload shows its error while the earlier data stays recorded |
| `Preferences.DefaultSettings` | src/windows/preferences.js:13-23 | exactly the seven default keys |
| `Preferences.DefaultValues` | src/windows/preferences.js:13-23 | preview on, limit 50, hidden files off, cut on, feedback on, autostart off, update checks on |
| `Preferences.Overlay` | src/windows/preferences.js:105 | every key of either object; the later one wins |
| `Preferences.LoadSettings` | src/windows/preferences.js:101-110 | a parsed object is overlaid, keeping unsaved keys; nothing stored or a parse error leaves the settings unchanged |
| `Preferences.UpdateSetting` | src/windows/preferences.js:143-145 | only the key changes |
| `Preferences.ResetToDefaults` | src/windows/preferences.js:181-184 | a confirmed reset gives exactly the defaults; a declined one changes nothing |
| `Preferences.ImportSettings` | src/windows/preferences.js:271-276 | the defaults overlaid with the imported keys; a parse error changes nothing |
| `Preferences.GetSettings` | src/windows/preferences.js:220-222 | a copy equal key for key |
| `Preferences.SaveSettings` | src/windows/preferences.js:150-159 | the control values overlaid on the settings |
| `Preferences.ValidateSettings` | src/windows/preferences.js:233-244 | at most one error, always the limit message |
| `Preferences.ValidationReadsOnlyLimit` | src/windows/preferences.js:238-240 | only the preview limit is checked |
| `Preferences.NumericLimit` | src/windows/preferences.js:238-240 | a numeric limit is accepted exactly in [10, 1000] |
| `Preferences.TextLimit` | src/windows/preferences.js:238-240 | a text limit is accepted iff `parseInt` reads a number in [10, 1000] |
| `Preferences.NonNumericLimit` | src/windows/preferences.js:238-240 | a missing, boolean, null or object limit, and an empty array, are always an error |
| `Preferences.ArrayLimit` | src/windows/preferences.js:238-240 | a limit of `[n]` or `[[n]]` is read through the array's string form and accepted exactly when `n` is in [10, 1000] |
| `Preferences.DefaultsValid` | src/windows/preferences.js:13-23 | the defaults validate |
| `Preferences.CompleteKept` | src/windows/preferences.js:101-276 | the settings start complete and no operation removes a default key |
| `Preferences.SaveThenLoad` | src/windows/preferences.js:159-162 | what a save stores is what the next window loads |
| `Preferences.ImportOfExport` | src/windows/preferences.js:271-272 | importing an exported complete object reproduces it, whatever the current settings |
| `Preferences.ResetValidates` | src/windows/preferences.js:181-184 | a confirmed reset makes the settings valid |
| `Preferences.UpdateOtherKeepsValidation` | src/windows/preferences.js:143-145 | updating any key other than the limit leaves validation unchanged |

## Left out

- AppleScript text and the `exec` transport: each script's output is an input
  (`ExecReply`), and its timeout is an `ExecFailed` reply.
- Electron windows, tray, menu, dialogs, IPC and window options; the DOM,
  reduced to panel visibility, the error text and the content's `visible` class.
- Timers and concurrency: the 150 ms poll, the 5 s health check, the 3 s ready
  timeout, the 200 ms unblock and the 50/100 ms waits are explicit events. Two
  `loadPreview` calls in flight at once are not modelled, nor is a paste
  overlapping another clipboard operation.
- Animation tweening (easing, per-frame bounds, opacity ramps and the CSS close
  variant), because it is floating-point and timer-driven. Only the final open
  frame and the end of the close animation are modelled. The open animation
  also stops early at any frame where the window is gone (src/main.js:1177-1180);
  the model checks for a live window only when the animation ends.
- The icon-position lookup, which uses the cursor or a random fallback. Its
  result is only where the open animation starts, so it goes with the
  tweening. The animation's end frame is modelled: it is centred in the work
  area, whose size is a parameter of `Lifecycle.Build`.
- `formatDate`, because it depends on the wall clock.
- `Preferences` numbers are integers, and a nested object is one `Other`
  value whose string form is always `[object Object]`. Arrays are modelled
  with their comma-joined string form. JSON text is reduced to the object it
  parses to, or a parse failure.
- `localeCompare`, modelled as code-point order, because locale collation is
  not available.
- `toLowerCase`, modelled for ASCII letters only.
- File modification dates of listed items, which are not part of any decision.
- The cleanup block at src/main.js:590-596. It is unreachable because of the
  return at 583-587, so it is not a branch of `FinderApp.SpaceKey`.
- `handleSpaceKeyPress`, which nothing in the core calls.
- `markFilesCut`, `initialize` of the services, `getCurrentFinderPath` (only
  the optimized variant is used) and `checkQuickLookStatus`.
- `showStatus` of the main process, and `exportSettings` and
  `applyAutoStartSetting`, which are file, dialog and IPC plumbing.
- The settings object `updateSettings` stores in the main process, which no
  modelled decision reads. Its effect on the hotkeys is modelled
  (`FinderApp.UpdateSettings`).
- The preview service's own `formatFileSize` and `getFileIcon`, which nothing
  in the core calls.
- `renderFileList`'s HTML text.
- Notifications and the preferences window's keyboard shortcuts.
- The text of resolved clipboard messages, represented by the operation and its
  count.
- PreviewWindow.FormatFileSize: from 1024 bytes up the text is `None`, because
  it is computed with logarithms and `toFixed`. This includes sizes beyond the
  unit table, whose unit is `undefined`.
- Hotkeys.HealthCheck: its contract states only that the Space flag is kept.
  The repair itself is stated by `Hotkeys.HealthCheckRepairs`.
- Hotkeys.ManageCutPaste: its contract states only what it leaves alone. Its
  effect is stated by `Hotkeys.ManageCutPasteTracks`.

=== FILE: clipboard.dfy ===
/** The in-memory cut list of the clipboard service and the way each of its
    operations reads the reply of the Finder script it runs. The script text
    and its execution are not modelled: each operation receives the reply
    (`ExecReply`) its `exec` callback would see. A resolved promise is
    `Resolved`, a rejected one `Rejected`; the user-visible message strings are
    represented by the operation kind and the item count they print. */
module Clipboard {
  import opened Common
  import opened JsText

  /** The list `cutFilesList` holds. */
  type CutList = seq<string>

  datatype Op = Cut | Paste | Copy | Delete

  /** Why an operation rejected. */
  datatype Failure =
    | ExecError(op: Op, message: string) // "<op> failed: " + the exec error's message
    | ScriptError(text: string)          // the reply text after its 7th character
    | NoValidFiles                       // validation counted no existing file
    | UnknownReply                       // a validation reply of no known shape
    | NothingToPaste                     // paste with an empty cut list

  /** A resolved `{ success: true, message, files }`: `message` prints `count`. */
  datatype Done = Done(op: Op, count: int, files: seq<string>)

  datatype Outcome = Resolved(done: Done) | Rejected(failure: Failure)

  /** `result.substring(7)`: what follows the "error: " tag of a reply. */
  function AfterErrorTag(r: string): string {
    if |r| >= 7 then r[7..] else ""
  }

  /** The reading shared by paste, copy and delete: an exec error or an
      "error:" reply rejects, any other reply resolves with `success`. */
  function ScriptOutcome(op: Op, reply: ExecReply, success: Done): (o: Outcome)
    ensures o.Resolved? ==> o.done == success
    ensures o.Resolved? <==> reply.Stdout? && !StartsWith(Trim(reply.text), "error:")
    ensures reply.ExecFailed? ==> o == Rejected(ExecError(op, reply.message))
  {
    match reply
    case ExecFailed(m) => Rejected(ExecError(op, m))
    case Stdout(t) =>
      var r := Trim(t);
      if StartsWith(r, "error:") then Rejected(ScriptError(AfterErrorTag(r)))
      else Resolved(success)
  }

  /** How `cutFiles` reads the validation reply "valid:N" / "error: msg". */
  function ValidationOutcome(paths: seq<string>, reply: ExecReply): (o: Outcome)
    ensures o.Resolved? ==> o.done.op == Cut && o.done.files == paths && o.done.count > 0
    ensures o.Resolved? <==>
              && reply.Stdout?
              && !StartsWith(Trim(reply.text), "error:")
              && StartsWith(Trim(reply.text), "valid:")
              && ParseInt(Trim(reply.text)[6..]).Some?
              && ParseInt(Trim(reply.text)[6..]).value > 0
  {
    match reply
    case ExecFailed(m) => Rejected(ExecError(Cut, m))
    case Stdout(t) => ReadValidation(paths, Trim(t))
  }

  /** The reading of a trimmed validation reply. */
  function ReadValidation(paths: seq<string>, r: string): Outcome {
    if StartsWith(r, "error:") then Rejected(ScriptError(AfterErrorTag(r)))
    else if StartsWith(r, "valid:") then
      match ParseInt(r[6..])
      case Some(n) => if n > 0 then Resolved(Done(Cut, n, paths)) else Rejected(NoValidFiles)
      case None => Rejected(NoValidFiles)
    else Rejected(UnknownReply)
  }

  /** `cutFiles(paths)`: the list is replaced by `paths` at once, before and
      whatever the validation reply says. */
  function CutFiles(list: CutList, paths: seq<string>, reply: ExecReply): (r: (CutList, Outcome))
    ensures r.0 == paths
    ensures r.1 == ValidationOutcome(paths, reply)
  {
    (paths, ValidationOutcome(paths, reply))
  }

  /** The synchronous guard of `pasteFiles`: an empty list throws. */
  function BeginPaste(list: CutList): (r: Option<Failure>)
    ensures r.Some? <==> |list| == 0
    ensures r.Some? ==> r.value == NothingToPaste
  {
    if |list| == 0 then Some(NothingToPaste) else None
  }

  /** The callback of `pasteFiles`: on success the list is emptied and the
      files it held are reported; on failure the list is kept. */
  function CompletePaste(list: CutList, reply: ExecReply): (r: (CutList, Outcome))
    ensures r.1.Resolved? ==> r.0 == [] && r.1.done == Done(Paste, |list|, list)
    ensures r.1.Rejected? ==> r.0 == list
    ensures r.1.Resolved? <==> reply.Stdout? && !StartsWith(Trim(reply.text), "error:")
  {
    var o := ScriptOutcome(Paste, reply, Done(Paste, |list|, list));
    if o.Resolved? then ([], o) else (list, o)
  }

  /** `pasteFiles(dest)` when no other operation runs while the move script
      is executing. */
  function PasteFiles(list: CutList, reply: ExecReply): (r: (CutList, Outcome))
    ensures |list| == 0 ==> r == (list, Rejected(NothingToPaste))
    ensures r.1.Resolved? ==> |list| > 0 && r.0 == [] && r.1.done == Done(Paste, |list|, list)
    ensures r.1.Rejected? ==> r.0 == list
    ensures |list| > 0 ==> (r.1.Resolved? <==> reply.Stdout? && !StartsWith(Trim(reply.text), "error:"))
  {
    match BeginPaste(list)
    case Some(f) => (list, Rejected(f))
    case None => CompletePaste(list, reply)
  }

  /** `copyFiles(paths)`: the cut list is not touched. */
  function CopyFiles(list: CutList, paths: seq<string>, reply: ExecReply): (r: (CutList, Outcome))
    ensures r.0 == list
    ensures r.1.Resolved? ==> r.1.done == Done(Copy, |paths|, paths)
  {
    (list, ScriptOutcome(Copy, reply, Done(Copy, |paths|, paths)))
  }

  /** `deleteFiles(paths)`: the cut list is not touched. */
  function DeleteFiles(list: CutList, paths: seq<string>, reply: ExecReply): (r: (CutList, Outcome))
    ensures r.0 == list
    ensures r.1.Resolved? ==> r.1.done == Done(Delete, |paths|, paths)
  {
    (list, ScriptOutcome(Delete, reply, Done(Delete, |paths|, paths)))
  }

  /** `getCutFiles()` returns a copy: equal contents. */
  function GetCutFiles(list: CutList): (r: seq<string>)
    ensures |r| == |list| && forall i :: 0 <= i < |r| ==> r[i] == list[i]
  {
    list[..]
  }

  function ClearCutFiles(list: CutList): (r: CutList)
    ensures |r| == 0
  {
    []
  }

  function HasCutFiles(list: CutList): bool {
    |list| > 0
  }

  // -----------------------------------------------------------------------
  // Properties relating the operations
  // -----------------------------------------------------------------------

  /** After `cutFiles(paths)` there is something to paste exactly when
      `paths` is non-empty, even if validation rejected. */
  lemma HasCutFilesAfterCut(list: CutList, paths: seq<string>, reply: ExecReply)
    ensures HasCutFiles(CutFiles(list, paths, reply).0) <==> |paths| > 0
    ensures ValidationOutcome(paths, reply).Rejected? ==> CutFiles(list, paths, reply).0 == paths
  {
  }

  /** After `clearCutFiles()` nothing is cut and a paste throws without
      changing anything. */
  lemma PasteAfterClear(list: CutList, reply: ExecReply)
    ensures !HasCutFiles(ClearCutFiles(list))
    ensures PasteFiles(ClearCutFiles(list), reply) == ([], Rejected(NothingToPaste))
  {
  }

  /** A trimmed "valid:" reply resolves exactly when its number is
      positive. */
  lemma ValidReply(paths: seq<string>, r: string, n: int)
    requires Trim(r) == r && StartsWith(r, "valid:") && ParseInt(r[6..]) == Some(n)
    ensures n > 0 ==> ValidationOutcome(paths, Stdout(r)) == Resolved(Done(Cut, n, paths))
    ensures n <= 0 ==> ValidationOutcome(paths, Stdout(r)) == Rejected(NoValidFiles)
  {
    ReadValidReply(paths, r, n);
  }

  lemma ReadValidReply(paths: seq<string>, r: string, n: int)
    requires StartsWith(r, "valid:") && ParseInt(r[6..]) == Some(n)
    ensures ReadValidation(paths, r) == if n > 0 then Resolved(Done(Cut, n, paths)) else Rejected(NoValidFiles)
  {
    assert !StartsWith(r, "error:") by {
      assert r[0] == 'v';
    }
  }

  /** The validation script answers "valid:" followed by the decimal count of
      files it found; a positive count resolves with that count and the paths,
      a zero count rejects. */
  lemma ValidationOfCount(paths: seq<string>, n: nat)
    ensures n > 0 ==> ValidationOutcome(paths, Stdout("valid:" + NatToDecimal(n))) == Resolved(Done(Cut, n, paths))
    ensures n == 0 ==> ValidationOutcome(paths, Stdout("valid:" + NatToDecimal(n))) == Rejected(NoValidFiles)
  {
    var d := NatToDecimal(n);
    var r := "valid:" + d;
    assert r[|r| - 1] == d[|d| - 1];
    TrimOfTrimmed(r);
    assert r[..6] == "valid:";
    assert r[6..] == d;
    ParseIntOfNatDecimal(n);
    ValidReply(paths, r, n);
  }

  /** A trimmed "error:" reply rejects with the text after "error: ". */
  lemma ErrorReply(paths: seq<string>, r: string)
    requires Trim(r) == r && StartsWith(r, "error:")
    ensures ValidationOutcome(paths, Stdout(r)) == Rejected(ScriptError(AfterErrorTag(r)))
    ensures |paths| > 0 ==> PasteFiles(paths, Stdout(r)) == (paths, Rejected(ScriptError(AfterErrorTag(r))))
  {
  }

  /** What `trim` makes of the script's failure reply "error: " + m. */
  lemma TrimOfErrorReply(m: string)
    requires Trimmed(m)
    ensures Trim("error: " + m) == (if |m| == 0 then "error:" else "error: " + m)
  {
    var r := "error: " + m;
    if |m| > 0 {
      assert r[|r| - 1] == m[|m| - 1];
      TrimOfTrimmed(r);
    } else {
      assert r == "error: ";
      assert TrimEnd(r) == "error:" by {
        assert r[..|r| - 1] == "error:";
      }
    }
  }

  /** A script failure "error: m" rejects with exactly `m`. */
  lemma ScriptErrorText(paths: seq<string>, m: string)
    requires Trimmed(m)
    ensures ValidationOutcome(paths, Stdout("error: " + m)) == Rejected(ScriptError(m))
    ensures |paths| > 0 ==> PasteFiles(paths, Stdout("error: " + m)) == (paths, Rejected(ScriptError(m)))
  {
    TrimOfErrorReply(m);
    var r := Trim("error: " + m);
    assert r[..6] == "error:";
    TrimIdempotent("error: " + m);
    assert AfterErrorTag(r) == m by {
      if |m| > 0 {
        assert r[7..] == m;
      }
    }
    ErrorReply(paths, r);
  }

  /** Cutting a non-empty list and then pasting it successfully moves exactly
      those paths and leaves nothing cut. */
  lemma CutThenPaste(list: CutList, paths: seq<string>, v: ExecReply, done: string)
    requires |paths| > 0 && !StartsWith(Trim(done), "error:")
    ensures var l1 := CutFiles(list, paths, v).0;
            PasteFiles(l1, Stdout(done)) == ([], Resolved(Done(Paste, |paths|, paths)))
  {
  }
}

=== FILE: common.dfy ===
/** Small shared datatypes: an optional value and the outcome of one
    `exec(...)` call of a child process (the callback's `error` or `stdout`). */
module Common {

  datatype Option<+T> = None | Some(value: T) {
    function GetOr(default: T): T {
      match this
      case Some(v) => v
      case None => default
    }
  }

  /** What an `exec` callback receives: either an error (non-zero exit status,
      killed on timeout, ...) carrying its `message`, or the captured stdout. */
  datatype ExecReply = ExecFailed(message: string) | Stdout(text: string)
}

=== FILE: finder_app.dfy ===
/** The main-process application: the cached probe snapshot, the hotkey
    flags and registry, the cut list and the preview lifecycle, driven by one
    pure transition per event (a probe reply, a key press, a path reply, a
    health-check tick, quit).

    The OS's willingness to register a combo is the parameter `accepts`;
    script replies are `ExecReply` values; timestamps are parameters. */
module FinderApp {
  import opened Common
  import opened JsText
  import opened Probe
  import opened Hotkeys
  import Clipboard
  import Lifecycle

  /** The space-key debounce window, in milliseconds. */
  const SpaceKeyThrottle: int := 50

  datatype App = App(
    snapshot: Snapshot,        // cachedFinderActive, cachedSelectedFile
    lastStateUpdate: int,
    keys: Shortcuts,
    cutList: Clipboard.CutList,
    preview: Lifecycle.Preview,
    spaceBlocked: bool,
    lastSpaceKeyTime: int,
    monitoring: bool,          // the 150 ms probe timer runs
    healthChecking: bool,      // the 5 s health-check timer runs
    quitting: bool)

  /** The state the constructor leaves. */
  const Boot := App(Initial, 0, Shortcuts(false, false, false, {}), [], Lifecycle.Start, false, 0, false, false, false)

  /** `hasCutFiles()` of the clipboard service. */
  predicate HasCut(app: App) {
    Clipboard.HasCutFiles(app.cutList)
  }

  /** `manageSpaceKeyRegistration()` followed by `manageCutPasteShortcuts()`,
      both evaluated against the current snapshot. */
  function Manage(app: App, accepts: set<Combo>): (r: App)
    ensures r == app.(keys := r.keys)
    ensures (&& app.keys.space == ShouldInterceptSpace(app.snapshot)
             && app.keys.cut == ShouldCut(app.snapshot)
             && app.keys.paste == ShouldPaste(app.snapshot, HasCut(app))) ==> r == app
  {
    var k := ManageSpace(app.keys, ShouldInterceptSpace(app.snapshot), accepts);
    app.(keys := ManageCutPaste(k, ShouldCut(app.snapshot), ShouldPaste(app.snapshot, HasCut(app)), accepts))
  }

  /** The callback of one probe issued at `requestTime`: a failed probe
      leaves everything as it was; a successful one overwrites the snapshot
      and the timestamp, and re-runs the hotkey decisions only when the
      snapshot differs from the one it replaces. */
  function OnProbe(app: App, requestTime: int, reply: ExecReply, accepts: set<Combo>): (r: App)
    ensures reply.ExecFailed? ==> r == app
    ensures reply.Stdout? ==> r.snapshot == ParseProbe(reply.text) && r.lastStateUpdate == requestTime
    ensures reply.Stdout? && ParseProbe(reply.text) == app.snapshot ==> r == app.(lastStateUpdate := requestTime)
    ensures r.cutList == app.cutList && r.preview == app.preview && r.spaceBlocked == app.spaceBlocked
  {
    match reply
    case ExecFailed(_) => app
    case Stdout(text) =>
      var next := ParseProbe(text);
      var changed := next != app.snapshot;
      var updated := app.(snapshot := next, lastStateUpdate := requestTime);
      if changed then Manage(updated, accepts) else updated
  }

  /** What the space-key handler did. */
  datatype SpaceOutcome =
    | Debounced   // blocked, or within 50 ms of the last accepted press
    | Skipped     // a preview window is being created
    | Closing     // a live window: its close animation started
    | Querying    // no window: the path of the selection is being asked for

  /** `handleSpaceKeyFullTakeover()` at time `now`, up to its first
      suspension point. */
  function SpaceKey(app: App, now: int): (r: (App, SpaceOutcome))
    ensures r.1 == Debounced <==> app.spaceBlocked || now - app.lastSpaceKeyTime < SpaceKeyThrottle
    ensures r.1 == Debounced ==> r.0 == app
    ensures r.1 != Debounced ==> r.0.spaceBlocked && r.0.lastSpaceKeyTime == now
    ensures r.1 == Skipped <==> r.1 != Debounced && app.preview.creating
    ensures r.1 == Closing <==> r.1 != Debounced && !app.preview.creating && Lifecycle.Live(app.preview)
    ensures r.1 == Closing ==> r.0.preview == Lifecycle.CloseWindow(app.preview)
    ensures r.1 != Closing ==> r.0.preview == app.preview
    ensures r.0.keys == app.keys && r.0.snapshot == app.snapshot && r.0.cutList == app.cutList
  {
    if app.spaceBlocked || now - app.lastSpaceKeyTime < SpaceKeyThrottle then (app, Debounced)
    else
      var a := app.(lastSpaceKeyTime := now, spaceBlocked := true);
      if a.preview.creating then (a, Skipped)
      else if Lifecycle.Live(a.preview) then (a.(preview := Lifecycle.CloseWindow(a.preview)), Closing)
      else (a, Querying)
  }

  /** The 200 ms timer the handler's `finally` block arms. */
  function SpaceUnblock(app: App): (r: App)
    ensures !r.spaceBlocked && r == app.(spaceBlocked := false)
  {
    app.(spaceBlocked := false)
  }

  /** The quick path of the selection arrived (after a `Querying` space
      press or a Cmd+Shift+P): a path opens the preview, `null` does
      nothing. */
  function PathResolved(app: App, reply: ExecReply): (r: App)
    ensures QuickPath(reply).None? ==> r == app
    ensures QuickPath(reply).Some? ==>
              r == app.(preview := Lifecycle.ShowPreview(app.preview, QuickPath(reply).value))
  {
    match QuickPath(reply)
    case None => app
    case Some(path) => app.(preview := Lifecycle.ShowPreview(app.preview, path))
  }

  /** `handlePreviewShortcut()` asks for the path only when the snapshot has
      Finder in front and a truthy selection. */
  function PreviewShortcutQueries(app: App): (b: bool)
    ensures b <==> app.snapshot.finderActive && Truthy(app.snapshot.selection)
    ensures ShouldInterceptSpace(app.snapshot) ==> b
  {
    ShouldCut(app.snapshot)
  }

  /** `handleCutShortcut()`: the selected paths are read; with at least one,
      `cutFiles` replaces the cut list at once and its validation reply
      decides the outcome. */
  function HandleCut(app: App, selection: ExecReply, validation: ExecReply): (r: (App, Option<Clipboard.Outcome>))
    ensures |SelectedPaths(selection)| == 0 ==> r == (app, None)
    ensures |SelectedPaths(selection)| > 0 ==>
              && r.0 == app.(cutList := SelectedPaths(selection))
              && r.1 == Some(Clipboard.ValidationOutcome(SelectedPaths(selection), validation))
  {
    var paths := SelectedPaths(selection);
    if |paths| == 0 then (app, None)
    else
      var (list, outcome) := Clipboard.CutFiles(app.cutList, paths, validation);
      (app.(cutList := list), Some(outcome))
  }

  /** `handlePasteShortcut()`: without a front Finder folder nothing
      happens; otherwise `pasteFiles` runs (an empty list throws and is
      caught, which changes nothing). */
  function HandlePaste(app: App, folder: ExecReply, move: ExecReply): (r: (App, Option<Clipboard.Outcome>))
    ensures CurrentFolder(folder).None? ==> r == (app, None)
    ensures CurrentFolder(folder).Some? && |app.cutList| == 0 ==> r.0 == app
    ensures r.0 == app.(cutList := r.0.cutList)
    ensures r.1.Some? && r.1.value.Resolved? ==> r.0.cutList == [] && r.1.value.done.files == app.cutList
    ensures r.1.Some? && r.1.value.Rejected? ==> r.0 == app
    ensures CurrentFolder(folder).Some? ==>
              && r.1.Some?
              && (r.1.value.Resolved? <==> |app.cutList| > 0 && move.Stdout? && !StartsWith(Trim(move.text), "error:"))
    ensures CurrentFolder(folder).Some? && |app.cutList| == 0 ==> r.1 == Some(Clipboard.Rejected(Clipboard.NothingToPaste))
  {
    match CurrentFolder(folder)
    case None => (app, None)
    case Some(_) =>
      var (list, outcome) := Clipboard.PasteFiles(app.cutList, move);
      (app.(cutList := list), Some(outcome))
  }

  /** One tick of the 5 s health check while its timer runs. */
  function HealthTick(app: App, accepts: set<Combo>): (r: App)
    ensures !app.healthChecking ==> r == app
    ensures r == app.(keys := r.keys)
    ensures r.keys.space == app.keys.space
  {
    if !app.healthChecking then app
    else app.(keys := HealthCheck(app.keys, ShouldCut(app.snapshot), ShouldPaste(app.snapshot, HasCut(app)), accepts))
  }

  /** The 500 ms initial `manageSpaceKeyRegistration()` after start-up. */
  function InitialSpaceCheck(app: App, accepts: set<Combo>): (r: App)
    ensures r == app.(keys := r.keys)
    ensures r.keys.cut == app.keys.cut && r.keys.paste == app.keys.paste
  {
    app.(keys := ManageSpace(app.keys, ShouldInterceptSpace(app.snapshot), accepts))
  }

  /** The part of `initialize()` that touches this state. Without the
      accessibility permission (`permitted` is the answer of the permission
      script) it shows the dialog and returns before anything starts;
      otherwise both timers start and `registerOptimizedShortcuts()` clears
      the cut/paste flags and registers Cmd+Shift+P. */
  function Initialize(app: App, permitted: bool, accepts: set<Combo>): (r: App)
    ensures !permitted ==> r == app
    ensures permitted ==> r.monitoring && r.healthChecking
    ensures permitted ==> !r.keys.cut && !r.keys.paste && r.keys.space == app.keys.space
    ensures permitted && CmdShiftP in accepts ==> CmdShiftP in r.keys.registry
    ensures permitted ==> r == app.(monitoring := true, healthChecking := true, keys := r.keys)
  {
    if !permitted then app
    else app.(monitoring := true, healthChecking := true, keys := ResetShortcuts(app.keys, accepts))
  }

  /** `updateSettings(settings)` as far as it touches this state:
      `setupSpaceKeyManagement()` does nothing; with `enableCutShortcut` the
      shortcuts are reset as at start-up; without it Cmd+X and Cmd+V are
      released while their flags keep their values. */
  function UpdateSettings(app: App, enableCutShortcut: bool, accepts: set<Combo>): (r: App)
    ensures r == app.(keys := r.keys)
    ensures r.keys.space == app.keys.space
    ensures enableCutShortcut ==>
              && !r.keys.cut && !r.keys.paste
              && r.keys.registry - {CmdShiftP} == app.keys.registry - {CmdShiftP}
    ensures !enableCutShortcut ==>
              && r.keys.cut == app.keys.cut && r.keys.paste == app.keys.paste
              && r.keys.registry == app.keys.registry - {CmdX, CmdV}
  {
    if enableCutShortcut then app.(keys := ResetShortcuts(app.keys, accepts))
    else app.(keys := app.keys.(registry := Unregister(Unregister(app.keys.registry, CmdX), CmdV)))
  }

  /** A window-lifecycle callback. */
  function PreviewEvent(app: App, e: Lifecycle.Event): (r: App)
    ensures r == app.(preview := Lifecycle.Step(app.preview, e))
  {
    app.(preview := Lifecycle.Step(app.preview, e))
  }

  /** `quitApp()`: a live window is destroyed, both timers stop and every
      global shortcut is released. */
  function Quit(app: App): (r: App)
    ensures r.quitting && !r.monitoring && !r.healthChecking
    ensures r.keys.registry == {}
    ensures !Lifecycle.Live(r.preview)
    ensures r.cutList == app.cutList
  {
    app.(quitting := true,
         preview := Lifecycle.QuitWindow(app.preview),
         monitoring := false,
         healthChecking := false,
         keys := app.keys.(registry := {}))
  }

  // -----------------------------------------------------------------------
  // Hotkeys follow the snapshot
  // -----------------------------------------------------------------------

  /** The three flags equal their predicates and agree with the registry. */
  predicate Synced(app: App) {
    && app.keys.space == ShouldInterceptSpace(app.snapshot)
    && app.keys.cut == ShouldCut(app.snapshot)
    && app.keys.paste == ShouldPaste(app.snapshot, HasCut(app))
    && Consistent(app.keys)
  }

  /** An OS that grants the three managed combos. */
  predicate Grants(accepts: set<Combo>) {
    Space in accepts && CmdX in accepts && CmdV in accepts
  }

  lemma BootSynced()
    ensures Synced(Boot)
  {
  }

  /** Start-up keeps the boot state synchronised, and the probe timer runs
      exactly when the permission was granted. */
  lemma StartupSynced(permitted: bool, accepts: set<Combo>)
    ensures Synced(Initialize(Boot, permitted, accepts))
    ensures Initialize(Boot, permitted, accepts).monitoring <==> permitted
  {
  }

  /** Starting from consistent flags, one decision round against an OS that
      grants the combos synchronises every flag with its predicate. */
  lemma {:induction false} ManageSyncs(app: App, accepts: set<Combo>)
    requires Consistent(app.keys) && Grants(accepts)
    ensures Synced(Manage(app, accepts))
  {
    var k := ManageSpace(app.keys, ShouldInterceptSpace(app.snapshot), accepts);
    ManageSpaceTracks(app.keys, ShouldInterceptSpace(app.snapshot), accepts);
    ManageCutPasteTracks(k, ShouldCut(app.snapshot), ShouldPaste(app.snapshot, HasCut(app)), accepts);
  }

  /** Every probe reply keeps the flags synchronised: a failure keeps the
      state, an unchanged snapshot needs no decision, a changed one gets
      one. */
  lemma {:induction false} OnProbeKeepsSynced(app: App, t: int, reply: ExecReply, accepts: set<Combo>)
    requires Synced(app) && Grants(accepts)
    ensures Synced(OnProbe(app, t, reply, accepts))
  {
    if reply.Stdout? && ParseProbe(reply.text) != app.snapshot {
      ManageSyncs(app.(snapshot := ParseProbe(reply.text), lastStateUpdate := t), accepts);
    }
  }

  /** A sequence of probe replies, each with its request time. */
  function Probes(app: App, replies: seq<(int, ExecReply)>, accepts: set<Combo>): App
    decreases |replies|
  {
    if |replies| == 0 then app
    else Probes(OnProbe(app, replies[0].0, replies[0].1, accepts), replies[1..], accepts)
  }

  /** For every sequence of probe results, after each one the three flags
      equal the predicates of the latest snapshot. */
  lemma {:induction false} ProbesKeepSynced(app: App, replies: seq<(int, ExecReply)>, accepts: set<Combo>)
    requires Synced(app) && Grants(accepts)
    ensures Synced(Probes(app, replies, accepts))
    decreases |replies|
  {
    if |replies| > 0 {
      OnProbeKeepsSynced(app, replies[0].0, replies[0].1, accepts);
      ProbesKeepSynced(OnProbe(app, replies[0].0, replies[0].1, accepts), replies[1..], accepts);
    }
  }

  /** Two failed probes in a row leave the snapshot, the flags and the
      registry exactly as they were. */
  lemma FailedProbesChangeNothing(app: App, t1: int, t2: int, m1: string, m2: string, accepts: set<Combo>)
    ensures OnProbe(OnProbe(app, t1, ExecFailed(m1), accepts), t2, ExecFailed(m2), accepts) == app
  {
  }

  /** Selecting a folder in Finder claims Space; selecting a plain file
      afterwards releases it. */
  lemma {:induction false} FolderThenFile(app: App, folder: string, file: string, t1: int, t2: int, accepts: set<Combo>)
    requires Synced(app) && Grants(accepts)
    requires Transportable(InFinder(Folder(folder))) && Transportable(InFinder(File(file)))
    ensures var a1 := OnProbe(app, t1, Stdout(Render(InFinder(Folder(folder)))), accepts);
            && a1.keys.space && Space in a1.keys.registry && a1.keys.cut
            && var a2 := OnProbe(a1, t2, Stdout(Render(InFinder(File(file)))), accepts);
               !a2.keys.space && Space !in a2.keys.registry && a2.keys.cut
  {
    var a1 := OnProbe(app, t1, Stdout(Render(InFinder(Folder(folder)))), accepts);
    ParseProbeOfRender(InFinder(Folder(folder)));
    DecisionsOfAnswer(InFinder(Folder(folder)), HasCut(app));
    OnProbeKeepsSynced(app, t1, Stdout(Render(InFinder(Folder(folder)))), accepts);
    ParseProbeOfRender(InFinder(File(file)));
    DecisionsOfAnswer(InFinder(File(file)), HasCut(a1));
    OnProbeKeepsSynced(a1, t2, Stdout(Render(InFinder(File(file)))), accepts);
  }

  /** A cut does not re-run the decisions by itself: right after it, the
      paste flag still reflects the old, empty list. The next health tick
      claims Cmd+V. */
  lemma {:induction false} CutThenHealthTick(app: App, paths: seq<string>, validation: ExecReply, accepts: set<Combo>)
    requires Synced(app) && Grants(accepts) && app.healthChecking
    requires app.snapshot.finderActive && |app.cutList| == 0
    requires |paths| > 0 && forall k :: 0 <= k < |paths| ==> PosixPath(paths[k])
    ensures var a1 := HandleCut(app, Stdout(RenderPaths(paths)), validation).0;
            && a1.cutList == paths
            && !a1.keys.paste
            && var a2 := HealthTick(a1, accepts);
               a2.keys.paste && CmdV in a2.keys.registry
  {
    SelectedPathsOfRender(paths);
    var a1 := HandleCut(app, Stdout(RenderPaths(paths)), validation).0;
    HealthCheckRepairs(a1.keys, ShouldCut(a1.snapshot), ShouldPaste(a1.snapshot, HasCut(a1)), accepts);
  }

  /** A successful paste empties the list; the next health tick releases
      Cmd+V. */
  lemma {:induction false} PasteThenHealthTick(app: App, folder: string, accepts: set<Combo>)
    requires Grants(accepts) && app.healthChecking && |app.cutList| > 0
    requires |folder| > 0 && Trimmed(folder)
    ensures var a1 := HandlePaste(app, Stdout(folder + "\n"), Stdout("")).0;
            && a1.cutList == []
            && var a2 := HealthTick(a1, accepts);
               !a2.keys.paste && CmdV !in a2.keys.registry
  {
    QuickPathOfPrinted(folder);
    QuickPathIsCurrentFolder(Stdout(folder + "\n"));
    assert Trim("") == "" && !StartsWith("", "error:");
    var a1 := HandlePaste(app, Stdout(folder + "\n"), Stdout("")).0;
    HealthCheckRepairs(a1.keys, ShouldCut(a1.snapshot), ShouldPaste(a1.snapshot, HasCut(a1)), accepts);
  }

  /** Switching the cut shortcut off releases Cmd+X but leaves its flag
      set; the next health tick, which does not read the setting, claims
      Cmd+X again while Finder has a selection. */
  lemma {:induction false} DisabledCutComesBack(app: App, accepts: set<Combo>)
    requires Synced(app) && Grants(accepts) && app.healthChecking
    requires ShouldCut(app.snapshot)
    ensures var a1 := UpdateSettings(app, false, accepts);
            && a1.keys.cut && CmdX !in a1.keys.registry && !Consistent(a1.keys)
            && var a2 := HealthTick(a1, accepts);
               a2.keys.cut && CmdX in a2.keys.registry
  {
    var a1 := UpdateSettings(app, false, accepts);
    assert !Agrees(a1.keys, CmdX);
    HealthCheckRepairs(a1.keys, ShouldCut(a1.snapshot), ShouldPaste(a1.snapshot, HasCut(a1)), accepts);
  }

  /** A second press before the 200 ms unblock timer is debounced, whatever
      its time. */
  lemma SecondPressDebounced(app: App, t1: int, t2: int)
    requires SpaceKey(app, t1).1 != Debounced
    ensures SpaceKey(SpaceKey(app, t1).0, t2).1 == Debounced
  {
  }

  /** With a live window, an accepted press starts closing it; it never
      builds a second window. */
  lemma PressWithOpenWindowCloses(app: App, now: int)
    requires !app.spaceBlocked && now - app.lastSpaceKeyTime >= SpaceKeyThrottle
    requires !app.preview.creating && Lifecycle.Live(app.preview)
    ensures SpaceKey(app, now).1 == Closing
    ensures SpaceKey(app, now).0.preview.pending == app.preview.pending
  {
  }

  /** After quitting, nothing is registered and no window is live; the
      flags are not cleared. */
  lemma QuitReleasesEverything(app: App)
    ensures Quit(app).keys.registry == {} && !Lifecycle.Live(Quit(app).preview)
    ensures Quit(app).keys.space == app.keys.space && Quit(app).keys.cut == app.keys.cut
  {
  }
}

=== FILE: hotkeys.dfy ===
/** The global-shortcut registry of the desktop shell and the three flags the
    application keeps about its own registrations (`spaceKeyRegistered`,
    `cutShortcutRegistered`, `pasteShortcutRegistered`).

    `globalShortcut` is a set of combos. Whether the operating system lets a
    registration through is not something the application controls: it is the
    parameter `accepts`, the combos the OS would grant at that moment.
    Registering a combo the registry already holds is refused, which is why
    `registerSpaceKey` unregisters Space before registering it. */
module Hotkeys {

  datatype Combo = Space | CmdX | CmdV | CmdShiftP

  /** The flags of the application and the registry of the shell. */
  datatype Shortcuts = Shortcuts(space: bool, cut: bool, paste: bool, registry: set<Combo>)
  {
    /** The flag the application keeps for `c` (Cmd+Shift+P has none and
        reads as its registry entry). */
    function Flag(c: Combo): bool {
      match c
      case Space => space
      case CmdX => cut
      case CmdV => paste
      case CmdShiftP => CmdShiftP in registry
    }

    function WithFlag(c: Combo, b: bool): (s: Shortcuts)
      ensures c != CmdShiftP ==> s.Flag(c) == b
      ensures forall d :: d != c ==> s.Flag(d) == Flag(d)
      ensures s.registry == registry
    {
      match c
      case Space => this.(space := b)
      case CmdX => this.(cut := b)
      case CmdV => this.(paste := b)
      case CmdShiftP => this
    }
  }

  /** The flag agrees with the registry for `c`. */
  predicate Agrees(s: Shortcuts, c: Combo) {
    s.Flag(c) <==> c in s.registry
  }

  /** `globalShortcut.register(c, ...)`: granted when the registry does not
      already hold `c` and the OS accepts it; a granted combo is added and
      nothing else changes. */
  function Register(registry: set<Combo>, c: Combo, accepts: set<Combo>): (r: (set<Combo>, bool))
    ensures r.1 <==> c !in registry && c in accepts
    ensures r.1 ==> c in r.0
    ensures r.0 - {c} == registry - {c}
    ensures c in r.0 <==> c in registry || c in accepts
  {
    if c !in registry && c in accepts then (registry + {c}, true) else (registry, false)
  }

  /** `globalShortcut.unregister(c)`. */
  function Unregister(registry: set<Combo>, c: Combo): (r: set<Combo>)
    ensures c !in r && r + {c} >= registry && r <= registry
  {
    registry - {c}
  }

  /** `registerSpaceKey`: nothing when the flag is set; otherwise a stale
      registration is dropped first, and the flag records whether the fresh
      registration was granted. */
  function RegisterSpaceKey(s: Shortcuts, accepts: set<Combo>): (r: Shortcuts)
    ensures s.space ==> r == s
    ensures !s.space ==> (r.space <==> Space in accepts)
    ensures !s.space ==> Agrees(r, Space)
    ensures r.cut == s.cut && r.paste == s.paste
    ensures r.registry - {Space} == s.registry - {Space}
  {
    if s.space then s
    else
      var cleared := if Space in s.registry then Unregister(s.registry, Space) else s.registry;
      var (registry, ok) := Register(cleared, Space, accepts);
      s.(space := ok, registry := registry)
  }

  /** `registerCutShortcut` / `registerPasteShortcut`: nothing when the flag
      is set; otherwise the flag records whether registration was granted. */
  function RegisterShortcut(s: Shortcuts, c: Combo, accepts: set<Combo>): (r: Shortcuts)
    requires c == CmdX || c == CmdV
    ensures s.Flag(c) ==> r == s
    ensures !s.Flag(c) ==> (r.Flag(c) <==> c !in s.registry && c in accepts)
    ensures forall d :: d != c ==> r.Flag(d) == s.Flag(d)
    ensures r.registry - {c} == s.registry - {c}
  {
    if s.Flag(c) then s
    else
      var (registry, ok) := Register(s.registry, c, accepts);
      s.WithFlag(c, ok).(registry := registry)
  }

  /** `unregisterSpaceKey` / `unregisterCutShortcut` / `unregisterPasteShortcut`:
      the combo is released and the flag cleared only when the registry still
      reports the combo; a flag whose combo has vanished from the registry
      stays set. */
  function UnregisterShortcut(s: Shortcuts, c: Combo): (r: Shortcuts)
    requires c != CmdShiftP
    ensures !s.Flag(c) ==> r == s
    ensures s.Flag(c) && c in s.registry ==> !r.Flag(c) && c !in r.registry
    ensures s.Flag(c) && c !in s.registry ==> r == s
    ensures forall d :: d != c ==> r.Flag(d) == s.Flag(d)
    ensures r.registry - {c} == s.registry - {c}
  {
    if !s.Flag(c) then s
    else if c in s.registry then s.WithFlag(c, false).(registry := Unregister(s.registry, c))
    else s
  }

  /** `manageSpaceKeyRegistration` once `shouldInterceptSpaceKey()` is known. */
  function ManageSpace(s: Shortcuts, want: bool, accepts: set<Combo>): (r: Shortcuts)
    ensures r.cut == s.cut && r.paste == s.paste
    ensures r.registry - {Space} == s.registry - {Space}
    ensures want == s.space ==> r == s
  {
    if want && !s.space then RegisterSpaceKey(s, accepts)
    else if !want && s.space then UnregisterShortcut(s, Space)
    else s
  }

  /** One half of `manageCutPasteShortcuts`. */
  function ManageOne(s: Shortcuts, c: Combo, want: bool, accepts: set<Combo>): (r: Shortcuts)
    requires c == CmdX || c == CmdV
    ensures forall d :: d != c ==> r.Flag(d) == s.Flag(d)
    ensures r.registry - {c} == s.registry - {c}
    ensures want == s.Flag(c) ==> r == s
  {
    if want && !s.Flag(c) then RegisterShortcut(s, c, accepts)
    else if !want && s.Flag(c) then UnregisterShortcut(s, c)
    else s
  }

  /** `manageCutPasteShortcuts`: Cmd+X first, then Cmd+V. */
  function ManageCutPaste(s: Shortcuts, wantCut: bool, wantPaste: bool, accepts: set<Combo>): (r: Shortcuts)
    ensures r.space == s.space
    ensures r.registry * {Space, CmdShiftP} == s.registry * {Space, CmdShiftP}
  {
    ManageOne(ManageOne(s, CmdX, wantCut, accepts), CmdV, wantPaste, accepts)
  }

  /** `checkShortcutHealth`: the cut and paste flags are overwritten with what
      the registry reports, then the cut/paste decision runs again. The Space
      flag is left as it is. */
  function HealthCheck(s: Shortcuts, wantCut: bool, wantPaste: bool, accepts: set<Combo>): (r: Shortcuts)
    ensures r.space == s.space
  {
    var synced := s.(cut := CmdX in s.registry, paste := CmdV in s.registry);
    ManageCutPaste(synced, wantCut, wantPaste, accepts)
  }

  /** The part of `registerOptimizedShortcuts` that touches the registry: both
      cut/paste flags are cleared (without releasing anything) and
      Cmd+Shift+P is registered. */
  function ResetShortcuts(s: Shortcuts, accepts: set<Combo>): (r: Shortcuts)
    ensures !r.cut && !r.paste && r.space == s.space
    ensures r.registry - {CmdShiftP} == s.registry - {CmdShiftP}
    ensures CmdShiftP in r.registry <==> CmdShiftP in s.registry || CmdShiftP in accepts
  {
    s.(cut := false, paste := false, registry := Register(s.registry, CmdShiftP, accepts).0)
  }

  // -----------------------------------------------------------------------
  // Properties
  // -----------------------------------------------------------------------

  /** Each of the three managed flags agrees with the registry. */
  predicate Consistent(s: Shortcuts) {
    Agrees(s, Space) && Agrees(s, CmdX) && Agrees(s, CmdV)
  }

  /** A refused registration leaves the flag clear. */
  lemma RefusedLeavesFlagClear(s: Shortcuts, c: Combo, accepts: set<Combo>)
    requires c == CmdX || c == CmdV
    requires !s.Flag(c) && c !in accepts
    ensures !RegisterShortcut(s, c, accepts).Flag(c)
    ensures !RegisterSpaceKey(s, accepts - {Space}).space || s.space
  {
  }

  /** With a consistent registry and an OS that grants the combo, one
      decision leaves the flag equal to the predicate and the registry
      consistent. */
  lemma {:induction false} ManageOneTracks(s: Shortcuts, c: Combo, want: bool, accepts: set<Combo>)
    requires c == CmdX || c == CmdV
    requires Consistent(s) && c in accepts
    ensures ManageOne(s, c, want, accepts).Flag(c) == want
    ensures Consistent(ManageOne(s, c, want, accepts))
  {
    var r := ManageOne(s, c, want, accepts);
    forall d | d != c
      ensures r.Flag(d) == s.Flag(d) && (d in r.registry <==> d in s.registry)
    {
      assert d in r.registry - {c} <==> d in s.registry - {c};
    }
  }

  /** The Space decision under the same conditions. */
  lemma {:induction false} ManageSpaceTracks(s: Shortcuts, want: bool, accepts: set<Combo>)
    requires Consistent(s) && Space in accepts
    ensures ManageSpace(s, want, accepts).space == want
    ensures Consistent(ManageSpace(s, want, accepts))
  {
    var r := ManageSpace(s, want, accepts);
    assert CmdX in r.registry <==> CmdX in s.registry by {
      assert CmdX in r.registry - {Space} <==> CmdX in s.registry - {Space};
    }
    assert CmdV in r.registry <==> CmdV in s.registry by {
      assert CmdV in r.registry - {Space} <==> CmdV in s.registry - {Space};
    }
  }

  /** Both cut/paste decisions under the same conditions. */
  lemma ManageCutPasteTracks(s: Shortcuts, wantCut: bool, wantPaste: bool, accepts: set<Combo>)
    requires Consistent(s) && CmdX in accepts && CmdV in accepts
    ensures ManageCutPaste(s, wantCut, wantPaste, accepts).cut == wantCut
    ensures ManageCutPaste(s, wantCut, wantPaste, accepts).paste == wantPaste
    ensures Consistent(ManageCutPaste(s, wantCut, wantPaste, accepts))
  {
    var s1 := ManageOne(s, CmdX, wantCut, accepts);
    ManageOneTracks(s, CmdX, wantCut, accepts);
    ManageOneTracks(s1, CmdV, wantPaste, accepts);
  }

  /** When Cmd+X vanished from the registry behind the application's back,
      unregistering keeps the flag set: the flag no longer tracks the
      predicate. */
  lemma StaleFlagSurvivesUnregister(s: Shortcuts, accepts: set<Combo>)
    requires s.cut && CmdX !in s.registry
    ensures ManageOne(s, CmdX, false, accepts).cut
    ensures !Agrees(ManageOne(s, CmdX, false, accepts), CmdX)
  {
  }

  /** A stale Cmd+X flag that a plain decision cannot repair: wanting the
      combo does nothing because the flag already claims it. */
  lemma StaleFlagBlocksRegister(s: Shortcuts, accepts: set<Combo>)
    requires s.cut && CmdX !in s.registry
    ensures ManageOne(s, CmdX, true, accepts) == s
  {
  }

  /** The health check repairs the cut/paste flags whatever their previous
      values: with an OS that grants both combos, afterwards they equal the
      predicates and agree with the registry. The Space flag is not
      reconciled: a stale Space flag stays stale. */
  lemma {:induction false} HealthCheckRepairs(s: Shortcuts, wantCut: bool, wantPaste: bool, accepts: set<Combo>)
    requires CmdX in accepts && CmdV in accepts
    ensures HealthCheck(s, wantCut, wantPaste, accepts).cut == wantCut
    ensures HealthCheck(s, wantCut, wantPaste, accepts).paste == wantPaste
    ensures Agrees(HealthCheck(s, wantCut, wantPaste, accepts), CmdX)
    ensures Agrees(HealthCheck(s, wantCut, wantPaste, accepts), CmdV)
    ensures HealthCheck(s, wantCut, wantPaste, accepts).space == s.space
    ensures (Space in HealthCheck(s, wantCut, wantPaste, accepts).registry) == (Space in s.registry)
  {
    var synced := s.(cut := CmdX in s.registry, paste := CmdV in s.registry);
    var fixed := synced.(space := Space in s.registry);
    assert Consistent(fixed);
    ManageCutPasteTracks(fixed, wantCut, wantPaste, accepts);
    SpaceIrrelevantToCutPaste(synced, Space in s.registry, wantCut, wantPaste, accepts);
  }

  /** The cut/paste decision does not look at the Space flag. */
  lemma {:induction false} SpaceIrrelevantToCutPaste(s: Shortcuts, b: bool, wantCut: bool, wantPaste: bool, accepts: set<Combo>)
    ensures ManageCutPaste(s.(space := b), wantCut, wantPaste, accepts)
         == ManageCutPaste(s, wantCut, wantPaste, accepts).(space := b)
    ensures Space in ManageCutPaste(s, wantCut, wantPaste, accepts).registry <==> Space in s.registry
  {
    var r := ManageCutPaste(s, wantCut, wantPaste, accepts);
    assert Space in r.registry * {Space, CmdShiftP} <==> Space in s.registry * {Space, CmdShiftP};
  }
}

=== FILE: js_text.dfy ===
/** The JavaScript string primitives the application leans on, written out:
    `trim`, `startsWith`/`endsWith`, `split`/`join` with a string separator,
    ASCII `toLowerCase`, `parseInt` without a radix, and the POSIX flavour
    of Node's `path.basename` / `path.extname`. */
module JsText {
  import opened Common

  // ---------------------------------------------------------------------
  // Whitespace and trim
  // ---------------------------------------------------------------------

  /** ECMAScript WhiteSpace and LineTerminator code points: what `trim`
      removes and what `parseInt` skips before the number. */
  predicate IsWhite(c: char) {
    || c == '\t' || c == '\n' || c == '\U{B}' || c == '\U{C}' || c == '\r' || c == ' '
    || c == '\U{A0}' || c == '\U{1680}' || ('\U{2000}' <= c <= '\U{200A}')
    || c == '\U{2028}' || c == '\U{2029}' || c == '\U{202F}' || c == '\U{205F}'
    || c == '\U{3000}' || c == '\U{FEFF}'
  }

  /** A string with no whitespace at either end (what `trim` returns). */
  predicate Trimmed(s: string) {
    |s| == 0 || (!IsWhite(s[0]) && !IsWhite(s[|s| - 1]))
  }

  function TrimStart(s: string): (r: string)
    ensures |r| <= |s| && r == s[|s| - |r|..]
    ensures forall i :: 0 <= i < |s| - |r| ==> IsWhite(s[i])
    ensures |r| > 0 ==> !IsWhite(r[0])
  {
    if |s| > 0 && IsWhite(s[0]) then TrimStart(s[1..]) else s
  }

  function TrimEnd(s: string): (r: string)
    ensures |r| <= |s| && r == s[..|r|]
    ensures forall i :: |r| <= i < |s| ==> IsWhite(s[i])
    ensures |r| > 0 ==> !IsWhite(r[|r| - 1])
  {
    if |s| > 0 && IsWhite(s[|s| - 1]) then TrimEnd(s[..|s| - 1]) else s
  }

  /** `s.trim()`: the longest infix of `s` that neither starts nor ends with
      whitespace, obtained by removing only whitespace. */
  function Trim(s: string): (r: string)
    ensures Trimmed(r)
    ensures exists a :: WhiteFramed(s, r, a)
  {
    var t := TrimStart(s);
    var r := TrimEnd(t);
    FramedByTrims(s, t, r);
    r
  }

  /** What the two trims leave, stated without them. */
  lemma FramedByTrims(s: string, t: string, r: string)
    requires |t| <= |s| && t == s[|s| - |t|..] && forall i :: 0 <= i < |s| - |t| ==> IsWhite(s[i])
    requires |r| <= |t| && r == t[..|r|] && forall i :: |r| <= i < |t| ==> IsWhite(t[i])
    ensures WhiteFramed(s, r, |s| - |t|)
  {
    var a := |s| - |t|;
    forall k | 0 <= k < |r| ensures r[k] == s[a + k] {
      assert r[k] == t[k];
    }
    forall i | a + |r| <= i < |s| ensures IsWhite(s[i]) {
      assert s[i] == t[i - a];
    }
  }

  /** `r` sits in `s` at offset `a`, and everything around it is whitespace. */
  predicate WhiteFramed(s: string, r: string, a: int) {
    && 0 <= a && a + |r| <= |s| && r == s[a..a + |r|]
    && (forall i :: 0 <= i < a ==> IsWhite(s[i]))
    && (forall i :: a + |r| <= i < |s| ==> IsWhite(s[i]))
  }

  /** Trimming a string that has no whitespace at its ends gives it back. */
  lemma TrimOfTrimmed(s: string)
    requires Trimmed(s)
    ensures Trim(s) == s
  {
  }

  /** `trim` is idempotent. */
  lemma TrimIdempotent(s: string)
    ensures Trim(Trim(s)) == Trim(s)
  {
    TrimOfTrimmed(Trim(s));
  }

  /** Trailing whitespace after a trimmed, non-empty string (the newline a
      child process prints after its answer, say) is what `trim` removes. */
  lemma TrimOfPadded(t: string, w: string)
    requires |t| > 0 && Trimmed(t)
    requires forall k :: 0 <= k < |w| ==> IsWhite(w[k])
    ensures Trim(t + w) == t
  {
    TrimStartOfNonWhite(t + w);
    TrimEndOfPadded(t, w);
  }

  lemma {:induction false} TrimEndOfPadded(t: string, w: string)
    requires |t| > 0 && !IsWhite(t[|t| - 1])
    requires forall k :: 0 <= k < |w| ==> IsWhite(w[k])
    ensures TrimEnd(t + w) == t
    decreases |w|
  {
    var s := t + w;
    if |w| == 0 {
      assert s == t;
    } else {
      assert s[|s| - 1] == w[|w| - 1];
      assert s[..|s| - 1] == t + w[..|w| - 1];
      TrimEndOfPadded(t, w[..|w| - 1]);
    }
  }

  // ---------------------------------------------------------------------
  // Prefixes, suffixes, occurrences
  // ---------------------------------------------------------------------

  predicate StartsWith(s: string, prefix: string) {
    |prefix| <= |s| && s[..|prefix|] == prefix
  }

  predicate EndsWith(s: string, suffix: string) {
    |suffix| <= |s| && s[|s| - |suffix|..] == suffix
  }

  /** `sep` occurs in `s` starting at index `j`. */
  predicate OccursAt(s: string, sep: string, j: int) {
    0 <= j && j + |sep| <= |s| && s[j..j + |sep|] == sep
  }

  predicate NoOccurrence(s: string, sep: string) {
    forall j :: 0 <= j < |s| ==> !OccursAt(s, sep, j)
  }

  /** `s.indexOf(sep, i)`: the first occurrence at or after `i`. */
  function IndexFrom(s: string, sep: string, i: nat): (r: Option<nat>)
    requires |sep| > 0
    decreases |s| - i
    ensures r.Some? ==>
              && i <= r.value && OccursAt(s, sep, r.value)
              && forall j :: i <= j < r.value ==> !OccursAt(s, sep, j)
    ensures r.None? ==> forall j :: i <= j ==> !OccursAt(s, sep, j)
  {
    if i + |sep| > |s| then None
    else if s[i..i + |sep|] == sep then Some(i)
    else IndexFrom(s, sep, i + 1)
  }

  /** The part of `s` before the first occurrence of `sep` holds no
      occurrence of `sep`. */
  lemma NoOccurrenceBeforeFirst(s: string, sep: string, i: nat)
    requires |sep| > 0 && i <= |s|
    requires forall j :: 0 <= j < i ==> !OccursAt(s, sep, j)
    ensures NoOccurrence(s[..i], sep)
  {
    forall j | OccursAt(s[..i], sep, j)
      ensures false
    {
      assert s[..i][j..j + |sep|] == s[j..j + |sep|];
      assert OccursAt(s, sep, j);
    }
  }

  // ---------------------------------------------------------------------
  // split / join
  // ---------------------------------------------------------------------

  /** `s.split(sep)` for a non-empty string separator: the pieces between
      successive left-to-right, non-overlapping occurrences of `sep`. */
  function Split(s: string, sep: string): (r: seq<string>)
    requires |sep| > 0
    decreases |s|
    ensures |r| >= 1
    ensures forall k :: 0 <= k < |r| ==> NoOccurrence(r[k], sep)
  {
    match IndexFrom(s, sep, 0)
    case None =>
      [s]
    case Some(i) =>
      NoOccurrenceBeforeFirst(s, sep, i);
      [s[..i]] + Split(s[i + |sep|..], sep)
  }

  /** `parts.join(sep)`. */
  function Join(parts: seq<string>, sep: string): string {
    if |parts| == 0 then ""
    else if |parts| == 1 then parts[0]
    else parts[0] + sep + Join(parts[1..], sep)
  }

  /** Joining the pieces of a split with the same separator restores the
      string. */
  lemma {:induction false} JoinOfSplit(s: string, sep: string)
    requires |sep| > 0
    ensures Join(Split(s, sep), sep) == s
    decreases |s|
  {
    match IndexFrom(s, sep, 0)
    case None =>
    case Some(i) =>
      var rest := s[i + |sep|..];
      var tail := Split(rest, sep);
      JoinOfSplit(rest, sep);
      assert Split(s, sep) == [s[..i]] + tail;
      assert ([s[..i]] + tail)[1..] == tail;
      assert s[i..i + |sep|] == sep;
      calc {
        Join(Split(s, sep), sep);
        s[..i] + sep + Join(tail, sep);
        s[..i] + s[i..i + |sep|] + s[i + |sep|..];
        s;
      }
  }

  /** A string without the separator's first character splits into itself. */
  lemma SplitWithoutSeparator(s: string, sep: string)
    requires |sep| > 0 && sep[0] !in s
    ensures IndexFrom(s, sep, 0).None?
    ensures Split(s, sep) == [s]
  {
    forall j | 0 <= j < |s|
      ensures !OccursAt(s, sep, j)
    {
      assert s[j] in s;
      if j + |sep| <= |s| {
        assert s[j..j + |sep|][0] == s[j];
      }
    }
  }

  /** Splitting the join of pieces that never contain the separator's first
      character gives the pieces back. */
  lemma {:induction false} SplitOfJoin(ps: seq<string>, sep: string)
    requires |sep| > 0 && |ps| >= 1
    requires forall k :: 0 <= k < |ps| ==> sep[0] !in ps[k]
    ensures Split(Join(ps, sep), sep) == ps
    decreases |ps|
  {
    if |ps| == 1 {
      SplitWithoutSeparator(ps[0], sep);
    } else {
      var p := ps[0];
      var rest := Join(ps[1..], sep);
      var s := p + sep + rest;
      assert Join(ps, sep) == s;
      assert OccursAt(s, sep, |p|) by {
        assert s[|p|..|p| + |sep|] == sep;
      }
      forall j | 0 <= j < |p|
        ensures !OccursAt(s, sep, j)
      {
        assert s[j] == p[j];
        assert p[j] in p;
        if j + |sep| <= |s| {
          assert s[j..j + |sep|][0] == s[j];
        }
      }
      var r := IndexFrom(s, sep, 0);
      assert r.Some? && r.value == |p|;
      assert s[..|p|] == p;
      assert s[|p| + |sep|..] == rest;
      SplitOfJoin(ps[1..], sep);
      assert [p] + ps[1..] == ps;
    }
  }

  // ---------------------------------------------------------------------
  // Lower case (ASCII letters)
  // ---------------------------------------------------------------------

  function LowerChar(c: char): char {
    if 'A' <= c <= 'Z' then (c as int + 32) as char else c
  }

  function ToLower(s: string): (r: string)
    ensures |r| == |s|
  {
    seq(|s|, i requires 0 <= i < |s| => LowerChar(s[i]))
  }

  // ---------------------------------------------------------------------
  // POSIX path.basename / path.extname
  // ---------------------------------------------------------------------

  /** Index of the last occurrence of `c` in `s`. */
  function LastIndexOf(s: string, c: char): (r: Option<nat>)
    ensures r.Some? ==>
              && r.value < |s| && s[r.value] == c
              && forall j :: r.value < j < |s| ==> s[j] != c
    ensures r.None? ==> c !in s
  {
    if |s| == 0 then None
    else if s[|s| - 1] == c then Some(|s| - 1)
    else
      var r := LastIndexOf(s[..|s| - 1], c);
      assert s == s[..|s| - 1] + [s[|s| - 1]];
      r
  }

  function StripTrailingSlashes(p: string): (r: string)
    ensures |r| <= |p| && r == p[..|r|]
    ensures |r| > 0 ==> r[|r| - 1] != '/'
  {
    if |p| > 0 && p[|p| - 1] == '/' then StripTrailingSlashes(p[..|p| - 1]) else p
  }

  /** `path.basename(p)`: the last path segment, trailing slashes ignored. */
  function Basename(p: string): (r: string)
    ensures '/' !in r
  {
    var q := StripTrailingSlashes(p);
    match LastIndexOf(q, '/')
    case None => q
    case Some(i) => q[i + 1..]
  }

  /** `path.extname(p)`: from the last '.' of the base name to its end; empty
      when the name has no '.', when its only leading '.' is its first
      character (a dot-file), or when the name is "..". */
  function Extname(p: string): (r: string)
    ensures r == [] || r[0] == '.'
    ensures forall k :: 1 <= k < |r| ==> r[k] != '.'
    ensures forall k :: 0 <= k < |r| ==> r[k] != '/'
  {
    var seg := Basename(p);
    match LastIndexOf(seg, '.')
    case None => ""
    case Some(d) =>
      if d == 0 || seg == ".." then ""
      else seg[d..]
  }

  /** The base name of a segment appended to a directory prefix is the
      segment itself. */
  lemma BasenameOfSegment(dir: string, name: string)
    requires dir == [] || dir[|dir| - 1] == '/'
    requires |name| > 0 && '/' !in name
    ensures Basename(dir + name) == name
  {
    var p := dir + name;
    assert StripTrailingSlashes(p) == p by {
      assert p[|p| - 1] == name[|name| - 1];
      assert name[|name| - 1] in name;
    }
    forall k | |dir| <= k < |p|
      ensures p[k] != '/'
    {
      assert p[k] == name[k - |dir|];
      assert name[k - |dir|] in name;
    }
    if dir != [] {
      assert p[|dir| - 1] == '/';
      var r := LastIndexOf(p, '/');
      assert r.Some? by {
        assert p[|dir| - 1] in p;
      }
      assert r.value == |dir| - 1;
      assert p[|dir|..] == name;
    } else {
      assert p == name;
    }
  }

  /** An independent description of `extname`: a non-empty stem without '/'
      followed by '.' and a dot-free extension has exactly that extension
      (the single exception being the name ".."). */
  lemma ExtnameOfName(dir: string, stem: string, ext: string)
    requires dir == [] || dir[|dir| - 1] == '/'
    requires |stem| > 0 && '/' !in stem && '/' !in ext && '.' !in ext
    requires !(stem == "." && ext == "")
    ensures Extname(dir + (stem + "." + ext)) == "." + ext
  {
    var name := stem + "." + ext;
    DottedNameFacts(stem, ext);
    BasenameOfSegment(dir, name);
  }

  lemma DottedNameFacts(stem: string, ext: string)
    requires |stem| > 0 && '/' !in stem && '/' !in ext && '.' !in ext
    requires !(stem == "." && ext == "")
    ensures '/' !in stem + "." + ext
    ensures LastIndexOf(stem + "." + ext, '.') == Some(|stem|)
    ensures stem + "." + ext != ".."
    ensures (stem + "." + ext)[|stem|..] == "." + ext
  {
    var name := stem + "." + ext;
    NoSlashInDottedName(stem, ext);
    LastDotOfDottedName(stem, ext);
    if |name| == 2 {
      assert |stem| == 1 && ext == "";
      assert stem == [name[0]];
    }
  }

  lemma NoSlashInDottedName(stem: string, ext: string)
    requires '/' !in stem && '/' !in ext
    ensures '/' !in stem + "." + ext
  {
    var name := stem + "." + ext;
    forall k | 0 <= k < |name|
      ensures name[k] != '/'
    {
      if k < |stem| {
        assert name[k] == stem[k];
        assert stem[k] in stem;
      } else if k > |stem| {
        assert name[k] == ext[k - |stem| - 1];
        assert ext[k - |stem| - 1] in ext;
      }
    }
  }

  lemma LastDotOfDottedName(stem: string, ext: string)
    requires '.' !in ext
    ensures LastIndexOf(stem + "." + ext, '.') == Some(|stem|)
  {
    DotOfDottedName(stem, ext);
    LastIndexOfAt(stem + "." + ext, '.', |stem|);
  }

  lemma DotOfDottedName(stem: string, ext: string)
    requires '.' !in ext
    ensures (stem + "." + ext)[|stem|] == '.'
    ensures forall k :: |stem| < k < |stem + "." + ext| ==> (stem + "." + ext)[k] != '.'
  {
    var name := stem + "." + ext;
    forall k | |stem| < k < |name|
      ensures name[k] != '.'
    {
      assert name[k] == ext[k - |stem| - 1];
      assert ext[k - |stem| - 1] in ext;
    }
  }

  /** The last occurrence is the one with no occurrence after it. */
  lemma LastIndexOfAt(s: string, c: char, i: nat)
    requires i < |s| && s[i] == c
    requires forall j :: i < j < |s| ==> s[j] != c
    ensures LastIndexOf(s, c) == Some(i)
  {
    assert s[i] in s;
  }

  // ---------------------------------------------------------------------
  // parseInt(string) without a radix
  // ---------------------------------------------------------------------

  predicate IsDigitIn(c: char, radix: nat) {
    if radix == 16 then '0' <= c <= '9' || 'a' <= c <= 'f' || 'A' <= c <= 'F'
    else '0' <= c <= '9'
  }

  function DigitValue(c: char): nat {
    if '0' <= c <= '9' then c as int - '0' as int
    else if 'a' <= c <= 'f' then c as int - 'a' as int + 10
    else if 'A' <= c <= 'F' then c as int - 'A' as int + 10
    else 0
  }

  /** The longest prefix of `s` made of digits of the radix. */
  function DigitRun(s: string, radix: nat): (r: string)
    ensures |r| <= |s| && r == s[..|r|]
    ensures forall k :: 0 <= k < |r| ==> IsDigitIn(r[k], radix)
    ensures |r| < |s| ==> !IsDigitIn(s[|r|], radix)
  {
    if |s| > 0 && IsDigitIn(s[0], radix) then [s[0]] + DigitRun(s[1..], radix) else ""
  }

  /** The value of a digit string read most significant digit first. */
  function DigitsValue(d: string, radix: nat): nat {
    if |d| == 0 then 0 else DigitsValue(d[..|d| - 1], radix) * radix + DigitValue(d[|d| - 1])
  }

  /** The value of the longest digit run at the start of `v`, or `None`
      when `v` does not start with a digit. */
  function DigitsOf(v: string, radix: nat): Option<nat> {
    var d := DigitRun(v, radix);
    if |d| == 0 then None else Some(DigitsValue(d, radix))
  }

  /** An unsigned number: "0x"/"0X" selects base 16, otherwise base 10. */
  function ParseMagnitude(u: string): Option<nat> {
    if |u| >= 2 && u[0] == '0' && (u[1] == 'x' || u[1] == 'X') then DigitsOf(u[2..], 16)
    else DigitsOf(u, 10)
  }

  /** `parseInt(s)`: skip leading whitespace, an optional sign, then an
      unsigned number; `None` is JavaScript's NaN (no digit at all). */
  function ParseInt(s: string): Option<int> {
    var t := TrimStart(s);
    if |t| > 0 && t[0] == '-' then Signed(true, ParseMagnitude(t[1..]))
    else if |t| > 0 && t[0] == '+' then Signed(false, ParseMagnitude(t[1..]))
    else Signed(false, ParseMagnitude(t))
  }

  function Signed(negative: bool, m: Option<nat>): Option<int> {
    match m
    case None => None
    case Some(v) => Some(if negative then -(v as int) else v as int)
  }

  function DecimalDigit(n: nat): char
    requires n < 10
  {
    ('0' as int + n) as char
  }

  /** `String(n)` for a natural number: its decimal digits. */
  function NatToDecimal(n: nat): (r: string)
    ensures |r| > 0
    ensures forall k :: 0 <= k < |r| ==> '0' <= r[k] <= '9'
  {
    if n < 10 then [DecimalDigit(n)] else NatToDecimal(n / 10) + [DecimalDigit(n % 10)]
  }

  /** `String(n)` for an integer within the range JavaScript prints without an
      exponent. */
  function IntToDecimal(n: int): string {
    if n < 0 then "-" + NatToDecimal(-n) else NatToDecimal(n)
  }

  lemma {:induction false} DigitsValueOfDecimal(n: nat)
    ensures DigitsValue(NatToDecimal(n), 10) == n
    decreases n
  {
    if n >= 10 {
      var d := NatToDecimal(n);
      DigitsValueOfDecimal(n / 10);
      assert d[..|d| - 1] == NatToDecimal(n / 10);
    }
  }

  lemma DigitRunOfDigits(s: string)
    requires forall k :: 0 <= k < |s| ==> '0' <= s[k] <= '9'
    ensures DigitRun(s, 10) == s
  {
    var r := DigitRun(s, 10);
    assert |r| < |s| ==> IsDigitIn(s[|r|], 10);
  }

  /** A run of decimal digits reads as its decimal value. */
  lemma MagnitudeOfDigits(d: string)
    requires |d| > 0 && forall k :: 0 <= k < |d| ==> '0' <= d[k] <= '9'
    ensures ParseMagnitude(d) == Some(DigitsValue(d, 10))
  {
    assert |d| >= 2 ==> '0' <= d[1] <= '9';
    DigitRunOfDigits(d);
  }

  /** A string not starting with whitespace is its own `trimStart`. */
  lemma TrimStartOfNonWhite(s: string)
    requires |s| > 0 && !IsWhite(s[0])
    ensures TrimStart(s) == s
  {
  }

  lemma ParseIntOfNatDecimal(n: nat)
    ensures ParseInt(NatToDecimal(n)) == Some(n)
  {
    var d := NatToDecimal(n);
    DigitsValueOfDecimal(n);
    MagnitudeOfDigits(d);
    ParseIntOfUnsigned(d, n);
  }

  /** A magnitude starting with a digit parses to itself. */
  lemma ParseIntOfUnsigned(d: string, v: nat)
    requires |d| > 0 && '0' <= d[0] <= '9'
    requires ParseMagnitude(d) == Some(v)
    ensures ParseInt(d) == Some(v)
  {
    TrimStartOfNonWhite(d);
  }

  /** A '-' followed by a magnitude parses to its negation. */
  lemma ParseIntOfMinus(d: string, v: nat)
    requires ParseMagnitude(d) == Some(v)
    ensures ParseInt("-" + d) == Some(-(v as int))
  {
    var s := "-" + d;
    assert s[0] == '-';
    TrimStartOfNonWhite(s);
    assert s[1..] == d;
  }

  lemma ParseIntOfNegativeDecimal(n: int)
    requires n < 0
    ensures ParseInt(IntToDecimal(n)) == Some(n)
  {
    var d := NatToDecimal(-n);
    DigitsValueOfDecimal(-n);
    MagnitudeOfDigits(d);
    ParseIntOfMinus(d, -n);
  }

  /** A string that starts with neither whitespace, a sign nor a digit is
      NaN to `parseInt`. */
  lemma ParseIntOfNonNumeric(s: string)
    requires |s| > 0 && !IsWhite(s[0]) && s[0] != '-' && s[0] != '+' && !('0' <= s[0] <= '9')
    ensures ParseInt(s) == None
  {
    TrimStartOfNonWhite(s);
    assert DigitRun(s, 10) == "";
  }

  /** `parseInt(String(n)) === n`: the decimal rendering of an integer parses
      back to it. */
  lemma ParseIntOfDecimal(n: int)
    ensures ParseInt(IntToDecimal(n)) == Some(n)
  {
    if n < 0 {
      ParseIntOfNegativeDecimal(n);
    } else {
      ParseIntOfNatDecimal(n);
    }
  }
}

=== FILE: lifecycle.dfy ===
/** The single-flight lifecycle of the preview window in the main process:
    the `isPreviewCreating` guard of `showPreview`, the run-once DOM-ready
    handler with its 3000 ms forced timeout, and the paths that reset the
    guard (DOM-ready, unresponsiveness, a creation error, the end of the close
    animation).

    Every callback is an explicit event. A `showPreview` call is split where
    it first waits: `ShowPreview` is the synchronous part (guard, flag,
    pre-cleanup), and `Build` is the rest (reading the work area,
    constructing the window and registering its handlers). A call waits 50 ms
    after a pre-cleanup and then for the icon-position lookup, while a call
    without a pre-cleanup waits for the lookup only, so waiting calls can
    reach their build in any order: `Build` picks which one. The handlers
    read and write the app's `previewWindow` field, whichever window it holds
    when they run, exactly as the closures do. */
module Lifecycle {
  import opened Common

  /** Screen bounds of a window. */
  datatype Rect = Rect(x: int, y: int, width: int, height: int)

  /** Size of the open preview window. */
  const FinalWidth: int := 800
  const FinalHeight: int := 600

  /** `Math.round((screen - final) / 2)`: halves round up, and `/` on a
      positive divisor floors, so this is `(screen - final + 1) / 2`. */
  function CenterOffset(screen: int, final: int): (o: int)
    ensures 2 * o == screen - final || 2 * o == screen - final + 1
  {
    (screen - final + 1) / 2
  }

  /** The frame the open animation ends on, centred in the work area. */
  function FinalFrame(screenWidth: int, screenHeight: int): (r: Rect)
    ensures r.width == FinalWidth && r.height == FinalHeight
    ensures r.x + r.x <= screenWidth - FinalWidth + 1 && screenWidth - FinalWidth <= r.x + r.x
    ensures r.y + r.y <= screenHeight - FinalHeight + 1 && screenHeight - FinalHeight <= r.y + r.y
  {
    Rect(CenterOffset(screenWidth, FinalWidth), CenterOffset(screenHeight, FinalHeight), FinalWidth, FinalHeight)
  }

  /** What the model tracks of one `BrowserWindow`. */
  datatype Window = Window(
    destroyed: bool,
    shown: bool,
    sentPath: Option<string>,  // the path sent with "show-preview"
    bounds: Option<Rect>,      // the exact final bounds, once the open animation ended
    solid: bool)               // opacity 1 (a window starts at opacity 0)

  const NewWindow := Window(false, false, None, None, false)

  /** A `showPreview` call that passed its guard and has not built its
      window yet. */
  datatype Request = Request(filePath: string)

  /** The closure state of one `showPreview` call once its window exists: the
      `domReady` flag, whether its `loadTimeout` is still armed, and the
      frame its open animation ends on. */
  datatype Creation = Creation(filePath: string, domReady: bool, timeoutPending: bool, target: Rect)

  datatype Preview = Preview(
    creating: bool,                // isPreviewCreating
    current: Option<nat>,          // previewWindow
    windows: map<nat, Window>,     // every window ever built, by id
    creations: map<nat, Creation>, // the closure of the call that built it
    pending: seq<Request>,         // calls between the guard and the build
    openings: seq<Rect>,           // running open animations, by end frame
    closings: nat,                 // running close animations
    nextId: nat)

  const Start := Preview(false, None, map[], map[], [], [], 0, 0)

  /** `previewWindow && !previewWindow.isDestroyed()`. */
  predicate Live(p: Preview) {
    p.current.Some? && p.current.value in p.windows && !p.windows[p.current.value].destroyed
  }

  /** The well-formedness the transitions keep. */
  predicate Inv(p: Preview) {
    && (p.current.Some? ==> p.current.value in p.windows && !p.windows[p.current.value].destroyed)
    && p.windows.Keys == p.creations.Keys
    && (forall id :: id in p.windows ==> id < p.nextId)
    && (forall id :: id in p.creations ==> (p.creations[id].timeoutPending ==> !p.creations[id].domReady))
  }

  /** The clean-up every reset path shares: a live current window is
      destroyed and the field cleared; otherwise nothing changes. */
  function DestroyCurrent(p: Preview): (r: Preview)
    ensures !Live(r)
    ensures r.creating == p.creating && r.creations == p.creations && r.pending == p.pending
    ensures r.nextId == p.nextId && r.windows.Keys == p.windows.Keys
    ensures Live(p) ==> r.current.None? && r.windows[p.current.value].destroyed
    ensures forall id :: id in p.windows && (!Live(p) || id != p.current.value) ==> r.windows[id] == p.windows[id]
  {
    if Live(p) then
      var id := p.current.value;
      p.(windows := p.windows[id := p.windows[id].(destroyed := true)], current := None)
    else p
  }

  /** The synchronous part of `showPreview(path)`: a no-op while a creation
      is under way; otherwise the guard is set, a live window is destroyed
      first (and that pre-cleanup clears the guard again), and the call waits
      to build its window. */
  function ShowPreview(p: Preview, path: string): (r: Preview)
    ensures p.creating ==> r == p
    ensures !p.creating ==> r.pending == p.pending + [Request(path)]
    ensures !p.creating ==> (r.creating <==> !Live(p))
    ensures !p.creating ==> !Live(r)
    ensures !p.creating ==> r.creations == p.creations && r.nextId == p.nextId && r.openings == p.openings
  {
    if p.creating then p
    else
      var q := p.(creating := true);
      var q := if Live(q) then DestroyCurrent(q).(creating := false) else q;
      q.(pending := q.pending + [Request(path)])
  }

  /** The queue without its `k`-th call. */
  function Without(s: seq<Request>, k: nat): (r: seq<Request>)
    requires k < |s|
    ensures |r| == |s| - 1
    ensures forall i :: 0 <= i < k ==> r[i] == s[i]
    ensures forall i :: k <= i < |r| ==> r[i] == s[i + 1]
  {
    s[..k] + s[k + 1..]
  }

  /** The `k`-th waiting call reaches its build: it reads the work area
      (`screenWidth` by `screenHeight`) and constructs its window. On success
      the window becomes `previewWindow`, replacing whatever window the field
      held, and its DOM-ready listeners and its 3000 ms timeout are armed; the
      open animation will end on the frame centred in that work area. If the
      constructor throws, the catch block destroys a live window and clears
      the guard. Without a `k`-th call nothing happens. */
  function Build(p: Preview, k: nat, ok: bool, screenWidth: int, screenHeight: int): (r: Preview)
    ensures k >= |p.pending| ==> r == p
    ensures k < |p.pending| ==> r.pending == Without(p.pending, k)
    ensures k < |p.pending| && ok ==>
              && r.current == Some(p.nextId) && r.nextId == p.nextId + 1
              && r.windows == p.windows[p.nextId := NewWindow]
              && r.creations == p.creations[p.nextId := Creation(p.pending[k].filePath, false, true, FinalFrame(screenWidth, screenHeight))]
              && r.creating == p.creating && r.openings == p.openings
    ensures k < |p.pending| && !ok ==> !r.creating && !Live(r) && r.creations == p.creations
  {
    if k >= |p.pending| then p
    else
      var req := p.pending[k];
      var q := p.(pending := Without(p.pending, k));
      if ok then
        var id := q.nextId;
        q.(current := Some(id),
           windows := q.windows[id := NewWindow],
           creations := q.creations[id := Creation(req.filePath, false, true, FinalFrame(screenWidth, screenHeight))],
           nextId := id + 1)
      else DestroyCurrent(q).(creating := false)
  }

  /** `handleDOMReady` of the call that built window `id`: runs once. It
      disarms the timeout; then, if `previewWindow` is live, it sends the
      call's path to that window, shows it, starts the open animation towards
      the call's end frame and clears the guard. */
  function RunReady(p: Preview, id: nat): (r: Preview)
    requires id in p.creations
    ensures p.creations[id].domReady ==> r == p
    ensures id in r.creations && r.creations[id].domReady
    ensures !p.creations[id].domReady ==> !r.creations[id].timeoutPending
    ensures r.current == p.current && r.windows.Keys == p.windows.Keys && r.nextId == p.nextId
    ensures forall k :: k in p.creations && k != id ==> k in r.creations && r.creations[k] == p.creations[k]
    ensures !p.creations[id].domReady && Live(p) ==>
              && !r.creating
              && r.windows[p.current.value].shown
              && r.windows[p.current.value].sentPath == Some(p.creations[id].filePath)
              && r.openings == p.openings + [p.creations[id].target]
    ensures !p.creations[id].domReady && !Live(p) ==> r.creating == p.creating && r.openings == p.openings
  {
    var c := p.creations[id];
    if c.domReady then p
    else
      var q := p.(creations := p.creations[id := c.(domReady := true, timeoutPending := false)]);
      if !Live(q) then q
      else
        var w := q.current.value;
        q.(windows := q.windows[w := q.windows[w].(sentPath := Some(c.filePath), shown := true)],
           openings := q.openings + [c.target],
           creating := false)
  }

  /** A 'dom-ready' or 'did-finish-load' event of window `id`; a destroyed
      window emits neither. */
  function DomReady(p: Preview, id: nat): (r: Preview)
    ensures id !in p.creations || id !in p.windows || p.windows[id].destroyed ==> r == p
  {
    if id in p.creations && id in p.windows && !p.windows[id].destroyed then RunReady(p, id) else p
  }

  /** The 3000 ms timeout of the call that built window `id`: it forces the
      handler if that has not run; its other branch only clears the guard. */
  function ReadyTimeout(p: Preview, id: nat): (r: Preview)
    ensures id !in p.creations || !p.creations[id].timeoutPending ==> r == p
  {
    if id in p.creations && p.creations[id].timeoutPending then
      var c := p.creations[id];
      var q := p.(creations := p.creations[id := c.(timeoutPending := false)]);
      if !c.domReady then RunReady(q, id) else q.(creating := false)
    else p
  }

  /** The 'unresponsive' handler of window `id`: it destroys whatever live
      window `previewWindow` holds and clears the guard. */
  function Unresponsive(p: Preview, id: nat): (r: Preview)
    ensures id in p.windows && !p.windows[id].destroyed ==> !r.creating && !Live(r)
    ensures id !in p.windows || p.windows[id].destroyed ==> r == p
  {
    if id in p.windows && !p.windows[id].destroyed then DestroyCurrent(p).(creating := false) else p
  }

  /** `loadFile` of the call that built window `id` rejected: the catch
      block destroys a live `previewWindow` and clears the guard. The
      timeout stays armed. */
  function LoadFailed(p: Preview, id: nat): (r: Preview)
    ensures id in p.creations ==> !r.creating && !Live(r) && r.creations == p.creations
    ensures id !in p.creations ==> r == p
  {
    if id in p.creations then DestroyCurrent(p).(creating := false) else p
  }

  /** The last frame of the oldest open animation: if `previewWindow` is
      live, it gets exactly the animation's end frame and opacity 1. */
  function OpenAnimationDone(p: Preview): (r: Preview)
    ensures |p.openings| == 0 ==> r == p
    ensures |p.openings| > 0 && Live(p) ==>
              p.current.value in r.windows && r.windows[p.current.value].bounds == Some(p.openings[0])
              && r.windows[p.current.value].solid
    ensures |p.openings| > 0 ==> r.openings == p.openings[1..] && r.current == p.current && r.creating == p.creating
  {
    if |p.openings| == 0 then p
    else
      var target := p.openings[0];
      var q := p.(openings := p.openings[1..]);
      if Live(q) then
        var w := q.current.value;
        q.(windows := q.windows[w := q.windows[w].(bounds := Some(target), solid := true)])
      else q
  }

  /** `animateWindowClose()`: nothing without a live window; otherwise the
      close animation starts. */
  function CloseWindow(p: Preview): (r: Preview)
    ensures !Live(p) ==> r == p
    ensures Live(p) ==> r == p.(closings := p.closings + 1)
  {
    if Live(p) then p.(closings := p.closings + 1) else p
  }

  /** The last frame of a close animation: a live `previewWindow` is
      destroyed and the guard cleared. An animation whose window vanished
      resolves without touching anything. */
  function CloseAnimationDone(p: Preview): (r: Preview)
    ensures p.closings == 0 ==> r == p
    ensures p.closings > 0 && Live(p) ==> !r.creating && !Live(r)
    ensures p.closings > 0 && !Live(p) ==> r == p.(closings := p.closings - 1)
  {
    if p.closings == 0 then p
    else
      var q := p.(closings := p.closings - 1);
      if Live(q) then DestroyCurrent(q).(creating := false) else q
  }

  /** The window part of `quitApp`: a live window is destroyed. */
  function QuitWindow(p: Preview): (r: Preview)
    ensures !Live(r) && r.creating == p.creating
  {
    DestroyCurrent(p)
  }

  // -----------------------------------------------------------------------
  // Events and traces
  // -----------------------------------------------------------------------

  datatype Event =
    | Show(path: string)
    | Built(k: nat, ok: bool, screenWidth: int, screenHeight: int)
    | Ready(id: nat)
    | Timeout(id: nat)
    | Hung(id: nat)
    | LoadError(id: nat)
    | Opened
    | Close
    | Closed

  function Step(p: Preview, e: Event): Preview {
    match e
    case Show(path) => ShowPreview(p, path)
    case Built(k, ok, w, h) => Build(p, k, ok, w, h)
    case Ready(id) => DomReady(p, id)
    case Timeout(id) => ReadyTimeout(p, id)
    case Hung(id) => Unresponsive(p, id)
    case LoadError(id) => LoadFailed(p, id)
    case Opened => OpenAnimationDone(p)
    case Close => CloseWindow(p)
    case Closed => CloseAnimationDone(p)
  }

  function Run(p: Preview, es: seq<Event>): Preview
    decreases |es|
  {
    if |es| == 0 then p else Run(Step(p, es[0]), es[1..])
  }

  // -----------------------------------------------------------------------
  // Properties
  // -----------------------------------------------------------------------

  lemma DestroyCurrentKeepsInv(p: Preview)
    requires Inv(p)
    ensures Inv(DestroyCurrent(p))
  {
  }

  lemma RunReadyKeepsInv(p: Preview, id: nat)
    requires Inv(p) && id in p.creations
    ensures Inv(RunReady(p, id))
  {
  }

  lemma {:induction false} BuildKeepsInv(p: Preview, k: nat, ok: bool, w: int, h: int)
    requires Inv(p)
    ensures Inv(Build(p, k, ok, w, h))
  {
    if k < |p.pending| && !ok {
      DestroyCurrentKeepsInv(p.(pending := Without(p.pending, k)));
    }
  }

  lemma {:induction false} ReadyTimeoutKeepsInv(p: Preview, id: nat)
    requires Inv(p)
    ensures Inv(ReadyTimeout(p, id))
  {
    if id in p.creations && p.creations[id].timeoutPending {
      var c := p.creations[id];
      var q := p.(creations := p.creations[id := c.(timeoutPending := false)]);
      assert Inv(q);
      RunReadyKeepsInv(q, id);
    }
  }

  /** Every event keeps the window table well formed: `previewWindow` is
      null or a live window, every window has the closure of its call, and an
      armed timeout belongs to a handler that has not run. */
  lemma {:induction false} StepKeepsInv(p: Preview, e: Event)
    requires Inv(p)
    ensures Inv(Step(p, e))
  {
    match e
    case Show(path) =>
      if !p.creating && Live(p) {
        DestroyCurrentKeepsInv(p.(creating := true));
      }
    case Built(k, ok, w, h) => BuildKeepsInv(p, k, ok, w, h);
    case Ready(id) =>
      if id in p.creations && id in p.windows && !p.windows[id].destroyed {
        RunReadyKeepsInv(p, id);
      }
    case Timeout(id) => ReadyTimeoutKeepsInv(p, id);
    case Hung(id) => DestroyCurrentKeepsInv(p);
    case LoadError(id) => DestroyCurrentKeepsInv(p);
    case Opened =>
    case Close =>
    case Closed =>
      if p.closings > 0 {
        DestroyCurrentKeepsInv(p.(closings := p.closings - 1));
      }
  }

  lemma {:induction false} RunKeepsInv(p: Preview, es: seq<Event>)
    requires Inv(p)
    ensures Inv(Run(p, es))
    decreases |es|
  {
    if |es| > 0 {
      StepKeepsInv(p, es[0]);
      RunKeepsInv(Step(p, es[0]), es[1..]);
    }
  }

  /** Every reachable state is well formed. */
  lemma Reachable(es: seq<Event>)
    ensures Inv(Run(Start, es))
  {
    RunKeepsInv(Start, es);
  }

  /** The else branch of the forced timeout (handler already ran while the
      timeout was still armed) never happens in a well-formed state: the
      handler disarms the timeout whenever it runs. */
  lemma {:induction false} TimeoutElseBranchDead(p: Preview, id: nat)
    requires Inv(p) && id in p.creations && p.creations[id].timeoutPending
    ensures !p.creations[id].domReady
    ensures ReadyTimeout(p, id)
         == RunReady(p.(creations := p.creations[id := p.creations[id].(timeoutPending := false)]), id)
  {
  }

  /** The handler body runs at most once per window: once it ran, neither a
      second ready event nor the timeout changes anything. */
  lemma {:induction false} ReadyRunsOnce(p: Preview, id: nat)
    requires Inv(p) && id in p.creations
    ensures var q := RunReady(p, id);
            && DomReady(q, id) == q
            && ReadyTimeout(q, id) == q
  {
    var q := RunReady(p, id);
    assert q.creations[id].domReady && !q.creations[id].timeoutPending;
  }

  /** While a creation is under way, `showPreview` does nothing. */
  lemma ShowWhileCreating(p: Preview, path: string)
    requires p.creating
    ensures ShowPreview(p, path) == p
  {
  }

  /** The pre-cleanup clears the guard: right after a `showPreview` that
      found a live window, a second `showPreview` is not refused, and both
      calls go on to build a window. */
  lemma {:induction false} BackToBackAfterPreCleanup(p: Preview, a: string, b: string)
    requires Inv(p) && !p.creating && Live(p)
    ensures var q := ShowPreview(ShowPreview(p, a), b);
            q.pending == p.pending + [Request(a), Request(b)] && q.creating
  {
    var q1 := ShowPreview(p, a);
    assert !q1.creating && !Live(q1);
  }

  /** Both calls of that pair build a window, in either order. The one
      built last becomes `previewWindow`; the other is left undestroyed and
      unreferenced. When the second call wins the race to its build (it
      skipped the 50 ms wait), the first call's path ends up current. */
  lemma {:induction false} BackToBackBuildOrders(p: Preview, a: string, b: string, w: int, h: int, aFirst: bool)
    requires Inv(p) && !p.creating && Live(p) && |p.pending| == 0
    ensures var q := ShowPreview(ShowPreview(p, a), b);
            var r := Build(Build(q, if aFirst then 0 else 1, true, w, h), 0, true, w, h);
            && r.pending == [] && r.creating && r.nextId == p.nextId + 2
            && r.current == Some(p.nextId + 1)
            && r.creations[p.nextId + 1].filePath == (if aFirst then b else a)
            && r.creations[p.nextId].filePath == (if aFirst then a else b)
            && !r.windows[p.nextId].destroyed
  {
    BackToBackAfterPreCleanup(p, a, b);
    var q := ShowPreview(ShowPreview(p, a), b);
    assert q.nextId == p.nextId;
    TwoBuilds(q, a, b, w, h, aFirst);
  }

  /** Two waiting calls built one after the other, the `k`-th first. */
  lemma {:induction false} TwoBuilds(q: Preview, a: string, b: string, w: int, h: int, aFirst: bool)
    requires q.pending == [Request(a), Request(b)] && q.creating
    ensures var r := Build(Build(q, if aFirst then 0 else 1, true, w, h), 0, true, w, h);
            && r.pending == [] && r.creating && r.nextId == q.nextId + 2
            && r.current == Some(q.nextId + 1)
            && r.creations[q.nextId + 1].filePath == (if aFirst then b else a)
            && r.creations[q.nextId].filePath == (if aFirst then a else b)
            && !r.windows[q.nextId].destroyed
  {
    var k: nat := if aFirst then 0 else 1;
    assert Without(q.pending, k) == if aFirst then [Request(b)] else [Request(a)];
  }

  /** Without a live window the guard holds until a reset path runs: the
      second call is refused. */
  lemma {:induction false} BackToBackWithoutWindow(p: Preview, a: string, b: string)
    requires !p.creating && !Live(p)
    ensures var q := ShowPreview(ShowPreview(p, a), b);
            q.pending == p.pending + [Request(a)] && q.creating
  {
  }

  /** Each reset path clears the guard. */
  lemma ResetPaths(p: Preview, id: nat)
    requires Inv(p)
    ensures id in p.windows && !p.windows[id].destroyed ==> !Unresponsive(p, id).creating
    ensures id in p.creations ==> !LoadFailed(p, id).creating
    ensures forall k: nat, w: int, h: int :: k < |p.pending| ==> !Build(p, k, false, w, h).creating
    ensures p.closings > 0 && Live(p) ==> !CloseAnimationDone(p).creating
    ensures id in p.creations && !p.creations[id].domReady && Live(p) ==> !RunReady(p, id).creating
  {
  }

  /** The straight path: show, build, DOM-ready, open animation. The window
      receives the path, is shown as an 800x600 frame centred in the work
      area with opacity 1, and the guard is clear again. */
  lemma {:induction false} OpenScenario(path: string, w: int, h: int)
    ensures var p := Run(Start, [Show(path), Built(0, true, w, h), Ready(0), Opened]);
            && p.current == Some(0) && !p.creating
            && 0 in p.windows && p.windows[0] == Window(false, true, Some(path), Some(FinalFrame(w, h)), true)
            && p.windows[0].bounds.value.width == FinalWidth && p.windows[0].bounds.value.height == FinalHeight
            && ReadyTimeout(p, 0) == p
  {
    var es := [Show(path), Built(0, true, w, h), Ready(0), Opened];
    var p1 := Step(Start, Show(path));
    assert p1 == Start.(creating := true, pending := [Request(path)]);
    var p2 := Step(p1, Built(0, true, w, h));
    assert p2.current == Some(0) && p2.creations[0] == Creation(path, false, true, FinalFrame(w, h));
    var p3 := Step(p2, Ready(0));
    assert p3.openings == [FinalFrame(w, h)];
    var p4 := Step(p3, Opened);
    assert Run(Start, es) == p4 by {
      assert es[1..] == [Built(0, true, w, h), Ready(0), Opened];
      assert es[2..] == [Ready(0), Opened];
      assert es[3..] == [Opened];
      assert Run(p3, es[3..]) == p4;
      assert Run(p2, es[2..]) == p4;
      assert Run(p1, es[1..]) == p4;
    }
  }

  /** A timeout outlives its window: after window 0 hung and window 1 was
      built for a second path, window 0's forced timeout runs its handler
      against `previewWindow`, which is now window 1, and sends it the first
      path. */
  lemma {:induction false} StaleTimeoutDrivesNewWindow(a: string, b: string, w: int, h: int)
    ensures var p := Run(Start, [Show(a), Built(0, true, w, h), Hung(0), Show(b), Built(0, true, w, h), Timeout(0)]);
            p.current == Some(1) && 1 in p.windows && p.windows[1].sentPath == Some(a) && !p.creating
  {
    var p1 := Step(Start, Show(a));
    var p2 := Step(p1, Built(0, true, w, h));
    assert p2.current == Some(0) && p2.creations[0].timeoutPending;
    var p3 := Step(p2, Hung(0));
    assert !p3.creating && p3.current.None? && p3.creations[0].timeoutPending;
    var p4 := Step(p3, Show(b));
    assert p4.creating && p4.pending == [Request(b)];
    var p5 := Step(p4, Built(0, true, w, h));
    assert p5.current == Some(1) && p5.creations[0].timeoutPending && !p5.creations[0].domReady;
    var p6 := Step(p5, Timeout(0));
    assert p6.windows[1].sentPath == Some(a);
    var es := [Show(a), Built(0, true, w, h), Hung(0), Show(b), Built(0, true, w, h), Timeout(0)];
    assert Run(Start, es) == p6 by {
      assert es[1..] == [Built(0, true, w, h), Hung(0), Show(b), Built(0, true, w, h), Timeout(0)];
      assert es[2..] == [Hung(0), Show(b), Built(0, true, w, h), Timeout(0)];
      assert es[3..] == [Show(b), Built(0, true, w, h), Timeout(0)];
      assert es[4..] == [Built(0, true, w, h), Timeout(0)];
      assert es[5..] == [Timeout(0)];
      assert Run(p5, [Timeout(0)]) == p6;
      assert Run(p4, es[4..]) == p6;
      assert Run(p3, es[3..]) == p6;
      assert Run(p2, es[2..]) == p6;
      assert Run(p1, es[1..]) == p6;
    }
  }
}

=== FILE: preferences.dfy ===
/** The preferences window's settings object: its defaults, the merges
    performed by loading, saving and importing, single-key updates, reset,
    the copy handed out, and validation of the preview limit. Settings are
    a map from key to JSON value; the storage, file picker and JSON text are
    inputs, reduced to the object they parse to or a parse failure. */
module Preferences {
  import opened Common
  import opened JsText

  /** A JSON value as it can appear in a settings object. Numbers are
      integers; a nested object is `Other`, whatever its keys. */
  datatype Value = Bool(b: bool) | Num(n: int) | Str(s: string) | Null | Arr(elems: seq<Value>) | Other

  type Settings = map<string, Value>

  const PreviewLimitKey := "previewLimit"

  /** `getDefaultSettings()`. */
  function DefaultSettings(): (d: Settings)
    ensures d.Keys == {"enableSpacePreview", "previewLimit", "showHiddenFiles", "enableCutShortcut",
                       "showCutFeedback", "autoStart", "checkUpdates"}
  {
    map[
      "enableSpacePreview" := Bool(true),
      "previewLimit" := Num(50),
      "showHiddenFiles" := Bool(false),
      "enableCutShortcut" := Bool(true),
      "showCutFeedback" := Bool(true),
      "autoStart" := Bool(false),
      "checkUpdates" := Bool(true)]
  }

  /** The defaults, key by key. */
  lemma DefaultValues()
    ensures var d := DefaultSettings();
            && d["enableSpacePreview"] == Bool(true) && d["previewLimit"] == Num(50)
            && d["showHiddenFiles"] == Bool(false) && d["enableCutShortcut"] == Bool(true)
            && d["showCutFeedback"] == Bool(true) && d["autoStart"] == Bool(false)
            && d["checkUpdates"] == Bool(true)
  {
  }

  /** `{ ...base, ...over }`: every key of either, the later object winning. */
  function Overlay(base: Settings, over: Settings): (r: Settings)
    ensures r.Keys == base.Keys + over.Keys
    ensures forall k :: k in over ==> r[k] == over[k]
    ensures forall k :: k in base && k !in over ==> r[k] == base[k]
  {
    base + over
  }

  /** What reading a stored or imported text gives: nothing stored (a
      `null` or empty item, which is falsy), a parsed object, or a parse
      error. */
  datatype Stored = NothingStored | Parsed(obj: Settings) | ParseError

  /** `loadSettings()` from the stored item: overlay when something parses,
      keep the settings otherwise. */
  function LoadSettings(s: Settings, stored: Stored): (r: Settings)
    ensures stored.Parsed? ==> r.Keys == s.Keys + stored.obj.Keys
    ensures stored.Parsed? ==> forall k :: k in stored.obj ==> r[k] == stored.obj[k]
    ensures stored.Parsed? ==> forall k :: k in s && k !in stored.obj ==> r[k] == s[k]
    ensures !stored.Parsed? ==> r == s
  {
    match stored
    case Parsed(obj) => Overlay(s, obj)
    case _ => s
  }

  /** `updateSetting(key, value)`. */
  function UpdateSetting(s: Settings, key: string, value: Value): (r: Settings)
    ensures r.Keys == s.Keys + {key} && r[key] == value
    ensures forall k :: k in s && k != key ==> r[k] == s[k]
  {
    s[key := value]
  }

  /** `resetToDefaults()` after the confirmation dialog answered `confirmed`. */
  function ResetToDefaults(s: Settings, confirmed: bool): (r: Settings)
    ensures confirmed ==> r == DefaultSettings()
    ensures !confirmed ==> r == s
  {
    if confirmed then DefaultSettings() else s
  }

  /** `importSettings()` once a file was chosen and read: the defaults
      overlaid with the imported object, whatever the current settings; a
      parse error keeps them. `NothingStored` is a cancelled file dialog. */
  function ImportSettings(s: Settings, file: Stored): (r: Settings)
    ensures file.Parsed? ==> r.Keys == DefaultSettings().Keys + file.obj.Keys
    ensures file.Parsed? ==> forall k :: k in file.obj ==> r[k] == file.obj[k]
    ensures file.Parsed? ==> forall k :: k in DefaultSettings() && k !in file.obj ==> r[k] == DefaultSettings()[k]
    ensures !file.Parsed? ==> r == s
  {
    match file
    case Parsed(obj) => Overlay(DefaultSettings(), obj)
    case _ => s
  }

  /** `getSettings()`: a shallow copy, equal key for key. */
  function GetSettings(s: Settings): (r: Settings)
    ensures r.Keys == s.Keys && forall k :: k in r ==> r[k] == s[k]
  {
    map k | k in s :: s[k]
  }

  /** `saveSettings()` merging the values of the checkbox and select
      controls into the settings; what it stores is the result. */
  function SaveSettings(s: Settings, controls: Settings): (r: Settings)
    ensures r.Keys == s.Keys + controls.Keys
    ensures forall k :: k in controls ==> r[k] == controls[k]
    ensures forall k :: k in s && k !in controls ==> r[k] == s[k]
  {
    Overlay(s, controls)
  }

  // -----------------------------------------------------------------------
  // Validation
  // -----------------------------------------------------------------------

  const LimitError := "预览文件数量限制必须在10-1000之间"

  /** `String(v)` for a setting (`None` is a missing key, `undefined`). */
  function JsString(v: Option<Value>): string {
    match v
    case None => "undefined"
    case Some(x) => ValueString(x)
  }

  /** `String(v)` for a JSON value. An array is `elems.join(",")`, where a
      `null` element contributes the empty string. */
  function ValueString(v: Value): string
    decreases v
  {
    match v
    case Bool(b) => if b then "true" else "false"
    case Num(n) => IntToDecimal(n)
    case Str(t) => t
    case Null => "null"
    case Arr(es) =>
      Join(seq(|es|, i requires 0 <= i < |es| => if es[i].Null? then "" else ValueString(es[i])), ",")
    case Other => "[object Object]"
  }

  function Lookup(s: Settings, k: string): Option<Value> {
    if k in s then Some(s[k]) else None
  }

  /** `validateSettings()`: the list of error messages. */
  function ValidateSettings(s: Settings): (errors: seq<string>)
    ensures |errors| <= 1
    ensures errors != [] ==> errors == [LimitError]
  {
    var limit := ParseInt(JsString(Lookup(s, PreviewLimitKey)));
    if limit.None? || limit.value < 10 || limit.value > 1000 then [LimitError] else []
  }

  /** Only the preview limit is checked: settings that agree on it validate
      alike, whatever else they hold. */
  lemma ValidationReadsOnlyLimit(s: Settings, t: Settings)
    requires Lookup(s, PreviewLimitKey) == Lookup(t, PreviewLimitKey)
    ensures ValidateSettings(s) == ValidateSettings(t)
  {
  }

  /** A numeric limit is accepted exactly in [10, 1000]. */
  lemma NumericLimit(s: Settings, n: int)
    requires Lookup(s, PreviewLimitKey) == Some(Num(n))
    ensures ValidateSettings(s) == [] <==> 10 <= n <= 1000
  {
    ParseIntOfDecimal(n);
  }

  /** A limit given as a string is read with `parseInt`, so leading digits
      count and the rest is ignored. */
  lemma TextLimit(s: Settings, t: string)
    requires Lookup(s, PreviewLimitKey) == Some(Str(t))
    ensures ValidateSettings(s) == [] <==> ParseInt(t).Some? && 10 <= ParseInt(t).value <= 1000
  {
  }

  /** A missing, boolean, null or object limit, and an empty array, are
      always an error. */
  lemma NonNumericLimit(s: Settings)
    requires var v := Lookup(s, PreviewLimitKey);
             v.None? || v.value.Bool? || v.value.Null? || v.value.Other? || v.value == Arr([])
    ensures ValidateSettings(s) == [LimitError]
  {
    var text := JsString(Lookup(s, PreviewLimitKey));
    if text != "" {
      assert text[0] in "tfnu[";
      ParseIntOfNonNumeric(text);
    }
  }

  /** A one-element array stringifies as its element, so `[n]` is accepted
      exactly when `n` is, and `[[n]]` too. */
  lemma ArrayLimit(s: Settings, n: int)
    requires Lookup(s, PreviewLimitKey) in {Some(Arr([Num(n)])), Some(Arr([Arr([Num(n)])]))}
    ensures ValidateSettings(s) == [] <==> 10 <= n <= 1000
  {
    assert ValueString(Arr([Num(n)])) == IntToDecimal(n);
    ParseIntOfDecimal(n);
  }

  /** The defaults validate. */
  lemma DefaultsValid()
    ensures ValidateSettings(DefaultSettings()) == []
  {
    NumericLimit(DefaultSettings(), 50);
  }

  // -----------------------------------------------------------------------
  // Properties across operations
  // -----------------------------------------------------------------------

  /** Every default key is present. */
  predicate Complete(s: Settings) {
    DefaultSettings().Keys <= s.Keys
  }

  /** The settings start complete and no operation removes a key. */
  lemma CompleteKept(s: Settings, stored: Stored, key: string, v: Value, confirmed: bool, controls: Settings)
    requires Complete(s)
    ensures Complete(DefaultSettings())
    ensures Complete(LoadSettings(s, stored))
    ensures Complete(UpdateSetting(s, key, v))
    ensures Complete(ResetToDefaults(s, confirmed))
    ensures Complete(ImportSettings(s, stored))
    ensures Complete(SaveSettings(s, controls))
  {
  }

  /** What a save stores is what the next window loads: its constructor
      starts from the defaults and overlays the stored object, which already
      holds every default key. */
  lemma SaveThenLoad(s: Settings, controls: Settings)
    requires Complete(s)
    ensures LoadSettings(DefaultSettings(), Parsed(SaveSettings(s, controls))) == SaveSettings(s, controls)
  {
    var saved := SaveSettings(s, controls);
    var loaded := LoadSettings(DefaultSettings(), Parsed(saved));
    assert loaded.Keys == saved.Keys;
    forall k | k in loaded ensures loaded[k] == saved[k] {
    }
  }

  /** Importing an exported (complete) object reproduces it. */
  lemma ImportOfExport(s: Settings, t: Settings)
    requires Complete(s)
    ensures ImportSettings(t, Parsed(GetSettings(s))) == s
  {
    var r := ImportSettings(t, Parsed(GetSettings(s)));
    assert r.Keys == s.Keys;
    forall k | k in r ensures r[k] == s[k] {
    }
  }

  /** A confirmed reset makes the settings valid again. */
  lemma ResetValidates(s: Settings)
    ensures ValidateSettings(ResetToDefaults(s, true)) == []
  {
    DefaultsValid();
  }

  /** Updating any key other than the limit leaves validation unchanged. */
  lemma UpdateOtherKeepsValidation(s: Settings, key: string, v: Value)
    requires key != PreviewLimitKey
    ensures ValidateSettings(UpdateSetting(s, key, v)) == ValidateSettings(s)
  {
    ValidationReadsOnlyLimit(s, UpdateSetting(s, key, v));
  }
}

=== FILE: preview_service.dfy ===
/** The preview service: which paths are archives, what `getPreview`
    returns for a directory, an archive, a plain file or an error, how a
    directory listing is truncated and ordered, and the entry caps of the
    zip and tar readers.

    The file system and the archive libraries are inputs: `Node` is what
    `fs.stat` / `fs.readdir` report for the path, `ArchiveRead` what the zip
    or tar reader delivers. Modification dates are not modelled.
    `localeCompare` is modelled as code-point order. */
module PreviewService {
  import opened Common
  import opened JsText

  // -----------------------------------------------------------------------
  // Archive classification
  // -----------------------------------------------------------------------

  /** `supportedArchives`. */
  const SupportedArchives: seq<string> := [".zip", ".tar", ".tar.gz", ".tgz", ".tar.bz2"]

  /** `isArchive(filePath)`. */
  predicate IsArchive(path: string) {
    || ToLower(Extname(path)) in SupportedArchives
    || EndsWith(ToLower(path), ".tar.gz")
    || EndsWith(ToLower(path), ".tar.bz2")
  }

  datatype ArchiveType = Zip | Tar

  /** The reader `getArchivePreview` picks from the lower-cased extension;
      `None` is the "unsupported format" error. */
  function ArchiveReader(path: string): (r: Option<ArchiveType>)
    ensures r == Some(Zip) <==> ToLower(Extname(path)) == ".zip"
    ensures r == Some(Tar) <==> ToLower(Extname(path)) in [".tar", ".gz", ".tgz", ".bz2"]
  {
    var ext := ToLower(Extname(path));
    if ext == ".zip" then Some(Zip)
    else if ext == ".tar" || ext == ".gz" || ext == ".tgz" || ext == ".bz2" then Some(Tar)
    else None
  }

  /** Lower-casing keeps every '.' and '/' where it is. */
  lemma LowerKeepsPunctuation(s: string)
    ensures forall k :: 0 <= k < |s| ==> (ToLower(s)[k] == '.' <==> s[k] == '.')
    ensures forall k :: 0 <= k < |s| ==> (ToLower(s)[k] == '/' <==> s[k] == '/')
  {
  }

  /** The lower-cased extension never contains a second '.', so the entries
      ".tar.gz" and ".tar.bz2" of the supported list never match it; only
      the explicit suffix tests recognise those names. */
  lemma CompoundEntriesNeverMatch(path: string)
    ensures ToLower(Extname(path)) != ".tar.gz"
    ensures ToLower(Extname(path)) != ".tar.bz2"
  {
    NoSecondDot(Extname(path));
  }

  /** A string with no '.' after its first character is neither ".tar.gz"
      nor ".tar.bz2" once lower-cased. */
  lemma NoSecondDot(e: string)
    requires forall k :: 1 <= k < |e| ==> e[k] != '.'
    ensures ToLower(e) != ".tar.gz" && ToLower(e) != ".tar.bz2"
  {
    if |e| >= 5 {
      assert ToLower(e)[4] == LowerChar(e[4]) != '.';
    }
  }

  /** A non-empty string not ending in '/' splits into a directory prefix
      (empty or ending in '/') and a non-empty last segment. */
  lemma {:induction false} SplitAtLastSlash(head: string) returns (dir: string, stem: string)
    requires |head| > 0 && head[|head| - 1] != '/'
    ensures head == dir + stem && (dir == [] || dir[|dir| - 1] == '/')
    ensures |stem| > 0 && '/' !in stem
  {
    match LastIndexOf(head, '/')
    case None =>
      dir, stem := [], head;
    case Some(i) =>
      dir, stem := head[..i + 1], head[i + 1..];
      forall j | 0 <= j < |stem| ensures stem[j] != '/' {
        assert stem[j] == head[i + 1 + j];
      }
  }

  /** `extname` of a path whose last `k + 1` characters are a '.' and `k`
      characters free of '.' and '/', preceded by a character other than
      '/'. */
  lemma {:induction false} ExtnameOfSuffix(p: string, k: nat)
    requires k > 0 && |p| >= k + 2
    requires p[|p| - k - 1] == '.' && p[|p| - k - 2] != '/'
    requires forall j :: |p| - k <= j < |p| ==> p[j] != '.' && p[j] != '/'
    ensures Extname(p) == p[|p| - k - 1..]
  {
    var d := |p| - k - 1;
    var head := p[..d];
    var ext := p[d + 1..];
    forall j | 0 <= j < |ext| ensures ext[j] != '.' && ext[j] != '/' {
      assert ext[j] == p[d + 1 + j];
    }
    var dir, stem := SplitAtLastSlash(head);
    assert p == dir + (stem + "." + ext) by {
      assert p == head + "." + ext;
    }
    assert p[d..] == "." + ext;
    ExtnameOfName(dir, stem, ext);
  }

  /** Lower-casing commutes with taking a suffix. */
  lemma LowerOfSuffix(s: string, i: nat)
    requires i <= |s|
    ensures ToLower(s[i..]) == ToLower(s)[i..]
  {
  }

  /** A path whose lower-cased form ends with ".<ext>" (a dot-free, slash-free
      `ext`, after at least one character that is not '/') has that
      lower-cased extension. */
  lemma {:induction false} LowerExtnameOfSuffix(p: string, ext: string)
    requires |ext| > 0 && '.' !in ext && '/' !in ext
    requires |p| >= |ext| + 2 && EndsWith(ToLower(p), "." + ext)
    requires ToLower(p)[|p| - |ext| - 2] != '/'
    ensures ToLower(Extname(p)) == "." + ext
  {
    var l := ToLower(p);
    var k := |ext|;
    LowerKeepsPunctuation(p);
    assert l[|p| - k - 1..] == "." + ext;
    forall j | |p| - k <= j < |p| ensures p[j] != '.' && p[j] != '/' {
      assert l[j] == ("." + ext)[j - (|p| - k - 1)];
      assert l[j] == ext[j - (|p| - k)];
    }
    assert l[|p| - k - 1] == '.';
    ExtnameOfSuffix(p, k);
    LowerOfSuffix(p, |p| - k - 1);
  }

  /** A name ending in ".tar.gz", in any case, has the extension ".gz". */
  lemma TarGzExtname(path: string)
    requires EndsWith(ToLower(path), ".tar.gz")
    ensures ToLower(Extname(path)) == ".gz"
  {
    var l := ToLower(path);
    assert l[|l| - 7..] == ".tar.gz";
    assert l[|l| - 4] == ".tar.gz"[3];
    assert EndsWith(l, "." + "gz") by {
      assert l[|l| - 3..] == l[|l| - 7..][4..];
    }
    LowerExtnameOfSuffix(path, "gz");
  }

  /** A name ending in ".tar.bz2", in any case, has the extension ".bz2". */
  lemma TarBz2Extname(path: string)
    requires EndsWith(ToLower(path), ".tar.bz2")
    ensures ToLower(Extname(path)) == ".bz2"
  {
    var l := ToLower(path);
    assert l[|l| - 8..] == ".tar.bz2";
    assert l[|l| - 5] == ".tar.bz2"[3];
    assert EndsWith(l, "." + "bz2") by {
      assert l[|l| - 4..] == l[|l| - 8..][4..];
    }
    LowerExtnameOfSuffix(path, "bz2");
  }

  /** Every path `isArchive` accepts has a reader: the suffix tests catch
      exactly names whose extension is ".gz" or ".bz2". */
  lemma {:induction false} ArchivesHaveReaders(path: string)
    requires IsArchive(path)
    ensures ArchiveReader(path).Some?
  {
    CompoundEntriesNeverMatch(path);
    if EndsWith(ToLower(path), ".tar.gz") {
      TarGzExtname(path);
    } else if EndsWith(ToLower(path), ".tar.bz2") {
      TarBz2Extname(path);
    }
  }

  /** Lower-casing leaves a string without capitals unchanged. */
  lemma LowerOfLower(s: string)
    requires forall k :: 0 <= k < |s| ==> !('A' <= s[k] <= 'Z')
    ensures ToLower(s) == s
  {
  }

  /** A suffix without capitals survives lower-casing. */
  lemma LowerKeepsSuffix(p: string, e: string)
    requires EndsWith(p, e)
    requires forall k :: 0 <= k < |e| ==> !('A' <= e[k] <= 'Z')
    ensures EndsWith(ToLower(p), e)
  {
    LowerOfSuffix(p, |p| - |e|);
    LowerOfLower(e);
  }

  /** A name ending in ".<ext>" for a lower-case `ext` free of '.' and '/',
      after a character other than '/', has exactly that extension. */
  lemma LowerExtnameOfLowerSuffix(p: string, ext: string)
    requires |ext| > 0 && '.' !in ext && '/' !in ext
    requires forall k :: 0 <= k < |ext| ==> !('A' <= ext[k] <= 'Z')
    requires |p| >= |ext| + 2 && EndsWith(p, "." + ext) && p[|p| - |ext| - 2] != '/'
    ensures ToLower(Extname(p)) == "." + ext
  {
    LowerKeepsSuffix(p, "." + ext);
    LowerKeepsPunctuation(p);
    LowerExtnameOfSuffix(p, ext);
  }

  /** Any name ending in ".tgz" is an archive. */
  lemma TgzIsArchive(p: string)
    requires |p| >= 5 && EndsWith(p, ".tgz") && p[|p| - 5] != '/'
    ensures IsArchive(p)
  {
    LowerExtnameOfLowerSuffix(p, "tgz");
    ArchiveByExtension(p, ".tgz");
  }

  lemma ArchiveByExtension(p: string, e: string)
    requires ToLower(Extname(p)) == e && e in SupportedArchives
    ensures IsArchive(p)
  {
  }

  /** Off the supported list, only the two suffix tests can make a name an
      archive. */
  lemma ArchiveBySuffixOnly(p: string, e: string)
    requires ToLower(Extname(p)) == e && e !in SupportedArchives
    ensures IsArchive(p) <==> EndsWith(ToLower(p), ".tar.gz") || EndsWith(ToLower(p), ".tar.bz2")
  {
  }

  /** Any name ending in ".tar.gz" is an archive. */
  lemma TarGzIsArchive(path: string)
    requires EndsWith(path, ".tar.gz")
    ensures IsArchive(path)
  {
    LowerKeepsSuffix(path, ".tar.gz");
  }

  /** A ".gz" name is an archive exactly when it ends with ".tar.gz". */
  lemma GzArchiveOnlyAsTarGz(p: string)
    requires |p| >= 4 && EndsWith(p, ".gz") && p[|p| - 4] != '/'
    ensures IsArchive(p) <==> EndsWith(ToLower(p), ".tar.gz")
  {
    LowerExtnameOfLowerSuffix(p, "gz");
    ArchiveBySuffixOnly(p, ".gz");
    LastLower(p, 'z');
  }

  /** A ".bz2" name is an archive exactly when it ends with ".tar.bz2". */
  lemma Bz2ArchiveOnlyAsTarBz2(p: string)
    requires |p| >= 5 && EndsWith(p, ".bz2") && p[|p| - 5] != '/'
    ensures IsArchive(p) <==> EndsWith(ToLower(p), ".tar.bz2")
  {
    LowerExtnameOfLowerSuffix(p, "bz2");
    ArchiveBySuffixOnly(p, ".bz2");
    LastLower(p, '2');
  }

  /** A lower-case last character survives lower-casing, so no suffix
      ending in another character matches. */
  lemma LastLower(p: string, c: char)
    requires |p| > 0 && p[|p| - 1] == c && !('A' <= c <= 'Z')
    ensures ToLower(p)[|p| - 1] == c
    ensures c != 'z' ==> !EndsWith(ToLower(p), ".tar.gz")
    ensures c != '2' ==> !EndsWith(ToLower(p), ".tar.bz2")
  {
    var l := ToLower(p);
    if |l| >= 7 && c != 'z' {
      assert l[|l| - 7..][6] != ".tar.gz"[6];
    }
    if |l| >= 8 && c != '2' {
      assert l[|l| - 8..][7] != ".tar.bz2"[7];
    }
  }

  // -----------------------------------------------------------------------
  // Items and their order
  // -----------------------------------------------------------------------

  datatype Kind = Directory | File

  /** One listed item. `size` is `null` for directory entries of a folder
      listing; `hidden` is `isHidden` (archive items carry none, which reads
      as false). */
  datatype Item = Item(name: string, kind: Kind, size: Option<nat>, hidden: bool)

  /** `a.localeCompare(b) <= 0`, in code-point order. */
  predicate NameLe(a: string, b: string)
    decreases |a|
  {
    |a| == 0 || (|b| > 0 && (a[0] < b[0] || (a[0] == b[0] && NameLe(a[1..], b[1..]))))
  }

  lemma {:induction false} NameLeTotal(a: string, b: string)
    ensures NameLe(a, b) || NameLe(b, a)
    decreases |a|
  {
    if |a| > 0 && |b| > 0 && a[0] == b[0] {
      NameLeTotal(a[1..], b[1..]);
    }
  }

  lemma {:induction false} NameLeTrans(a: string, b: string, c: string)
    requires NameLe(a, b) && NameLe(b, c)
    ensures NameLe(a, c)
    decreases |a|
  {
    if |a| > 0 && a[0] == b[0] && b[0] == c[0] {
      NameLeTrans(a[1..], b[1..], c[1..]);
    }
  }

  /** The comparator's order: directories before files, then by name. */
  predicate Ordered(a: Item, b: Item) {
    (a.kind == Directory && b.kind == File) || (a.kind == b.kind && NameLe(a.name, b.name))
  }

  lemma OrderedTotal(a: Item, b: Item)
    ensures Ordered(a, b) || Ordered(b, a)
  {
    NameLeTotal(a.name, b.name);
  }

  lemma OrderedTrans(a: Item, b: Item, c: Item)
    requires Ordered(a, b) && Ordered(b, c)
    ensures Ordered(a, c)
  {
    if a.kind == b.kind && b.kind == c.kind {
      NameLeTrans(a.name, b.name, c.name);
    }
  }

  predicate Sorted(s: seq<Item>) {
    forall i, j :: 0 <= i < j < |s| ==> Ordered(s[i], s[j])
  }

  /** Inserts `x` before the first element it is ordered before. */
  function Insert(x: Item, s: seq<Item>): (r: seq<Item>)
    requires Sorted(s)
    ensures Sorted(r)
    ensures multiset(r) == multiset(s) + multiset{x}
    decreases |s|
  {
    if |s| == 0 then [x]
    else if Ordered(x, s[0]) then
      assert forall j :: 0 < j < |s| ==> Ordered(s[0], s[j]);
      OrderedBeforeAll(x, s);
      [x] + s
    else
      OrderedTotal(x, s[0]);
      var rest := Insert(x, s[1..]);
      HeadBeforeRest(s, x, rest);
      assert s == [s[0]] + s[1..];
      [s[0]] + rest
  }

  lemma OrderedBeforeAll(x: Item, s: seq<Item>)
    requires Sorted(s) && |s| > 0 && Ordered(x, s[0])
    ensures Sorted([x] + s)
  {
    forall j | 0 <= j < |s| ensures Ordered(x, s[j]) {
      if j > 0 { OrderedTrans(x, s[0], s[j]); }
    }
  }

  lemma HeadBeforeRest(s: seq<Item>, x: Item, rest: seq<Item>)
    requires Sorted(s) && |s| > 0 && Ordered(s[0], x)
    requires Sorted(rest) && multiset(rest) == multiset(s[1..]) + multiset{x}
    ensures Sorted([s[0]] + rest)
  {
    forall j | 0 <= j < |rest| ensures Ordered(s[0], rest[j]) {
      assert rest[j] in multiset(rest);
      if rest[j] != x {
        assert rest[j] in multiset(s[1..]);
        var k :| 0 <= k < |s[1..]| && s[1..][k] == rest[j];
        assert s[k + 1] == rest[j];
      }
    }
  }

  /** `items.sort(comparator)`: a sorted permutation of the items. */
  function SortItems(s: seq<Item>): (r: seq<Item>)
    ensures Sorted(r)
    ensures multiset(r) == multiset(s)
    ensures |r| == |s|
    decreases |s|
  {
    if |s| == 0 then []
    else
      assert s == [s[0]] + s[1..];
      Insert(s[0], SortItems(s[1..]))
  }

  /** In a sorted listing every directory precedes every file. */
  lemma DirectoriesFirst(r: seq<Item>, i: int, j: int)
    requires Sorted(r) && 0 <= i < |r| && 0 <= j < |r|
    requires r[i].kind == Directory && r[j].kind == File
    ensures i < j
  {
    assert !Ordered(r[j], r[i]);
  }

  // -----------------------------------------------------------------------
  // Directory preview
  // -----------------------------------------------------------------------

  /** What `fs.stat` reports for an entry: its size, or a failure. */
  datatype DirEntry = DirEntry(name: string, isDirectory: bool, stat: Option<nat>)

  /** How many entries of a folder are looked at. */
  const DirectoryLimit: nat := 50

  /** The item an entry whose stat succeeded contributes. */
  function EntryItem(e: DirEntry): (it: Item)
    requires e.stat.Some?
    ensures it.name == e.name && (it.kind == Directory <==> e.isDirectory)
    ensures it.size.None? <==> e.isDirectory
    ensures it.hidden <==> StartsWith(e.name, ".")
  {
    Item(e.name, if e.isDirectory then Directory else File,
         if e.isDirectory then None else Some(e.stat.value),
         StartsWith(e.name, "."))
  }

  /** The positions of the entries whose stat succeeded and whose item is
      `it`. */
  function Hits(es: seq<DirEntry>, it: Item): set<int> {
    set k | 0 <= k < |es| && Hit(es[k], it)
  }

  /** The entry's stat succeeded and it gives the item `it`. */
  predicate Hit(e: DirEntry, it: Item) {
    e.stat.Some? && EntryItem(e) == it
  }

  /** The loop over the first entries, in order: an entry whose stat
      fails is skipped, and every other entry pushes exactly one item. */
  function CollectItems(es: seq<DirEntry>): (r: seq<Item>)
    ensures |r| <= |es|
    ensures forall it :: multiset(r)[it] == |Hits(es, it)|
    decreases |es|
  {
    if |es| == 0 then []
    else
      var n := |es| - 1;
      var before := CollectItems(es[..n]);
      forall it ensures |Hits(es, it)| == |Hits(es[..n], it)| + (if Hit(es[n], it) then 1 else 0) {
        HitsOfSnoc(es, it);
      }
      var r := if es[n].stat.Some? then before + [EntryItem(es[n])] else before;
      assert forall it :: multiset(r)[it] == multiset(before)[it] + (if Hit(es[n], it) then 1 else 0);
      r
  }

  /** The hits of a non-empty listing: those before its last entry, and the
      last entry's own. */
  lemma HitsOfSnoc(es: seq<DirEntry>, it: Item)
    requires |es| > 0
    ensures var n := |es| - 1;
            |Hits(es, it)| == |Hits(es[..n], it)| + (if Hit(es[n], it) then 1 else 0)
  {
    var n := |es| - 1;
    var before := Hits(es[..n], it);
    var last: set<int> := if Hit(es[n], it) then {n} else {};
    forall k ensures k in Hits(es, it) <==> k in before + last {
      if 0 <= k < n {
        assert es[..n][k] == es[k];
      }
    }
    assert Hits(es, it) == before + last;
    assert n !in before;
  }

  datatype PreviewResult =
    | DirectoryPreview(name: string, path: string, totalItems: nat, items: seq<Item>)
    | ArchivePreview(archiveType: ArchiveType, name: string, path: string, totalItems: nat, items: seq<Item>)
    | FilePreview(name: string, size: nat, message: string)
    | ErrorPreview(message: string)

  /** `getDirectoryPreview(dirPath)` over a successful listing. */
  function DirectoryPreviewOf(dirPath: string, es: seq<DirEntry>): (r: PreviewResult)
    ensures r.DirectoryPreview? && r.name == Basename(dirPath) && r.path == dirPath
    ensures r.totalItems == |es|
    ensures |r.items| <= DirectoryLimit && |r.items| <= |es|
    ensures Sorted(r.items)
    ensures forall it :: it in r.items ==>
              exists k :: 0 <= k < |es| && k < DirectoryLimit && es[k].stat.Some? && it == EntryItem(es[k])
    ensures forall k :: 0 <= k < |es| && k < DirectoryLimit && es[k].stat.Some? ==> EntryItem(es[k]) in r.items
    ensures forall it :: multiset(r.items)[it] == |set k | 0 <= k < |es| && k < DirectoryLimit && es[k].stat.Some? && EntryItem(es[k]) == it|
  {
    var head := if |es| <= DirectoryLimit then es else es[..DirectoryLimit];
    var items := SortItems(CollectItems(head));
    ItemsOfHead(es, head, items);
    forall it ensures multiset(items)[it] == |set k | 0 <= k < |es| && k < DirectoryLimit && es[k].stat.Some? && EntryItem(es[k]) == it| {
      assert Hits(head, it) == set k | 0 <= k < |es| && k < DirectoryLimit && es[k].stat.Some? && EntryItem(es[k]) == it;
    }
    DirectoryPreview(Basename(dirPath), dirPath, |es|, items)
  }

  /** Sorting neither adds nor drops an item. */
  lemma SortKeepsMembers(s: seq<Item>)
    ensures forall x :: x in SortItems(s) <==> x in s
  {
    var r := SortItems(s);
    forall x ensures x in r <==> x in s {
      assert x in r <==> x in multiset(r);
      assert x in s <==> x in multiset(s);
    }
  }

  /** An item is collected exactly when some entry gives it. */
  lemma CollectMembers(es: seq<DirEntry>)
    ensures forall it :: it in CollectItems(es) <==> exists k :: 0 <= k < |es| && Hit(es[k], it)
  {
    var r := CollectItems(es);
    forall it ensures it in r <==> exists k :: 0 <= k < |es| && Hit(es[k], it) {
      if exists k :: 0 <= k < |es| && Hit(es[k], it) {
        var k :| 0 <= k < |es| && Hit(es[k], it);
        assert k in Hits(es, it);
        assert multiset(r)[it] > 0;
      } else {
        assert Hits(es, it) == {};
        assert multiset(r)[it] == 0;
      }
    }
  }

  /** The sorted items are exactly the entries among the first ones whose
      stat succeeded. */
  lemma ItemsOfHead(es: seq<DirEntry>, head: seq<DirEntry>, items: seq<Item>)
    requires head == if |es| <= DirectoryLimit then es else es[..DirectoryLimit]
    requires items == SortItems(CollectItems(head))
    ensures forall it :: it in items ==>
              exists k :: 0 <= k < |es| && k < DirectoryLimit && es[k].stat.Some? && it == EntryItem(es[k])
    ensures forall k :: 0 <= k < |es| && k < DirectoryLimit && es[k].stat.Some? ==> EntryItem(es[k]) in items
  {
    SortKeepsMembers(CollectItems(head));
    CollectMembers(head);
    ItemsFromHead(es, head);
    HeadInItems(es, head);
  }

  lemma ItemsFromHead(es: seq<DirEntry>, head: seq<DirEntry>)
    requires head == if |es| <= DirectoryLimit then es else es[..DirectoryLimit]
    requires forall it :: it in CollectItems(head) <==> exists k :: 0 <= k < |head| && Hit(head[k], it)
    ensures forall it :: it in CollectItems(head) ==>
              exists k :: 0 <= k < |es| && k < DirectoryLimit && es[k].stat.Some? && it == EntryItem(es[k])
  {
    forall it | it in CollectItems(head)
      ensures exists k :: 0 <= k < |es| && k < DirectoryLimit && es[k].stat.Some? && it == EntryItem(es[k])
    {
      var k :| 0 <= k < |head| && Hit(head[k], it);
      assert head[k] == es[k];
    }
  }

  lemma HeadInItems(es: seq<DirEntry>, head: seq<DirEntry>)
    requires head == if |es| <= DirectoryLimit then es else es[..DirectoryLimit]
    requires forall it :: it in CollectItems(head) <==> exists k :: 0 <= k < |head| && Hit(head[k], it)
    ensures forall k :: 0 <= k < |es| && k < DirectoryLimit && es[k].stat.Some? ==> EntryItem(es[k]) in CollectItems(head)
  {
    forall k | 0 <= k < |es| && k < DirectoryLimit && es[k].stat.Some?
      ensures EntryItem(es[k]) in CollectItems(head)
    {
      assert head[k] == es[k];
      assert Hit(head[k], EntryItem(es[k]));
    }
  }

  // -----------------------------------------------------------------------
  // Archive previews
  // -----------------------------------------------------------------------

  /** What an archive reader sees of one entry: its path, whether the tar
      header types it as a directory, and its uncompressed size. */
  datatype ArchiveEntry = ArchiveEntry(name: string, typedDirectory: bool, size: nat)

  /** How many entries of an archive are listed. */
  const ArchiveLimit: nat := 100

  /** A zip entry is a directory when its name ends with '/'. */
  function ZipItem(e: ArchiveEntry): (it: Item)
    ensures it.name == e.name && (it.kind == Directory <==> EndsWith(e.name, "/"))
  {
    Item(e.name, if EndsWith(e.name, "/") then Directory else File, Some(e.size), false)
  }

  /** A tar entry is a directory when its header type says so. */
  function TarItem(e: ArchiveEntry): (it: Item)
    ensures it.name == e.name && (it.kind == Directory <==> e.typedDirectory)
  {
    Item(e.name, if e.typedDirectory then Directory else File, Some(e.size), false)
  }

  /** The first `ArchiveLimit` entries, in archive order. */
  function Capped(es: seq<ArchiveEntry>): (r: seq<ArchiveEntry>)
    ensures |r| <= ArchiveLimit && |r| == if |es| < ArchiveLimit then |es| else ArchiveLimit
    ensures forall k :: 0 <= k < |r| ==> r[k] == es[k]
  {
    if |es| <= ArchiveLimit then es else es[..ArchiveLimit]
  }

  /** `getZipPreview`: at most 100 items, and `totalItems` counts the items
      kept, not the entries read. */
  function ZipPreviewOf(path: string, es: seq<ArchiveEntry>): (r: PreviewResult)
    ensures r.ArchivePreview? && r.archiveType == Zip && r.name == Basename(path) && r.path == path
    ensures |r.items| <= ArchiveLimit && r.totalItems == |r.items|
    ensures |r.items| == if |es| < ArchiveLimit then |es| else ArchiveLimit
    ensures forall k :: 0 <= k < |r.items| ==> r.items[k] == ZipItem(es[k])
  {
    var kept := Capped(es);
    var items := seq(|kept|, k requires 0 <= k < |kept| => ZipItem(kept[k]));
    ArchivePreview(Zip, Basename(path), path, |items|, items)
  }

  /** `getTarPreview`: at most 100 items, while `totalItems` counts every
      entry of the archive. */
  function TarPreviewOf(path: string, es: seq<ArchiveEntry>): (r: PreviewResult)
    ensures r.ArchivePreview? && r.archiveType == Tar && r.name == Basename(path) && r.path == path
    ensures |r.items| <= ArchiveLimit && r.totalItems == |es|
    ensures |r.items| == if |es| < ArchiveLimit then |es| else ArchiveLimit
    ensures forall k :: 0 <= k < |r.items| ==> r.items[k] == TarItem(es[k])
  {
    var kept := Capped(es);
    var items := seq(|kept|, k requires 0 <= k < |kept| => TarItem(kept[k]));
    ArchivePreview(Tar, Basename(path), path, |es|, items)
  }

  /** The two previews differ only in `totalItems` once an archive has more
      than 100 entries. */
  lemma ZipAndTarTotals(path: string, es: seq<ArchiveEntry>)
    ensures |es| <= ArchiveLimit ==> ZipPreviewOf(path, es).totalItems == TarPreviewOf(path, es).totalItems
    ensures |es| > ArchiveLimit ==> ZipPreviewOf(path, es).totalItems < TarPreviewOf(path, es).totalItems
  {
  }

  // -----------------------------------------------------------------------
  // getPreview
  // -----------------------------------------------------------------------

  /** What the file system reports for the requested path. */
  datatype Node =
    | DirNode(listing: Listing)
    | FileNode(size: nat)
    | StatFailed(message: string)

  datatype Listing = Listed(entries: seq<DirEntry>) | ListFailed(message: string)

  /** What the archive reader delivers. */
  datatype ArchiveRead = Entries(entries: seq<ArchiveEntry>) | ReadFailed(message: string)

  const FileErrorPrefix := "无法读取文件: "
  const DirectoryErrorPrefix := "无法读取目录内容: "
  const ArchiveErrorPrefix := "读取压缩包失败: "
  const UnsupportedArchive := "不支持的压缩包格式"
  const UnsupportedFile := "不支持此文件类型的预览"

  /** `getArchivePreview`: the reader chosen by extension, its errors
      wrapped. */
  function ArchivePreviewOf(path: string, read: ArchiveRead): (r: Result)
    ensures ArchiveReader(path).None? ==> r == Failed(ArchiveErrorPrefix + UnsupportedArchive)
    ensures ArchiveReader(path).Some? && read.ReadFailed? ==> r == Failed(ArchiveErrorPrefix + read.message)
    ensures r.Ok? ==> r.preview.ArchivePreview? && Some(r.preview.archiveType) == ArchiveReader(path)
    ensures ArchiveReader(path) == Some(Zip) && read.Entries? ==> r == Ok(ZipPreviewOf(path, read.entries))
    ensures ArchiveReader(path) == Some(Tar) && read.Entries? ==> r == Ok(TarPreviewOf(path, read.entries))
    ensures ArchiveReader(path).Some? && read.Entries? ==>
              && r.Ok? && r.preview.ArchivePreview? && r.preview.path == path && r.preview.name == Basename(path)
              && |r.preview.items| == (if |read.entries| < ArchiveLimit then |read.entries| else ArchiveLimit)
              && (r.preview.archiveType == Zip ==> r.preview.totalItems == |r.preview.items|)
              && (r.preview.archiveType == Tar ==> r.preview.totalItems == |read.entries|)
  {
    match ArchiveReader(path)
    case None => Failed(ArchiveErrorPrefix + UnsupportedArchive)
    case Some(t) =>
      match read
      case ReadFailed(m) => Failed(ArchiveErrorPrefix + m)
      case Entries(es) => Ok(if t == Zip then ZipPreviewOf(path, es) else TarPreviewOf(path, es))
  }

  /** A preview, or the message of the error thrown while building it. */
  datatype Result = Ok(preview: PreviewResult) | Failed(message: string)

  /** `getPreview(filePath)`: directory first, then archive, then a plain
      file record; a thrown error becomes an error record. */
  function GetPreview(path: string, node: Node, read: ArchiveRead): (r: PreviewResult)
    ensures node.StatFailed? ==> r == ErrorPreview(FileErrorPrefix + node.message)
    ensures node.DirNode? && node.listing.Listed? ==> r.DirectoryPreview? && r.totalItems == |node.listing.entries|
    ensures node.DirNode? && node.listing.ListFailed? ==>
              r == ErrorPreview(FileErrorPrefix + DirectoryErrorPrefix + node.listing.message)
    ensures node.FileNode? && !IsArchive(path) ==> r == FilePreview(Basename(path), node.size, UnsupportedFile)
    ensures node.FileNode? && IsArchive(path) ==> r.ArchivePreview? || r.ErrorPreview?
    ensures node.FileNode? && IsArchive(path) && read.ReadFailed? ==>
              r == ErrorPreview(FileErrorPrefix + ArchiveErrorPrefix + read.message)
    ensures node.FileNode? && IsArchive(path) && read.Entries? ==> ArchivePreviewOf(path, read) == Ok(r)
    ensures node.DirNode? && node.listing.Listed? ==> r == DirectoryPreviewOf(path, node.listing.entries)
    ensures r.DirectoryPreview? ==> node.DirNode?
  {
    match node
    case StatFailed(m) => ErrorPreview(FileErrorPrefix + m)
    case DirNode(listing) =>
      (match listing
       case ListFailed(m) => ErrorPreview(FileErrorPrefix + DirectoryErrorPrefix + m)
       case Listed(es) => DirectoryPreviewOf(path, es))
    case FileNode(size) =>
      if IsArchive(path) then
        ArchivesHaveReaders(path);
        ArchiveFilePreview(path, read)
      else FilePreview(Basename(path), size, UnsupportedFile)
  }

  /** The archive branch of `getPreview`: the archive preview, or the
      wrapped message of what `getArchivePreview` threw. */
  function ArchiveFilePreview(path: string, read: ArchiveRead): (r: PreviewResult)
    ensures r.ArchivePreview? || r.ErrorPreview?
    ensures ArchiveReader(path).Some? && read.ReadFailed? ==>
              r == ErrorPreview(FileErrorPrefix + ArchiveErrorPrefix + read.message)
    ensures ArchiveReader(path).Some? && read.Entries? ==> ArchivePreviewOf(path, read) == Ok(r)
  {
    match ArchivePreviewOf(path, read)
    case Ok(p) => p
    case Failed(m) => ErrorPreview(FileErrorPrefix + m)
  }

  /** A readable archive always gets an archive preview: the "unsupported
      format" error is unreachable from `getPreview`. */
  lemma ReadableArchivePreviews(path: string, size: nat, es: seq<ArchiveEntry>)
    requires IsArchive(path)
    ensures GetPreview(path, FileNode(size), Entries(es)).ArchivePreview?
  {
    ArchivesHaveReaders(path);
  }

  /** A directory is previewed as a directory even when its name looks like
      an archive. */
  lemma DirectoryBeforeArchive(path: string, es: seq<DirEntry>, read: ArchiveRead)
    ensures GetPreview(path, DirNode(Listed(es)), read).DirectoryPreview?
  {
  }
}

=== FILE: preview_view.dfy ===
/** The preview window's renderer: which of its three panels (error, file
    list, empty state) is shown for the data the main process returns, the
    icon and size text of a listed item, the keys that close it, and the
    loading sequence. The DOM is reduced to the panels' visibility, the
    error text and the content area's `visible` class; the IPC call is an
    input (`Fetch`). */
module PreviewWindow {
  import opened Common
  import opened JsText
  import PreviewService

  // -----------------------------------------------------------------------
  // Panels
  // -----------------------------------------------------------------------

  /** Whether each panel's `display` is other than 'none'. */
  datatype Panels = Panels(error: bool, fileList: bool, emptyState: bool)

  predicate ExactlyOne(p: Panels) {
    || (p.error && !p.fileList && !p.emptyState)
    || (!p.error && p.fileList && !p.emptyState)
    || (!p.error && !p.fileList && p.emptyState)
  }

  /** What the window shows: the visible panels, the error message text,
      the list being shown, the path and data of the last load, whether the
      content area is visible and whether the window was asked to close. */
  datatype View = View(
    currentPath: string,
    currentData: Option<PreviewService.PreviewResult>,
    filteredItems: seq<PreviewService.Item>,
    panels: Panels,
    errorText: string,
    contentVisible: bool,
    closed: bool)

  /** The constructor's state; the panels' initial visibility comes from the
      page's style sheet and is a parameter. */
  function NewView(initial: Panels): (v: View)
    ensures v.currentPath == "" && v.currentData.None? && v.filteredItems == []
    ensures v.panels == initial && !v.closed
  {
    View("", None, [], initial, "", false, false)
  }

  const DefaultError := "无法读取内容"

  /** `hideAllStates`. */
  function HideAllStates(v: View): (r: View)
    ensures !r.panels.error && !r.panels.fileList && !r.panels.emptyState
    ensures r.(panels := v.panels) == v
  {
    v.(panels := Panels(false, false, false))
  }

  /** The text `message || '无法读取内容'` puts in the error panel; `None`
      is a missing message. */
  function ErrorText(message: Option<string>): (t: string)
    ensures |t| > 0
    ensures message.Some? && |message.value| > 0 ==> t == message.value
    ensures message.None? || message == Some("") ==> t == DefaultError
  {
    match message
    case Some(m) => if |m| > 0 then m else DefaultError
    case None => DefaultError
  }

  /** `showError(message)`. */
  function ShowError(v: View, message: Option<string>): (r: View)
    ensures ExactlyOne(r.panels) && r.panels.error
    ensures r.errorText == ErrorText(message)
    ensures r.(panels := v.panels, errorText := v.errorText) == v
  {
    v.(panels := Panels(true, false, false), errorText := ErrorText(message))
  }

  /** `showEmptyState()`. */
  function ShowEmptyState(v: View): (r: View)
    ensures ExactlyOne(r.panels) && r.panels.emptyState
    ensures r.(panels := v.panels) == v
  {
    v.(panels := Panels(false, false, true))
  }

  /** `showFileList()`. */
  function ShowFileList(v: View): (r: View)
    ensures ExactlyOne(r.panels) && r.panels.fileList
    ensures r.(panels := v.panels) == v
  {
    v.(panels := Panels(false, true, false))
  }

  // -----------------------------------------------------------------------
  // Displaying a preview
  // -----------------------------------------------------------------------

  /** `data.items`, which a plain-file or error record does not have. */
  function ItemsOf(data: PreviewService.PreviewResult): Option<seq<PreviewService.Item>> {
    match data
    case DirectoryPreview(_, _, _, items) => Some(items)
    case ArchivePreview(_, _, _, _, items) => Some(items)
    case _ => None
  }

  /** `displayPreview(data)`. */
  function DisplayPreview(v: View, data: PreviewService.PreviewResult): (r: View)
    ensures ExactlyOne(r.panels)
    ensures r.panels.error <==> data.ErrorPreview?
    ensures data.ErrorPreview? ==> r.errorText == ErrorText(Some(data.message))
    ensures r.panels.emptyState <==> !data.ErrorPreview? && (ItemsOf(data).None? || |ItemsOf(data).value| == 0)
    ensures r.panels.fileList ==> r.filteredItems == ItemsOf(data).value && |r.filteredItems| > 0
    ensures !r.panels.fileList ==> r.filteredItems == v.filteredItems
  {
    if data.ErrorPreview? then ShowError(v, Some(data.message))
    else match ItemsOf(data)
      case None => ShowEmptyState(v)
      case Some(items) =>
        if |items| == 0 then ShowEmptyState(v)
        else ShowFileList(v.(filteredItems := items))
  }

  /** How the window shows what the preview service builds: a failed stat
      shows the service's error text, while a plain file and an empty folder
      show the empty panel (the service's "unsupported" message for a plain
      file is never displayed). */
  lemma DisplayOfServiceResult(v: View, path: string, node: PreviewService.Node, read: PreviewService.ArchiveRead)
    ensures var data := PreviewService.GetPreview(path, node, read);
            var r := DisplayPreview(v, data);
            && (node.FileNode? && !PreviewService.IsArchive(path) ==> r.panels.emptyState)
            && (node.StatFailed? ==> r.panels.error && r.errorText == PreviewService.FileErrorPrefix + node.message)
            && (node.DirNode? && node.listing.Listed? && |node.listing.entries| == 0 ==> r.panels.emptyState)
  {
    var data := PreviewService.GetPreview(path, node, read);
    if node.StatFailed? {
      assert |PreviewService.FileErrorPrefix + node.message| > 0;
    }
  }

  // -----------------------------------------------------------------------
  // Item icon and size text
  // -----------------------------------------------------------------------

  datatype Icon =
    | FolderIcon | DocumentIcon | MemoIcon | RedBookIcon | BlueBookIcon | GreenBookIcon
    | OrangeBookIcon | ClampIcon | PictureIcon | NoteIcon | ClapperIcon | BoltIcon
    | GlobeIcon | PaletteIcon | GearIcon | SnakeIcon | CupIcon | OwlIcon
    | ElephantIcon | GemIcon | HamsterIcon

  /** The emoji each icon is written as. */
  function Glyph(i: Icon): string {
    match i
    case FolderIcon => "\U{1F4C1}"
    case DocumentIcon => "\U{1F4C4}"
    case MemoIcon => "\U{1F4DD}"
    case RedBookIcon => "\U{1F4D5}"
    case BlueBookIcon => "\U{1F4D8}"
    case GreenBookIcon => "\U{1F4D7}"
    case OrangeBookIcon => "\U{1F4D9}"
    case ClampIcon => "\U{1F5DC}\U{FE0F}"
    case PictureIcon => "\U{1F5BC}\U{FE0F}"
    case NoteIcon => "\U{1F3B5}"
    case ClapperIcon => "\U{1F3AC}"
    case BoltIcon => "\U{26A1}"
    case GlobeIcon => "\U{1F310}"
    case PaletteIcon => "\U{1F3A8}"
    case GearIcon => "\U{2699}\U{FE0F}"
    case SnakeIcon => "\U{1F40D}"
    case CupIcon => "\U{2615}"
    case OwlIcon => "\U{1F989}"
    case ElephantIcon => "\U{1F418}"
    case GemIcon => "\U{1F48E}"
    case HamsterIcon => "\U{1F439}"
  }

  /** The extension table of `getItemIcon`. */
  const IconMap: map<string, Icon> := map[
    ".txt" := DocumentIcon, ".md" := MemoIcon, ".pdf" := RedBookIcon,
    ".doc" := BlueBookIcon, ".docx" := BlueBookIcon,
    ".xls" := GreenBookIcon, ".xlsx" := GreenBookIcon,
    ".ppt" := OrangeBookIcon, ".pptx" := OrangeBookIcon,
    ".zip" := ClampIcon, ".rar" := ClampIcon, ".7z" := ClampIcon, ".tar" := ClampIcon, ".gz" := ClampIcon,
    ".jpg" := PictureIcon, ".jpeg" := PictureIcon, ".png" := PictureIcon,
    ".gif" := PictureIcon, ".bmp" := PictureIcon, ".svg" := PictureIcon,
    ".mp3" := NoteIcon, ".wav" := NoteIcon, ".flac" := NoteIcon,
    ".mp4" := ClapperIcon, ".avi" := ClapperIcon, ".mov" := ClapperIcon, ".mkv" := ClapperIcon,
    ".js" := BoltIcon, ".html" := GlobeIcon, ".css" := PaletteIcon,
    ".json" := GearIcon, ".xml" := GearIcon, ".py" := SnakeIcon, ".java" := CupIcon,
    ".cpp" := BoltIcon, ".c" := BoltIcon, ".swift" := OwlIcon, ".php" := ElephantIcon,
    ".rb" := GemIcon, ".go" := HamsterIcon]

  /** No extension maps to the folder icon. */
  lemma FolderIconUnmapped()
    ensures forall e :: e in IconMap ==> IconMap[e] != FolderIcon
  {
  }

  /** `getItemIcon(item)`. */
  function ItemIcon(item: PreviewService.Item): (i: Icon)
    ensures item.kind == PreviewService.Directory ==> i == FolderIcon
    ensures item.kind == PreviewService.File ==>
              i == (if ToLower(Extname(item.name)) in IconMap then IconMap[ToLower(Extname(item.name))] else DocumentIcon)
  {
    if item.kind == PreviewService.Directory then FolderIcon
    else
      var ext := ToLower(Extname(item.name));
      if ext in IconMap then IconMap[ext] else DocumentIcon
  }

  /** The folder icon marks exactly the directories. */
  lemma FolderIconIffDirectory(item: PreviewService.Item)
    ensures ItemIcon(item) == FolderIcon <==> item.kind == PreviewService.Directory
  {
    FolderIconUnmapped();
  }

  /** The icon depends on the extension only up to case. */
  lemma IconIgnoresCase(a: PreviewService.Item, b: PreviewService.Item)
    requires a.kind == b.kind && ToLower(Extname(a.name)) == ToLower(Extname(b.name))
    ensures ItemIcon(a) == ItemIcon(b)
  {
  }

  /** Every key of the table is a '.' and at least one more character. */
  lemma IconKeysAreExtensions()
    ensures forall e :: e in IconMap ==> |e| >= 2 && e[0] == '.'
  {
  }

  /** A file without an extension gets the document icon. */
  lemma NoExtensionIsDocument(item: PreviewService.Item)
    requires item.kind == PreviewService.File && Extname(item.name) == ""
    ensures ItemIcon(item) == DocumentIcon
  {
    IconKeysAreExtensions();
    assert |ToLower(Extname(item.name))| == 0;
  }

  /** A ".tgz" archive, which the preview service opens
      (`PreviewService.TgzIsArchive`), is listed with the document icon: the
      table knows ".tar" and ".gz" but not ".tgz". */
  lemma TgzShownAsDocument(item: PreviewService.Item)
    requires item.kind == PreviewService.File
    requires |item.name| >= 5 && EndsWith(item.name, ".tgz") && item.name[|item.name| - 5] != '/'
    ensures ItemIcon(item) == DocumentIcon
  {
    PreviewService.LowerExtnameOfLowerSuffix(item.name, "tgz");
    TgzUnmapped();
    UnmappedIsDocument(item, ".tgz");
  }

  lemma TgzUnmapped()
    ensures ".tgz" !in IconMap
  {
  }

  lemma UnmappedIsDocument(item: PreviewService.Item, e: string)
    requires item.kind == PreviewService.File && ToLower(Extname(item.name)) == e && e !in IconMap
    ensures ItemIcon(item) == DocumentIcon
  {
  }

  /** A size as the renderer receives it: `null`, absent, or a byte count. */
  datatype Size = SizeNull | SizeUndefined | Bytes(n: nat)

  /** `formatFileSize(bytes)` for the cases that do not need floating point:
      `None` is a size of 1024 bytes or more, whose text is computed with
      logarithms and is not modelled. */
  function FormatFileSize(bytes: Size): (r: Option<string>)
    ensures bytes.SizeNull? || bytes.SizeUndefined? ==> r == Some("")
    ensures bytes == Bytes(0) ==> r == Some("0 B")
    ensures bytes.Bytes? && 0 < bytes.n < 1024 ==> r.Some? && EndsWith(r.value, " B")
    ensures bytes.Bytes? && bytes.n >= 1024 <==> r.None?
  {
    match bytes
    case SizeNull => Some("")
    case SizeUndefined => Some("")
    case Bytes(n) =>
      if n == 0 then Some("0 B")
      else if n < 1024 then Some(NatToDecimal(n) + " B")
      else None
  }

  /** Below one kibibyte the text is the byte count followed by " B", and
      that count reads back with `parseInt`. */
  lemma SmallSizeReadsBack(n: nat)
    requires n < 1024
    ensures FormatFileSize(Bytes(n)).Some?
    ensures var t := FormatFileSize(Bytes(n)).value;
            EndsWith(t, " B") && ParseInt(t[..|t| - 2]) == Some(n)
  {
    ParseIntOfNatDecimal(n);
    assert NatToDecimal(0) == "0";
    assert FormatFileSize(Bytes(n)).value == NatToDecimal(n) + " B";
    UnitDropped(NatToDecimal(n), n);
  }

  lemma UnitDropped(d: string, n: int)
    requires ParseInt(d) == Some(n)
    ensures var t := d + " B"; EndsWith(t, " B") && ParseInt(t[..|t| - 2]) == Some(n)
  {
    var t := d + " B";
    assert t[..|t| - 2] == d;
    assert t[|t| - 2..] == " B";
  }

  // -----------------------------------------------------------------------
  // Keys, loading, content animation
  // -----------------------------------------------------------------------

  /** `handleKeyDown(e)` on a key with code `code`: whether the default
      action was prevented, and the resulting view. */
  function HandleKeyDown(v: View, code: string): (r: (bool, View))
    ensures r.0 <==> code == "Space" || code == "Escape"
    ensures r.0 ==> r.1.closed && !r.1.contentVisible
    ensures !r.0 ==> r.1 == v
  {
    if code == "Space" || code == "Escape" then (true, CloseWithAnimation(v))
    else (false, v)
  }

  /** `closeWithAnimation()`: hide the content, then close the window. */
  function CloseWithAnimation(v: View): (r: View)
    ensures r.closed && !r.contentVisible
    ensures r.(contentVisible := v.contentVisible, closed := v.closed) == v
  {
    v.(contentVisible := false, closed := true)
  }

  /** `showContent()`, on the main process's animation-complete signal. */
  function ShowContent(v: View): (r: View)
    ensures r.contentVisible && r.(contentVisible := v.contentVisible) == v
  {
    v.(contentVisible := true)
  }

  /** What `ipcRenderer.invoke('get-file-preview', path)` settles with. */
  datatype Fetch = Fetched(data: PreviewService.PreviewResult) | FetchFailed(message: Option<string>)

  /** The synchronous start of `loadPreview(path)`: record the path and hide
      every panel. */
  function BeginLoad(v: View, path: string): (r: View)
    ensures r.currentPath == path
    ensures !r.panels.error && !r.panels.fileList && !r.panels.emptyState
    ensures r.currentData == v.currentData && r.filteredItems == v.filteredItems
  {
    HideAllStates(v.(currentPath := path))
  }

  /** The continuation of `loadPreview` once the fetch settles. */
  function FinishLoad(v: View, fetch: Fetch): (r: View)
    ensures ExactlyOne(r.panels)
    ensures fetch.FetchFailed? ==> r.panels.error && r.errorText == ErrorText(fetch.message) && r.currentData == v.currentData
    ensures fetch.Fetched? ==> r.currentData == Some(fetch.data) && r == DisplayPreview(v.(currentData := Some(fetch.data)), fetch.data)
    ensures r.currentPath == v.currentPath
  {
    match fetch
    case FetchFailed(m) => ShowError(v, m)
    case Fetched(data) => DisplayPreview(v.(currentData := Some(data)), data)
  }

  /** `loadPreview(path)` run to completion. */
  function LoadPreview(v: View, path: string, fetch: Fetch): (r: View)
    ensures r.currentPath == path && ExactlyOne(r.panels)
    ensures fetch.FetchFailed? ==> r.panels.error
  {
    FinishLoad(BeginLoad(v, path), fetch)
  }

  /** Loading is the same whatever was shown before, except that a failed
      fetch keeps the previous data and an empty result keeps the previous
      list. */
  lemma LoadForgetsPanels(v: View, w: View, path: string, data: PreviewService.PreviewResult)
    ensures LoadPreview(v, path, Fetched(data)).panels == LoadPreview(w, path, Fetched(data)).panels
  {
  }

  /** Two loads of which the second fails show the second's error, not the
      first's result, while the first's data stays recorded. */
  lemma FailedReloadKeepsData(v: View, p1: string, p2: string, data: PreviewService.PreviewResult, m: Option<string>)
    ensures var r := LoadPreview(LoadPreview(v, p1, Fetched(data)), p2, FetchFailed(m));
            r.panels.error && r.currentPath == p2 && r.currentData == Some(data)
  {
  }
}

=== FILE: probe.dfy ===
/** How the main process reads the answers of its Finder scripts: the 150 ms
    front-application probe `"status|selection"`, the quick path of the
    first selected item, the `|||`-joined list of selected paths and the
    folder of the front Finder window. The scripts themselves are not
    modelled; each reader receives the reply (`ExecReply`) of its `exec`
    callback, and for the probe and the path list a `Render` function states
    what the script prints, so that the readers can be proved to invert it. */
module Probe {
  import opened Common
  import opened JsText

  /** The JavaScript values `cachedSelectedFile` takes: `null`, `undefined`
      (destructuring a one-token reply) or a string. */
  datatype Sel = SelNull | SelUndefined | SelText(text: string)

  /** JavaScript truthiness of such a value: the empty string is falsy. */
  predicate Truthy(v: Sel) {
    v.SelText? && |v.text| > 0
  }

  /** The cached pair `(cachedFinderActive, cachedSelectedFile)`. */
  datatype Snapshot = Snapshot(finderActive: bool, selection: Sel)

  /** The initial cache: Finder inactive, selection `null`. */
  const Initial := Snapshot(false, SelNull)

  /** The second-token values that mean "nothing selected". */
  predicate IsNoSelection(t: string) {
    t == "no_selection" || t == "not_in_finder" || t == "selection_error"
  }

  /** The reading of a successful probe: trim, split on `|`, take the first
      two tokens. */
  function ParseProbe(stdout: string): (p: Snapshot)
    ensures var tokens := Split(Trim(stdout), "|");
            && (p.finderActive <==> tokens[0] == "finder_active")
            && (p.selection.SelUndefined? <==> |tokens| == 1)
            && (p.selection.SelNull? <==> |tokens| >= 2 && IsNoSelection(tokens[1]))
            && (p.selection.SelText? ==> |tokens| >= 2 && p.selection.text == tokens[1])
  {
    var tokens := Split(Trim(stdout), "|");
    var status := tokens[0];
    var file := if |tokens| >= 2 then SelText(tokens[1]) else SelUndefined;
    Snapshot(status == "finder_active",
          if file.SelText? && IsNoSelection(file.text) then SelNull else file)
  }

  // -----------------------------------------------------------------------
  // What the probe script prints
  // -----------------------------------------------------------------------

  /** What the script finds about the first selected Finder item. */
  datatype Pick =
    | Folder(name: string)
    | Archive(name: string)
    | File(name: string)
    | NoSelection
    | SelectionError

  /** The script's two findings: the front application and, when it is
      Finder, the selection. */
  datatype ScriptAnswer = InFinder(pick: Pick) | NotFront | FrontError

  function PickText(p: Pick): string {
    match p
    case Folder(n) => "folder:" + n
    case Archive(n) => "archive:" + n
    case File(n) => "file:" + n
    case NoSelection => "no_selection"
    case SelectionError => "selection_error"
  }

  /** The probe script's output, with the newline `osascript` appends. */
  function Render(a: ScriptAnswer): string {
    match a
    case InFinder(p) => "finder_active|" + PickText(p) + "\n"
    case NotFront => "finder_inactive|not_in_finder\n"
    case FrontError => "finder_error|not_in_finder\n"
  }

  /** The cache a correct reading of `a` produces. */
  function Meaning(a: ScriptAnswer): Snapshot {
    match a
    case InFinder(p) =>
      Snapshot(true, if p.NoSelection? || p.SelectionError? then SelNull else SelText(PickText(p)))
    case _ => Snapshot(false, SelNull)
  }

  /** An item name the probe transports intact: no `|` and no whitespace at
      its end. */
  predicate Transportable(a: ScriptAnswer) {
    a.InFinder? && (a.pick.Folder? || a.pick.Archive? || a.pick.File?) ==>
      '|' !in a.pick.name && (|a.pick.name| == 0 || !IsWhite(a.pick.name[|a.pick.name| - 1]))
  }

  /** A two-token line whose tokens carry no `|` is read token by token. */
  lemma {:induction false} ParseProbeOfTokens(status: string, second: string)
    requires |status| > 0 && !IsWhite(status[0]) && '|' !in status
    requires |second| > 0 && !IsWhite(second[|second| - 1]) && '|' !in second
    ensures ParseProbe(status + "|" + second + "\n")
         == Snapshot(status == "finder_active", if IsNoSelection(second) then SelNull else SelText(second))
  {
    var line := status + "|" + second;
    assert line + "\n" == status + "|" + second + "\n";
    assert line[0] == status[0] && line[|line| - 1] == second[|second| - 1];
    TrimOfPadded(line, "\n");
    assert Join([status, second], "|") == line;
    SplitOfJoin([status, second], "|");
  }

  /** The first token the script prints. */
  function StatusToken(a: ScriptAnswer): string {
    match a
    case InFinder(_) => "finder_active"
    case NotFront => "finder_inactive"
    case FrontError => "finder_error"
  }

  /** The second token the script prints. */
  function SecondToken(a: ScriptAnswer): string {
    match a
    case InFinder(p) => PickText(p)
    case _ => "not_in_finder"
  }

  lemma RenderTokens(a: ScriptAnswer)
    ensures Render(a) == StatusToken(a) + "|" + SecondToken(a) + "\n"
    ensures |StatusToken(a)| > 0 && !IsWhite(StatusToken(a)[0]) && '|' !in StatusToken(a)
    ensures StatusToken(a) == "finder_active" <==> a.InFinder?
  {
    RenderSplits(a);
    StatusTokenFacts(a);
  }

  lemma RenderSplits(a: ScriptAnswer)
    ensures Render(a) == StatusToken(a) + "|" + SecondToken(a) + "\n"
  {
    match a
    case InFinder(p) =>
      assert "finder_active|" + PickText(p) == "finder_active" + "|" + PickText(p);
    case NotFront =>
      assert "finder_inactive|not_in_finder\n" == "finder_inactive" + "|" + "not_in_finder" + "\n";
    case FrontError =>
      assert "finder_error|not_in_finder\n" == "finder_error" + "|" + "not_in_finder" + "\n";
  }

  lemma StatusTokenFacts(a: ScriptAnswer)
    ensures |StatusToken(a)| > 0 && !IsWhite(StatusToken(a)[0]) && '|' !in StatusToken(a)
    ensures StatusToken(a) == "finder_active" <==> a.InFinder?
  {
    var s := StatusToken(a);
    assert s[0] == 'f';
    assert |s| != 13 ==> s != "finder_active";
  }

  /** The probe reading inverts the script's rendering for every item name
      that has no `|` and no trailing whitespace. */
  lemma {:induction false} ParseProbeOfRender(a: ScriptAnswer)
    requires Transportable(a)
    ensures ParseProbe(Render(a)) == Meaning(a)
  {
    RenderTokens(a);
    var st := StatusToken(a);
    var nd := SecondToken(a);
    if a.InFinder? {
      PickTextEnd(a.pick);
      PickTextHasNoBar(a.pick);
      PickTextMeaning(a.pick);
    }
    ParseProbeOfTokens(st, nd);
  }

  /** Only the two no-selection picks print a no-selection token. */
  lemma PickTextMeaning(p: Pick)
    ensures IsNoSelection(PickText(p)) <==> p.NoSelection? || p.SelectionError?
  {
    match p
    case Folder(n) => assert PickText(p)[0] == 'f' && PickText(p)[1] == 'o';
    case Archive(n) => assert PickText(p)[0] == 'a';
    case File(n) => assert PickText(p)[0] == 'f' && PickText(p)[1] == 'i';
    case NoSelection =>
    case SelectionError =>
  }

  /** The last character of a pick's text is the last of its name, or of its
      tag when the name is empty. */
  lemma PickTextEnd(p: Pick)
    requires (p.Folder? || p.Archive? || p.File?) ==> |p.name| == 0 || !IsWhite(p.name[|p.name| - 1])
    ensures |PickText(p)| > 0 && !IsWhite(PickText(p)[|PickText(p)| - 1])
  {
    var t := PickText(p);
    if (p.Folder? || p.Archive? || p.File?) && |p.name| > 0 {
      assert t[|t| - 1] == p.name[|p.name| - 1];
    }
  }

  lemma PickTextHasNoBar(p: Pick)
    requires (p.Folder? || p.Archive? || p.File?) ==> '|' !in p.name
    ensures '|' !in PickText(p)
  {
    var t := PickText(p);
    match p
    case Folder(n) =>
      forall k | 0 <= k < |t| ensures t[k] != '|' {
        if k >= 7 { assert t[k] == n[k - 7]; }
      }
    case Archive(n) =>
      forall k | 0 <= k < |t| ensures t[k] != '|' {
        if k >= 8 { assert t[k] == n[k - 8]; }
      }
    case File(n) =>
      forall k | 0 <= k < |t| ensures t[k] != '|' {
        if k >= 5 { assert t[k] == n[k - 5]; }
      }
    case NoSelection =>
    case SelectionError =>
  }

  /** A line of three `|`-free tokens is read as its first two. */
  lemma {:induction false} ParseProbeOfThreeTokens(status: string, second: string, rest: string)
    requires |status| > 0 && !IsWhite(status[0]) && '|' !in status && '|' !in second
    requires |rest| > 0 && !IsWhite(rest[|rest| - 1]) && '|' !in rest
    ensures ParseProbe(status + "|" + second + "|" + rest + "\n")
         == Snapshot(status == "finder_active", if IsNoSelection(second) then SelNull else SelText(second))
  {
    var ps := [status, second, rest];
    var line := Join(ps, "|");
    JoinOfThree(status, second, rest, "|");
    assert line[0] == status[0] && line[|line| - 1] == rest[|rest| - 1];
    TrimOfPadded(line, "\n");
    SplitOfJoin(ps, "|");
    assert Split(Trim(line + "\n"), "|") == ps;
  }

  lemma JoinOfThree(a: string, b: string, c: string, sep: string)
    ensures Join([a, b, c], sep) == a + sep + b + sep + c
  {
    assert [a, b, c][1..] == [b, c];
    assert [b, c][1..] == [c];
    assert Join([b, c], sep) == b + sep + c;
    assert Join([a, b, c], sep) == a + sep + (b + sep + c);
  }

  /** A name containing `|` is cut at its first `|`: the destructuring keeps
      only the first two tokens. */
  lemma BarTruncatesName(head: string, tail: string)
    requires '|' !in head && '|' !in tail && |tail| > 0 && !IsWhite(tail[|tail| - 1])
    ensures ParseProbe(Render(InFinder(Folder(head + "|" + tail)))) == Snapshot(true, SelText("folder:" + head))
  {
    var a := InFinder(Folder(head + "|" + tail));
    RenderTokens(a);
    assert Render(a) == "finder_active" + "|" + ("folder:" + head) + "|" + tail + "\n";
    PickTextHasNoBar(Folder(head));
    PickTextMeaning(Folder(head));
    ParseProbeOfThreeTokens("finder_active", "folder:" + head, tail);
  }

  /** A reply without `|` leaves the selection `undefined`, which differs
      from `null` and so counts as a change. */
  lemma OneTokenIsUndefined(stdout: string)
    requires '|' !in Trim(stdout)
    ensures ParseProbe(stdout).selection == SelUndefined
    ensures ParseProbe(stdout).finderActive <==> Trim(stdout) == "finder_active"
  {
    SplitWithoutSeparator(Trim(stdout), "|");
  }

  // -----------------------------------------------------------------------
  // Decisions the main process takes from the cache
  // -----------------------------------------------------------------------

  /** `shouldInterceptSpaceKey`: Finder is in front and the selection is a
      folder or an archive. */
  predicate ShouldInterceptSpace(p: Snapshot) {
    p.finderActive && Truthy(p.selection)
    && (StartsWith(p.selection.text, "folder:") || StartsWith(p.selection.text, "archive:"))
  }

  /** The Cmd+X predicate: Finder in front and a truthy selection. */
  predicate ShouldCut(p: Snapshot) {
    p.finderActive && Truthy(p.selection)
  }

  /** The Cmd+V predicate: Finder in front and something cut. */
  predicate ShouldPaste(p: Snapshot, hasCutFiles: bool) {
    p.finderActive && hasCutFiles
  }

  /** What the three predicates decide about a correctly read probe answer:
      Space for folders and archives only, Cmd+X for any selected item, and
      nothing at all outside Finder. */
  lemma DecisionsOfAnswer(a: ScriptAnswer, hasCutFiles: bool)
    requires Transportable(a)
    ensures ShouldInterceptSpace(ParseProbe(Render(a))) <==> a.InFinder? && (a.pick.Folder? || a.pick.Archive?)
    ensures ShouldCut(ParseProbe(Render(a))) <==> a.InFinder? && (a.pick.Folder? || a.pick.Archive? || a.pick.File?)
    ensures ShouldPaste(ParseProbe(Render(a)), hasCutFiles) <==> a.InFinder? && hasCutFiles
  {
    ParseProbeOfRender(a);
    DecisionsOfMeaning(a, hasCutFiles);
  }

  lemma DecisionsOfMeaning(a: ScriptAnswer, hasCutFiles: bool)
    ensures ShouldInterceptSpace(Meaning(a)) <==> a.InFinder? && (a.pick.Folder? || a.pick.Archive?)
    ensures ShouldCut(Meaning(a)) <==> a.InFinder? && (a.pick.Folder? || a.pick.Archive? || a.pick.File?)
    ensures ShouldPaste(Meaning(a), hasCutFiles) <==> a.InFinder? && hasCutFiles
  {
    if a.InFinder? {
      var t := PickText(a.pick);
      match a.pick
      case Folder(n) =>
        assert StartsWith(t, "folder:") by { assert t[..7] == "folder:"; }
      case Archive(n) =>
        assert StartsWith(t, "archive:") by { assert t[..8] == "archive:"; }
      case File(n) =>
        assert !StartsWith(t, "folder:") by { assert t[1] == 'i'; }
        assert !StartsWith(t, "archive:") by { assert t[0] == 'f'; }
      case NoSelection =>
      case SelectionError =>
    }
  }

  /** Intercepting Space implies wanting Cmd+X. */
  lemma InterceptImpliesCut(p: Snapshot)
    ensures ShouldInterceptSpace(p) ==> ShouldCut(p)
  {
  }

  // -----------------------------------------------------------------------
  // Path readers
  // -----------------------------------------------------------------------

  /** `getSelectedFilePathQuick`: `null` on an exec error or empty output,
      otherwise the trimmed output, `null` when that is empty. */
  function QuickPath(reply: ExecReply): (r: Option<string>)
    ensures r.Some? ==> |r.value| > 0 && Trimmed(r.value)
    ensures r.Some? <==> reply.Stdout? && Trim(reply.text) != ""
    ensures r.Some? ==> r.value == Trim(reply.text)
  {
    match reply
    case ExecFailed(_) => None
    case Stdout(t) =>
      if t == "" then None
      else
        var r := Trim(t);
        if r == "" then None else Some(r)
  }

  /** `getCurrentFinderPathOptimized`: `null` on an exec error, otherwise the
      trimmed output, `null` when that is empty. */
  function CurrentFolder(reply: ExecReply): (r: Option<string>)
    ensures r.Some? ==> |r.value| > 0 && Trimmed(r.value)
    ensures r.None? <==> reply.ExecFailed? || Trim(reply.text) == ""
    ensures r.Some? ==> r.value == Trim(reply.text)
  {
    match reply
    case ExecFailed(_) => None
    case Stdout(t) =>
      var r := Trim(t);
      if r == "" then None else Some(r)
  }

  /** The extra empty-output test of the quick path changes nothing: both
      readers agree on every reply. */
  lemma QuickPathIsCurrentFolder(reply: ExecReply)
    ensures QuickPath(reply) == CurrentFolder(reply)
  {
    if reply.Stdout? && reply.text == "" {
      assert Trim(reply.text) == "";
    }
  }

  /** A trimmed, non-empty path printed with a trailing newline is read back
      unchanged. */
  lemma QuickPathOfPrinted(path: string)
    requires |path| > 0 && Trimmed(path)
    ensures QuickPath(Stdout(path + "\n")) == Some(path)
  {
    TrimOfPadded(path, "\n");
  }

  /** `.map(p => p.trim())`. */
  function TrimEach(ps: seq<string>): (r: seq<string>)
    ensures |r| == |ps|
    ensures forall k :: 0 <= k < |r| ==> r[k] == Trim(ps[k])
  {
    seq(|ps|, k requires 0 <= k < |ps| => Trim(ps[k]))
  }

  /** `.filter(p => p)`: the non-empty strings, in order. */
  function NonEmpty(ps: seq<string>): (r: seq<string>)
    ensures |r| <= |ps|
    ensures forall k :: 0 <= k < |r| ==> |r[k]| > 0
    ensures forall k :: 0 <= k < |r| ==> r[k] in ps
    ensures (forall k :: 0 <= k < |ps| ==> |ps[k]| > 0) ==> r == ps
  {
    if |ps| == 0 then []
    else if |ps[0]| > 0 then [ps[0]] + NonEmpty(ps[1..])
    else NonEmpty(ps[1..])
  }

  /** Every non-empty piece is kept as often as it occurs. */
  lemma {:induction false} NonEmptyKeepsPieces(ps: seq<string>, x: string)
    requires |x| > 0
    ensures multiset(NonEmpty(ps))[x] == multiset(ps)[x]
    decreases |ps|
  {
    if |ps| > 0 {
      assert ps == [ps[0]] + ps[1..];
      NonEmptyKeepsPieces(ps[1..], x);
    }
  }

  /** The filter works piece by piece: filtering a concatenation is
      concatenating the filtered parts, so the kept pieces keep their order. */
  lemma {:induction false} NonEmptyOfConcat(a: seq<string>, b: seq<string>)
    ensures NonEmpty(a + b) == NonEmpty(a) + NonEmpty(b)
    decreases |a|
  {
    if |a| > 0 {
      var ab := a + b;
      assert ab[0] == a[0];
      assert ab[1..] == a[1..] + b;
      NonEmptyOfConcat(a[1..], b);
      if |a[0]| > 0 {
        calc {
          NonEmpty(ab);
          [a[0]] + NonEmpty(a[1..] + b);
          [a[0]] + (NonEmpty(a[1..]) + NonEmpty(b));
          ([a[0]] + NonEmpty(a[1..])) + NonEmpty(b);
        }
      }
    } else {
      assert a + b == b;
    }
  }

  /** `getSelectedFilesOptimized`: `[]` on an exec error, on an `ERROR:`
      answer and on empty output; otherwise the `|||`-separated pieces,
      trimmed, without the empty ones. */
  function SelectedPaths(reply: ExecReply): (r: seq<string>)
    ensures forall k :: 0 <= k < |r| ==> |r[k]| > 0 && Trimmed(r[k])
    ensures reply.ExecFailed? ==> r == []
    ensures reply.Stdout? && StartsWith(Trim(reply.text), "ERROR:") ==> r == []
    ensures reply.Stdout? && Trim(reply.text) == "" ==> r == []
    ensures reply.Stdout? ==> r == ReadPaths(Trim(reply.text))
  {
    match reply
    case ExecFailed(_) => []
    case Stdout(t) => ReadPaths(Trim(t))
  }

  /** The reading of the trimmed answer. */
  function ReadPaths(result: string): (r: seq<string>)
    ensures forall k :: 0 <= k < |r| ==> |r[k]| > 0 && Trimmed(r[k])
    ensures StartsWith(result, "ERROR:") || result == "" ==> r == []
    ensures !StartsWith(result, "ERROR:") && result != "" ==>
              r == NonEmpty(TrimEach(Split(result, "|||")))
  {
    if StartsWith(result, "ERROR:") then []
    else if result == "" then []
    else NonEmpty(TrimEach(Split(result, "|||")))
  }

  /** A POSIX path as Finder reports it: absolute, no `|`, no whitespace at
      its end. */
  predicate PosixPath(p: string) {
    |p| > 0 && p[0] == '/' && '|' !in p && !IsWhite(p[|p| - 1])
  }

  /** What the selection script prints for a non-empty selection. */
  function RenderPaths(ps: seq<string>): string {
    Join(ps, "|||") + "\n"
  }

  /** The path-list reader inverts the selection script for every non-empty
      list of POSIX paths. */
  lemma {:induction false} SelectedPathsOfRender(ps: seq<string>)
    requires |ps| > 0 && forall k :: 0 <= k < |ps| ==> PosixPath(ps[k])
    ensures SelectedPaths(Stdout(RenderPaths(ps))) == ps
  {
    var line := Join(ps, "|||");
    JoinEnds(ps, "|||");
    TrimOfPadded(line, "\n");
    ReadPathsOfJoin(ps);
  }

  lemma {:induction false} ReadPathsOfJoin(ps: seq<string>)
    requires |ps| > 0 && forall k :: 0 <= k < |ps| ==> PosixPath(ps[k])
    ensures ReadPaths(Join(ps, "|||")) == ps
  {
    var line := Join(ps, "|||");
    JoinEnds(ps, "|||");
    assert !StartsWith(line, "ERROR:") by { assert line[0] == '/'; }
    SplitOfJoin(ps, "|||");
    TrimEachOfTrimmed(ps);
  }

  /** For any pieces free of `|` whose join is a non-empty answer other than
      `ERROR:`, the reader gives back the pieces trimmed, with the blank ones
      dropped: a piece with trailing blanks loses them, and an empty piece
      (two joins back to back) disappears. */
  lemma {:induction false} ReadPathsOfPieces(ps: seq<string>)
    requires |ps| > 0 && forall k :: 0 <= k < |ps| ==> '|' !in ps[k]
    requires var line := Join(ps, "|||"); line != "" && !StartsWith(line, "ERROR:")
    ensures ReadPaths(Join(ps, "|||")) == NonEmpty(TrimEach(ps))
  {
    SplitOfJoin(ps, "|||");
  }

  /** A name ending in a blank is reported without it. */
  lemma {:induction false} PaddedNameTrimmed(p: string, q: string)
    requires PosixPath(p) && PosixPath(q)
    ensures ReadPaths(p + " |||" + q) == [p, q]
  {
    PaddedJoin(p, q);
    ReadPathsOfPieces([p + " ", q]);
    PaddedTrims(p, q);
  }

  lemma PaddedJoin(p: string, q: string)
    requires PosixPath(p) && PosixPath(q)
    ensures Join([p + " ", q], "|||") == p + " |||" + q
    ensures '|' !in p + " "
    ensures (p + " |||" + q)[0] == '/'
  {
    var ps := [p + " ", q];
    assert Join(ps[1..], "|||") == q;
    assert forall k :: 0 <= k < |p| ==> (p + " ")[k] == p[k];
  }

  lemma PaddedTrims(p: string, q: string)
    requires PosixPath(p) && PosixPath(q)
    ensures TrimEach([p + " ", q]) == [p, q]
  {
    TrimOfPadded(p, " ");
    TrimOfTrimmed(q);
  }

  /** Six bars in a row read as one separator around a dropped empty piece. */
  lemma {:induction false} DoubleSeparatorDropped(p: string, q: string)
    requires PosixPath(p) && PosixPath(q)
    ensures ReadPaths(p + "||||||" + q) == [p, q]
  {
    DoubleJoin(p, q);
    ReadPathsOfPieces([p, "", q]);
    TrimsAroundEmpty(p, "", q);
    DropsMiddle(p, "", q);
  }

  lemma DoubleJoin(p: string, q: string)
    requires PosixPath(p) && PosixPath(q)
    ensures Join([p, "", q], "|||") == p + "||||||" + q
    ensures (p + "||||||" + q)[0] == '/'
  {
    var ps := [p, "", q];
    assert Join(ps[2..], "|||") == q;
    assert Join(ps[1..], "|||") == "|||" + q;
  }

  lemma TrimsAroundEmpty(p: string, e: string, q: string)
    requires PosixPath(p) && |e| == 0 && PosixPath(q)
    ensures TrimEach([p, e, q]) == [p, e, q]
  {
    TrimOfTrimmed(p);
    TrimOfTrimmed(e);
    TrimOfTrimmed(q);
  }

  lemma DropsMiddle(p: string, e: string, q: string)
    requires |p| > 0 && |e| == 0 && |q| > 0
    ensures NonEmpty([p, e, q]) == [p, q]
  {
    var ps := [p, e, q];
    assert ps[1..][1..] == [q];
  }

  lemma TrimEachOfTrimmed(ps: seq<string>)
    requires forall k :: 0 <= k < |ps| ==> PosixPath(ps[k])
    ensures TrimEach(ps) == ps
  {
    forall k | 0 <= k < |ps| ensures Trim(ps[k]) == ps[k] {
      TrimOfTrimmed(ps[k]);
    }
  }

  /** The first and last characters of a join of non-empty pieces. */
  lemma {:induction false} JoinEnds(ps: seq<string>, sep: string)
    requires |ps| > 0 && forall k :: 0 <= k < |ps| ==> |ps[k]| > 0
    ensures |Join(ps, sep)| > 0
    ensures Join(ps, sep)[0] == ps[0][0]
    ensures Join(ps, sep)[|Join(ps, sep)| - 1] == ps[|ps| - 1][|ps[|ps| - 1]| - 1]
  {
    if |ps| > 1 {
      JoinEnds(ps[1..], sep);
      var j := Join(ps, sep);
      assert j == ps[0] + sep + Join(ps[1..], sep);
    }
  }
}
